=== FILE: README.md ===
# strudel-mcp in Dafny

strudel-mcp is a Model Context Protocol server that drives the Strudel live-coding site (strudel.cc) in a headless browser. It can:
- write pattern code into the site's editor and play or stop it;
- set its tempo;
- keep an in-memory record of the current pattern with an undo history;
- save patterns to, and load them from, `.strudel` files on disk.

Text helpers generate starter code from a description, apply keyword modifications (reverb, delay, louder, …) and stack instruments.

This project models that core as pure Dafny functions over immutable records and proves properties of it. It has one module per source file, except that `src/utils.js` is split across four modules (`CodeGen`, `Validate`, `Tempo`, `PatternFile`); three support modules hold the JavaScript primitives:

| module | file | models |
|---|---|---|
| `Results` | results.dfy | `Option` / `Result`: `null` and thrown errors |
| `Text` | text.dfy | the JavaScript string operations the core uses: `trim`, `toLowerCase`, `includes`, `startsWith`, first-occurrence `replace`, `split`, `join` |
| `Numbers` | numbers.dfy | `parseInt` and number formatting; a number is an integer or `NaN` |
| `CodeGen` | codegen.dfy | `generateCodeFromDescription`, `modifyCode`, `stackPatterns` (`src/utils.js`) |
| `Validate` | validate.dfy | `validateCode` (`src/utils.js`) and how stacking interacts with it |
| `Tempo` | tempo.dfy | `bpmToCps`, `cpsToBpm` (`src/utils.js`) |
| `PatternFile` | patternfile.dfy | `extractMetadata`, `extractCode`, `createPatternFile` (`src/utils.js`) |
| `State` | state.dfy | the pattern state (`src/state.js`) |
| `Browser` | browser.dfy | the browser session and its configuration (`src/browser.js`) |
| `Bridge` | strudel.dfy | the page commands (`src/strudel.js`) |
| `Control` | control.dfy | the playback tools (`src/tools/control.js`) |
| `Persistence` | persistence.dfy | the pattern library tools (`src/tools/persistence.js`) |

Anything outside the program is a parameter of the operation that meets it:
- the wall-clock time;
- the environment variables;
- whether Puppeteer's launch, navigation, `page.evaluate` or keyboard calls throw;
- the document the browser loads;
- the directory listing;
- whether a file write throws.

The filesystem is a map from file name to either the file's text or the error a read would throw. A missing key is `ENOENT`.

Behaviours of the code worth noting:
- **Generator literals.** `generateCodeFromDescription` can return eight distinct literals, including the snare fallback `s("sd")`.
- **Launch failures.** A launch that fails after `newPage` has returned (at the user agent, the navigation or the wait for the editor) leaves both the new browser and the new page in the session. The next `getPage` returns that page without launching again, because `getPage` never probes a page it holds.
- **Failure at `newPage`.** Only a failure at `newPage` itself leaves a browser without a page.
- **Stacking onto a stack.** `stackPatterns` onto code that already starts with `stack(` drops the last character whatever it is. It then appends `,\n  <new>\n)`. The result puts the separating comma on its own line after the previous closing newline. If the old code does not end in `)`, such as `stack(a).slow(2)`, the result is unbalanced.
- **Modifying a call.** `modifyCode` drops one trailing `)` before appending, so a modification moves the new call inside the last call and leaves it unclosed: `s("bd")` with "add reverb" becomes `s("bd".room(0.5).size(0.8)`, which `validateCode` reports as an unclosed parenthesis.
- **Listing fallback name.** When a file has no `# Pattern Name:` header, `listPatterns` names it after the file. It removes only the first `.strudel` from the file name.
- **Failing after the chord.** The wait that follows Ctrl+Enter or Ctrl+. can throw after the page has the chord. The command then reports failure, so `stop` keeps the state's playing flag while the page has been told to stop.
- **Empty tags.** A file saved with no tags is read back with one empty tag `[""]`.

## Model

| member | source | states |
|---|---|---|
| CodeGen.GenerateCodeFromDescription | src/utils.js:18-59 | whatever the description, the generated code is one of the eight fixed pattern literals |
| CodeGen.GenerateIsFirstFiring | src/utils.js:18-59 | the generator returns the code of the first cue, in source order, whose keywords all occur in the lower-cased description, and `s("bd")` when none does |
| CodeGen.KickCues | src/utils.js:25-52 | the kick cues fire on "kick" with "4 on the floor", "kick" with "every beat", and "kick" alone |
| CodeGen.SnareCues | src/utils.js:31-55 | the backbeat cue needs "snare" and one of "2 and 4" / "backbeat"; the later snare cue needs "snare" only |
| CodeGen.HatCues | src/utils.js:34-39 | fast hats need "hi-hat" and "fast"; plain hats need "hi-hat" only |
| CodeGen.BassCues | src/utils.js:42-47 | the minor bass needs "bass" and "c minor"; the dark bass needs "bass" and "dark" |
| CodeGen.GenerateDefault | src/utils.js:49-58 | a description naming no instrument keyword gives the kick pattern |
| CodeGen.ModifyCode | src/utils.js:68-120 | code that already contains the marker of every triggered rule comes back unchanged; otherwise every triggered rule's marker is in the result |
| CodeGen.ApplyRule | src/utils.js:73-115 | a rule that is not asked for, or whose marker is already present, leaves the code alone; one that fires appends its call to the trimmed code after dropping one trailing `)` |
| CodeGen.ReverbOnKick | src/utils.js:73-77 | "add reverb" on `s("bd")` gives `s("bd".room(0.5).size(0.8)` |
| CodeGen.ModifyCodeNoKeyword | src/utils.js:68-120 | a modification mentioning no keyword leaves the code unchanged |
| CodeGen.RulesWellFormed | src/utils.js:73-115 | each rule's appended text starts with the marker the rule checks for, and that marker survives dropping a trailing `)` |
| CodeGen.ApplyRuleKeeps | src/utils.js:73-115 | applying a rule never removes a marker already present |
| CodeGen.ApplyRulesSplit | src/utils.js:73-115 | the rules apply in sequence: applying a list is applying its first part and then the rest |
| CodeGen.ShadowedRule | src/utils.js:94-103 | a later triggered rule with the same marker as an earlier triggered rule never fires |
| CodeGen.LouderBeatsQuieter | src/utils.js:94-103 | when both "louder" and "quieter" are asked for, only the louder gain is applied |
| CodeGen.StackPatterns | src/utils.js:129-143 | empty code gives the new instrument; other code ends with the new instrument and closing parenthesis, and is wrapped in `stack(` unless it already starts with it |
| CodeGen.StackWrapped | src/utils.js:142 | plain non-empty code becomes `stack(`, a line break and indent, the code, then the new instrument as a second entry and the closing parenthesis |
| CodeGen.StackExtended | src/utils.js:135-139 | code that already starts with `stack(` loses its last character and gets the new instrument as one more entry |
| CodeGen.StackTwice | src/utils.js:129-143 | stacking twice onto plain code gives one stack with the comma of the second instrument on its own line |
| CodeGen.StackIntoTrailingCall | src/utils.js:135-139 | stacking onto `stack(a).slow(2)` writes the new instrument into the `.slow` call |
| Validate.ValidateCode | src/utils.js:151-182 | the errors are exactly, in order, the unbalanced and unclosed parenthesis findings and the odd single or double quote findings; the code is valid iff there are none and iff it is well formed; at most three errors, never both parenthesis errors |
| Validate.StaysAbovePrefixes | src/utils.js:155-166 | the running depth check passes iff no prefix closes more parentheses than it opens |
| Validate.StackKeepsWellFormed | src/utils.js:129-143 | stacking valid code onto valid code (ending in `)` when it is already a stack) yields valid code |
| Validate.ApplyRuleOpens | src/utils.js:73-115 | on code ending in `)` that never closes more than it opened, a rule either leaves the code alone or opens exactly one more parenthesis, so one fired rule on balanced code leaves one open |
| Validate.ModifyLeavesUnclosed | src/utils.js:68-120 | a modification that changes balanced code ending in `)` leaves a parenthesis open, so the first validation error is the unclosed one |
| Validate.ReverbOnKickUnclosed | src/utils.js:73-77 | the reverb modification of `s("bd")` fails validation as unclosed |
| Validate.StackNeedsClosingParen | src/utils.js:135-139 | stacking onto a stack that does not end in `)` yields code whose parentheses close before they open |
| Tempo.BpmToCps | src/utils.js:190-193 | the cycle rate times 60 times 4 beats is the tempo; a positive tempo gives a smaller positive rate |
| Tempo.CpsToBpm | src/utils.js:201-203 | the tempo divided by 60 and by 4 beats is the rate |
| Tempo.CpsToBpmInvertsBpmToCps | src/utils.js:190-203 | converting a tempo to a rate and back gives the tempo |
| Tempo.BpmToCpsInvertsCpsToBpm | src/utils.js:190-203 | converting a rate to a tempo and back gives the rate |
| Tempo.BpmToCpsMonotone | src/utils.js:190-193 | a faster tempo gives a faster cycle rate and conversely |
| Tempo.CommonTempos | src/utils.js:190-193 | 120, 90 and 60 BPM are 0.5, 0.375 and 0.25 cycles per second |
| Numbers.ParseNumeral | src/utils.js:243-244 | `parseInt` reads back any integer numeral, with or without a minus sign |
| Numbers.ParseFormat | src/utils.js:243-244 | `parseInt` of a formatted number, NaN included, gives the number |
| Numbers.ParseTrimmedFormat | src/utils.js:243-244 | reading a formatted tempo back after trimming gives the tempo |
| PatternFile.ExtractMetadata | src/utils.js:225-254 | each field takes the value read from the last line that sets it, and keeps its default when no line does |
| PatternFile.ExtractFromConcat | src/utils.js:235-251 | reading headers line by line: reading two blocks is reading the first and then the second |
| PatternFile.FieldUntouched | src/utils.js:226-251 | a field that no line sets keeps its default |
| PatternFile.NoHeaderDefaults | src/utils.js:226-233 | content without header lines gives the default metadata |
| PatternFile.LastHeaderWins | src/utils.js:235-251 | the last line that sets a field decides its value |
| PatternFile.ExtractCode | src/utils.js:262-266 | the extracted code has no surrounding whitespace |
| PatternFile.ExtractCodeEmptyIff | src/utils.js:262-266 | the extracted code is empty iff no line is both non-comment and non-blank |
| PatternFile.HeaderLineRead | src/utils.js:237-250 | every header line the writer produces is read as its own field with its trimmed value |
| PatternFile.CreatePatternFile | src/utils.js:278-291 | with single-line name, time, description and tags, the file's lines are the six header lines, a blank line, the code's lines and the empty piece after the final newline |
| PatternFile.CreatedFileCode | src/utils.js:278-291 | extracting code from a created file gives the code extracted from the code alone: the headers are invisible |
| PatternFile.ExtractCodeOfCode | src/utils.js:262-266 | code with no surrounding whitespace and no comment or blank lines is extracted unchanged |
| PatternFile.CreatedFileMetadata | src/utils.js:278-291 | reading the metadata of a created file gives the trimmed name, the creation time twice, the tempo itself, the trimmed description and the tags as split back |
| PatternFile.TagsRoundTrip | src/utils.js:248-249 | tags without commas are read back trimmed and in order; no tags read back as one empty tag |
| Text.TrimBeforeSplit | src/utils.js:248-249 | trimming the tag text before splitting on commas does not change the trimmed pieces |
| Text.JoinSplit | src/utils.js:263-265 | splitting on a separator and joining with it gives the original text |
| Text.TrimEmptyIffAllSpace | src/utils.js:264 | a trimmed line is empty iff it is all whitespace |
| State.DefaultBpm | src/state.js:14 | the default tempo is the parsed `DEFAULT_BPM` when that is a non-zero number, and 120 otherwise, including when it is unset |
| State.Initial | src/state.js:138-148 | the reset state has no code, is not playing, has an empty history, no change time, and the default tempo |
| State.SetCode | src/state.js:34-48 | the new code and the time are recorded; the replaced code, when non-empty, is the newest history entry; tempo and playing are kept; the history invariant is preserved |
| State.SetCodeHistory | src/state.js:36-42 | after `setCode` the history is the newest at most 50 of the old entries followed by the replaced code |
| State.SetCodeForgetsOldest | src/state.js:36-42 | on a full history the oldest entry is dropped |
| State.SetBpm | src/state.js:55-60 | only the tempo and the change time change |
| State.SetPlaying | src/state.js:67-71 | only the playing flag changes |
| State.ClearHistory | src/state.js:129-133 | only the history changes, and it becomes empty |
| State.Undo | src/state.js:114-124 | an empty history gives nothing and changes nothing; otherwise the newest entry is returned and removed, and nothing else changes |
| State.UndoAfterSetCode | src/state.js:34-48 | undo straight after `setCode` returns the code that was replaced |
| State.UndoAfterSetCodeRestoresHistory | src/state.js:114-124 | below the limit, undo straight after `setCode` restores the history |
| State.ReachableValid | src/state.js:25-148 | every sequence of state operations from start-up keeps at most 50 non-empty history entries |
| Browser.ResolveConfig | src/browser.js:22-28 | the URL falls back to strudel.cc; headless unless `HEADLESS` is "false"; window sizes are the parsed values when non-zero numbers, else 1280 and 720; debug only for "true" |
| Browser.EmptyEnvironmentConfig | src/browser.js:22-28 | with no variables set: strudel.cc, headless, 1280x720, no debug |
| Browser.SizeReadBack | src/browser.js:22-28 | positive window sizes written as numerals are the sizes used, and a non-empty URL is used as given |
| Browser.UnusableSizeFallsBack | src/browser.js:25 | a width of "0" or a non-numeric width falls back to 1280 |
| Browser.Fresh | src/browser.js:49-91 | a launch succeeds iff nothing throws and then holds the new browser and page; a failure reports the prefixed error; a failing launch keeps the old session, a failing `newPage` adds only the new browser, and a later failure holds both new handles |
| Browser.LaunchBrowser | src/browser.js:35-92 | held handles whose page answers are reused unchanged; a page that does not answer is dropped before a fresh launch; otherwise a fresh launch |
| Browser.GetPage | src/browser.js:99-105 | a held page is returned without a probe; without one the browser is launched and a returned page is the session's page |
| Browser.CloseBrowser | src/browser.js:110-117 | without a browser nothing happens; a close that returns clears both handles; one that throws changes nothing |
| Browser.RestartBrowser | src/browser.js:122-125 | a failed close stops the restart; otherwise a fresh launch from a closed session; without a browser, a plain launch from the session as it is |
| Browser.IsBrowserAlive | src/browser.js:130-139 | alive iff both handles are held and the page answers |
| Browser.GetPageNeverProbes | src/browser.js:99-105 | with a page held, `getPage` returns it whatever the probe or a launch would say, even when the browser is not alive |
| Browser.FailedNavigationSticks | src/browser.js:68-105 | after a launch that fails once the page exists, the next `getPage` returns that page |
| Browser.FailedNewPageLeavesBrowser | src/browser.js:52-68 | a launch failing at `newPage` leaves a browser and no page |
| Browser.CloseTwice | src/browser.js:110-117 | closing a closed session does nothing |
| Browser.SuccessHoldsBoth | src/browser.js:35-105 | a successful launch or `getPage` ends with both handles held |
| Bridge.Connect | src/strudel.js:19 | with a page held the world is unchanged; the session is the one `getPage` leaves; an error only comes from a failed launch |
| Bridge.Write | src/strudel.js:32-49 | the code goes into the CodeMirror view when the editor exposes one, else into the textarea if present, else nowhere; nothing else on the page changes |
| Bridge.ExecutePattern | src/strudel.js:17-74 | succeeds iff the page is obtained, nothing throws and the editor exists, and then the code is written and Ctrl+Enter pressed; a failed launch, a throw inside the page or a missing editor changes nothing on the page; a throw before the chord leaves the code written, and a throw in the wait after it leaves the chord sent too; every error carries the execute prefix and the thrown message |
| Bridge.StopPlayback | src/strudel.js:81-104 | succeeds iff the page is obtained and nothing throws, and then reports not playing; Ctrl+. reaches the page iff nothing throws before the chord completes, even when the wait after it throws; errors carry the stop prefix |
| Bridge.StartPlayback | src/strudel.js:111-134 | succeeds iff the page is obtained and nothing throws, and then reports playing; Ctrl+Enter reaches the page iff nothing throws before the chord completes, even when the wait after it throws; errors carry the start prefix |
| Bridge.ReadCode | src/strudel.js:145-157 | no editor reads as empty; a view reads as its document; an editor without a view reads as the textarea's value, or as empty without a textarea |
| Bridge.GetCurrentCode | src/strudel.js:141-164 | a failed launch or a throw inside the page reads as empty text; otherwise the editor's text, whatever other fault is supplied, since the command makes no other page call; nothing on the page changes |
| Bridge.IsPlaying | src/strudel.js:171-186 | playing iff the page is obtained, the in-page check does not throw, and the page shows an element marked as playing; any failure reads as not playing |
| Bridge.CommandsLeaveMarker | src/strudel.js:17-186 | with a page held, executing, starting or stopping never changes what `isPlaying` answers |
| Bridge.StartedButUnmarked | src/strudel.js:111-186 | a successful start reports playing while a page without the marker still reads as not playing |
| Bridge.SetTempo | src/strudel.js:194-227 | succeeds iff the page is obtained and nothing throws; the page is asked for the rate matching the tempo unless the launch or the in-page call throws, so a throw from the wait after it leaves the rate requested; errors carry the tempo prefix and the thrown message |
| Bridge.ExecuteSettleFault | src/strudel.js:50-73 | when the wait after Ctrl+Enter throws, the page holds the code and has the chord, yet the command fails with the thrown message |
| Bridge.PressSettleFault | src/strudel.js:88-134 | when the wait after the chord throws, stop and start fail although the page has received Ctrl+. or Ctrl+Enter |
| Bridge.ExecuteThenRead | src/strudel.js:17-164 | after a successful execute into an editor with a view or textarea, reading the code gives the executed code |
| Bridge.SuccessWithoutWrite | src/strudel.js:32-74 | with an editor that exposes neither view nor textarea, execute reports success without writing anything |
| Bridge.ExecuteIgnoresPriorContent | src/strudel.js:32-49 | what the editor held before does not affect the outcome of an execute |
| Bridge.MissingEditor | src/strudel.js:26-29 | with no editor on the page the result is the editor-not-found error and nothing changes |
| Bridge.LaunchFailureMessage | src/strudel.js:72 | a failed launch is reported with the execute prefix followed by the launch error |
| Control.Stop | src/tools/control.js:16-34 | success iff the bridge stop succeeds; then the state records not playing; on failure the state is unchanged and the bridge error is passed on |
| Control.Start | src/tools/control.js:41-59 | success iff the bridge start succeeds; then the state records playing; on failure the state is unchanged |
| Control.SetTempo | src/tools/control.js:67-86 | success iff the bridge succeeds; the reply carries the tempo, its cycle rate and message, and the state the new tempo |
| Control.GetCurrent | src/tools/control.js:93-108 | a snapshot of the code, tempo, playing flag and change time; nothing changes |
| Control.FailureKeepsState | src/tools/control.js:16-86 | every failed command leaves the pattern state as it was |
| Control.StopFailsAfterChord | src/tools/control.js:16-34 | a stop whose final wait throws fails and keeps the state playing, although the page received Ctrl+. |
| Control.SmoothCommands | src/tools/control.js:16-86 | with a page held and no fault the commands succeed and the state matches what the page was told |
| Control.CommandsKeepValid | src/tools/control.js:16-86 | the commands keep the history invariant |
| Control.SetTempo120 | src/tools/control.js:67-86 | setting 120 BPM asks for 0.5 cycles per second |
| Persistence.SanitizeName | src/tools/persistence.js:54-55 | the sanitised name has the same length; each character is kept lower-cased or replaced by `-` |
| Persistence.SanitizedAlphabet | src/tools/persistence.js:54-55 | file names use only lower-case letters, digits, `-` and `_` |
| Persistence.SanitizeIdempotent | src/tools/persistence.js:54-55 | sanitising twice is sanitising once |
| Persistence.SameFileIff | src/tools/persistence.js:54-55 | two names of equal length share a file iff each character pair agrees up to case or is both replaced |
| Persistence.CaseInsensitive | src/tools/persistence.js:54-55 | a name and its lower-case form share a file |
| Persistence.ExtensionOnlyAtEnd | src/tools/persistence.js:156 | in a file the tools create, the first `.strudel` is the extension, and removing it gives the sanitised name |
| Persistence.SavePattern | src/tools/persistence.js:39-73 | no code is refused and nothing is written; success iff a write does not throw, and then the file holds the created pattern under the sanitised name; a failure changes no file |
| Persistence.LoadPattern | src/tools/persistence.js:81-128 | a missing file is reported not found and an unreadable one with its read error; empty extracted code is refused before the page is touched; otherwise the code is executed, the load succeeds iff the execute does, an execute error is passed on with the state unchanged, and success reports the file's name, code, tempo, description and tags and records code, tempo and playing in the state |
| Persistence.LoadEmptyFile | src/tools/persistence.js:97-99 | a file without code lines is refused as empty and the page is not touched |
| Persistence.ListPatterns | src/tools/persistence.js:135-186 | the count is the number of entries; every entry is a readable `.strudel` file described by its own metadata; the message reports the count |
| Persistence.ListsDirectory | src/tools/persistence.js:140-167 | for a listing of the directory's own entries, a file is listed iff it is a readable `.strudel` file, and no file is listed twice when the listing has no repeats |
| Persistence.ListedExactly | src/tools/persistence.js:143-167 | a file is listed iff it is in the directory, ends in `.strudel` and is readable |
| Persistence.ListedFallbackName | src/tools/persistence.js:156 | a file the tools created without a name header is listed under its sanitised name |
| Persistence.ListedFallbackFirstOnly | src/tools/persistence.js:156 | only the first `.strudel` is removed: `a.strudel.strudel` is listed as `a.strudel` |
| Persistence.DeletePattern | src/tools/persistence.js:194-220 | a missing file is reported not found and nothing changes; any other `unlink` error is passed on and nothing changes; otherwise exactly that file is removed |
| Persistence.DeleteTwice | src/tools/persistence.js:214-216 | deleting twice reports not found the second time, whatever `unlink` would do |
| Persistence.LoadAfterDelete | src/tools/persistence.js:81-220 | loading a deleted pattern, under any name sharing its file, reports not found; after a failed delete the load is as before |
| Persistence.SaveThenLoad | src/tools/persistence.js:39-128 | loading a saved pattern, under any name sharing its file, plays its extracted code and restores its tempo and name |
| Persistence.SaveThenLoadExact | src/tools/persistence.js:39-128 | code without surrounding whitespace, comments or blank lines loads back exactly, with its tempo |

## Left out

- `formatCode` (src/utils.js:211-217): it is not used by the tools modelled here.
- The debug logging and `getConfig`: they have no effect on results.
- The MCP server wiring in `src/index.js`: it is not part of this model.
- Puppeteer itself, the stealth plugin, viewport setting and the `waitForTimeout` delays: each becomes a parameter saying whether the call throws.
- What the page does with the code, the key chords and the requested cycle rate: the model records what was sent, not what the Strudel runtime does.
- The `setcps` call inside `page.evaluate` (src/strudel.js:207-211): its own failure is swallowed in the page, so it always counts as a success.
- `ensurePatternsDir` and the resolution of the patterns directory: the directory is a map that always exists.
- Persistence.SavePattern: the reply carries the file name, not the absolute path, and has no message, because the patterns directory is not resolved; the source's `filepath` and `Pattern saved to …` message are not modelled.
- `listPatterns`' sort by modification date: the listing keeps the directory order, because the order depends on clock strings compared as dates.
- `getState`, the state getters and `getLastModified`: they are field reads of the state record.
- Persistence.ListPatterns: does not state the order of the entries, because the date sort is not modelled.
- The wall-clock time: it is a string parameter.
- Floating point: tempo conversion uses exact reals, and tempos outside the integers are not modelled, so a fractional `# BPM:` header reads as its integer part only through `parseInt`.
- Numbers.Format: writes every integer as plain digits, whereas JavaScript writes numbers of magnitude 1e21 and above in exponent form (`1e+21`), because the model's numbers are exact integers rather than doubles.
- Numbers.ParseNumeral: reads every numeral exactly, whereas `parseInt` rounds numerals beyond 2^53 to the nearest double, because doubles are not modelled.
- Numbers.ParseFormat: the round trip holds for all integers in the model; in JavaScript it fails from 1e21 on (`parseInt("1e+21")` is 1), because of the exponent form above.
- Numbers.ParseTrimmedFormat: holds for all integers in the model, not for tempos from 1e21 on, for the same reason.
- PatternFile.CreatedFileMetadata: the tempo is read back exactly for all integers, not only below 1e21, for the same reason.
- Persistence.SaveThenLoad: the restored tempo is exact for all integers, not only below 1e21, for the same reason.
- Persistence.SaveThenLoadExact: the same, for the same reason.
- Letter case: `toLowerCase` covers ASCII letters only. JavaScript also lower-cases other letters, some of them to ASCII (U+212A KELVIN SIGN becomes `k`), so a description or modification using such letters can select a pattern in `generateCodeFromDescription` or a rule in `modifyCode` where the model does not. File names are not affected: the sanitiser replaces every non-ASCII character with `-` before lower-casing, as the model does.
- Strings are sequences of code points rather than UTF-16 units, so names with characters outside the Basic Multilingual Plane sanitise to one `-` where the source writes two.
- Concurrency between tool calls, and the shared `history` array that `getState` hands out: each operation is atomic on an immutable record.
- Bridge.StopPlayback: a throw between the three keyboard calls of the chord is modelled as no chord sent, because the page document records whole chords only.
- Bridge.StartPlayback: the same, for Ctrl+Enter.
- Bridge.ExecutePattern: the same, for Ctrl+Enter after the write.

=== FILE: browser.dfy ===
/** The browser session (`browser.js`): at most one browser and one page,
    launched on demand, probed for liveness before reuse, and closed on
    request. Puppeteer is abstract: a launch is described by the handles it
    would create and the step, if any, at which it fails; a liveness probe
    and a close are described by their outcome. */
module Browser {
  import opened Results
  import opened Numbers
  import opened Text

  datatype BrowserHandle = BrowserHandle(id: nat)
  datatype PageHandle = PageHandle(id: nat)

  /** The two module-level variables; `None` is `null`. */
  datatype Session = Session(browser: Option<BrowserHandle>, page: Option<PageHandle>)

  const Closed: Session := Session(None, None)

  /** Every reachable session: a page is only held together with its browser. */
  predicate Coherent(s: Session) {
    s.page.Some? ==> s.browser.Some?
  }

  // ---------------------------------------------------------------------------
  // configuration

  /** The environment variables the module reads. */
  datatype Environment = Environment(
    strudelUrl: Option<string>,
    headless: Option<string>,
    windowWidth: Option<string>,
    windowHeight: Option<string>,
    debug: Option<string>)

  datatype Config = Config(url: string, headless: bool, width: int, height: int, debug: bool)

  const DefaultUrl: string := "https://strudel.cc"
  const DefaultWidth: int := 1280
  const DefaultHeight: int := 720

  /** `value || fallback` for an optional string: absent and empty both fall back. */
  function StringOr(value: Option<string>, fallback: string): (r: string)
    ensures value.Some? && value.value != "" ==> r == value.value
    ensures value.None? || value.value == "" ==> r == fallback
  {
    if value.Some? && value.value != "" then value.value else fallback
  }

  /** The configuration object, read once from the environment. */
  function ResolveConfig(env: Environment): (c: Config)
    ensures c.url != ""
    ensures c.headless <==> env.headless != Some("false")
    ensures c.debug <==> env.debug == Some("true")
    ensures c.width != 0 && c.height != 0
    ensures Truthy(ParseOptional(env.windowWidth)) ==> c.width == ParseOptional(env.windowWidth).value
    ensures !Truthy(ParseOptional(env.windowWidth)) ==> c.width == DefaultWidth
    ensures Truthy(ParseOptional(env.windowHeight)) ==> c.height == ParseOptional(env.windowHeight).value
    ensures !Truthy(ParseOptional(env.windowHeight)) ==> c.height == DefaultHeight
  {
    Config(
      StringOr(env.strudelUrl, DefaultUrl),
      env.headless != Some("false"),
      OrDefault(ParseOptional(env.windowWidth), DefaultWidth),
      OrDefault(ParseOptional(env.windowHeight), DefaultHeight),
      env.debug == Some("true"))
  }

  /** With nothing set, the server drives a headless 1280x720 window on the
      public Strudel site, quietly. */
  lemma EmptyEnvironmentConfig()
    ensures ResolveConfig(Environment(None, None, None, None, None))
            == Config(DefaultUrl, true, DefaultWidth, DefaultHeight, false)
  {
  }

  /** A zero or unreadable window size falls back to the default. */
  lemma UnusableSizeFallsBack(env: Environment)
    requires env.windowWidth == Some("0") || env.windowWidth == Some("wide")
    ensures ResolveConfig(env).width == DefaultWidth
  {
    if env.windowWidth == Some("0") {
      assert ParseInt("0") == Int(0) by {
        ParseNumeral("", 0);
        assert "" + NatToString(0) == "0";
      }
    } else {
      assert TrimStart("wide") == "wide";
    }
  }

  /** A positive window size written as a plain numeral is the size the
      window gets; the URL is taken verbatim when set. */
  lemma SizeReadBack(env: Environment, w: nat, h: nat)
    requires w > 0 && env.windowWidth == Some(NatToString(w))
    requires h > 0 && env.windowHeight == Some(NatToString(h))
    ensures ResolveConfig(env).width == w && ResolveConfig(env).height == h
    ensures env.strudelUrl.Some? && env.strudelUrl.value != "" ==>
              ResolveConfig(env).url == env.strudelUrl.value
  {
    ParseNumeral("", w);
    assert "" + NatToString(w) == NatToString(w);
    ParseNumeral("", h);
    assert "" + NatToString(h) == NatToString(h);
  }

  // ---------------------------------------------------------------------------
  // launching

  /** The awaited steps of a launch, in order. */
  datatype LaunchStep = StartBrowser | OpenPage | SetUserAgent | Navigate | WaitForEditor

  datatype LaunchFault = LaunchFault(step: LaunchStep, message: string)

  /** What a fresh launch would do: the browser and page it creates and the
      step at which it throws, if it does. */
  datatype LaunchRun = LaunchRun(browser: BrowserHandle, page: PageHandle, fault: Option<LaunchFault>)

  datatype Launched = Launched(browser: BrowserHandle, page: PageHandle)

  datatype LaunchOutcome = LaunchOutcome(result: Result<Launched>, session: Session)

  const LaunchErrorPrefix: string := "Browser launch failed: "

  /** The launch proper, once reuse has been ruled out. Each assignment takes
      effect only when its awaited call returns: a failing `puppeteer.launch`
      leaves both variables as they were, a failing `newPage` stores the new
      browser but leaves the page variable as it was, and a failure after
      that leaves both new handles in place. */
  function Fresh(s: Session, run: LaunchRun): (r: LaunchOutcome)
    ensures run.fault.None? <==> r.result.Ok?
    ensures r.result.Ok? ==>
              r.result.value == Launched(run.browser, run.page)
              && r.session == Session(Some(run.browser), Some(run.page))
    ensures r.result.Err? ==> r.result.error == LaunchErrorPrefix + run.fault.value.message
    ensures run.fault.Some? && run.fault.value.step == StartBrowser ==> r.session == s
    ensures run.fault.Some? && run.fault.value.step == OpenPage ==>
              r.session == Session(Some(run.browser), s.page)
    ensures run.fault.Some? && run.fault.value.step !in {StartBrowser, OpenPage} ==>
              r.session == Session(Some(run.browser), Some(run.page))
    ensures Coherent(s) ==> Coherent(r.session)
  {
    match run.fault
    case None => LaunchOutcome(Ok(Launched(run.browser, run.page)), Session(Some(run.browser), Some(run.page)))
    case Some(fault) =>
      var session :=
        match fault.step
        case StartBrowser => s
        case OpenPage => s.(browser := Some(run.browser))
        case _ => Session(Some(run.browser), Some(run.page));
      LaunchOutcome(Err(LaunchErrorPrefix + fault.message), session)
  }

  /** `launchBrowser`: with both handles held, a page that answers the
      probe is reused; one that does not is dropped and a fresh launch
      follows. */
  function LaunchBrowser(s: Session, probeOk: bool, run: LaunchRun): (r: LaunchOutcome)
    ensures s.browser.Some? && s.page.Some? && probeOk ==>
              r == LaunchOutcome(Ok(Launched(s.browser.value, s.page.value)), s)
    ensures s.browser.Some? && s.page.Some? && !probeOk ==> r == Fresh(Closed, run)
    ensures s.browser.None? || s.page.None? ==> r == Fresh(s, run)
    ensures Coherent(s) ==> Coherent(r.session)
  {
    if s.browser.Some? && s.page.Some? then
      if probeOk then LaunchOutcome(Ok(Launched(s.browser.value, s.page.value)), s)
      else Fresh(Closed, run)
    else Fresh(s, run)
  }

  /** `getPage`: a held page is returned as it is, without a probe; only
      without a page is the browser launched. */
  function GetPage(s: Session, probeOk: bool, run: LaunchRun): (r: (Result<PageHandle>, Session))
    ensures s.page.Some? ==> r == (Ok(s.page.value), s)
    ensures s.page.None? ==> r.1 == Fresh(s, run).session
    ensures s.page.None? ==> (r.0.Ok? <==> run.fault.None?)
    ensures r.0.Ok? ==> r.1.page == Some(r.0.value)
    ensures Coherent(s) ==> Coherent(r.1)
  {
    if s.page.Some? then (Ok(s.page.value), s)
    else
      var launched := LaunchBrowser(s, probeOk, run);
      (launched.result.MapOk((l: Launched) => l.page), launched.session)
  }

  /** `closeBrowser`: without a browser nothing happens; otherwise a close
      that throws leaves the session as it was and one that returns clears
      both handles. */
  function CloseBrowser(s: Session, closeFault: Option<string>): (r: (Result<Unit>, Session))
    ensures s.browser.None? ==> r == (Ok(Unit), s)
    ensures s.browser.Some? && closeFault.None? ==> r == (Ok(Unit), Closed)
    ensures closeFault.Some? && s.browser.Some? ==> r == (Err(closeFault.value), s)
    ensures Coherent(s) ==> Coherent(r.1)
  {
    if s.browser.None? then (Ok(Unit), s)
    else
      match closeFault
      case None => (Ok(Unit), Closed)
      case Some(e) => (Err(e), s)
  }

  /** `restartBrowser`: close, then launch; a failed close skips the launch. */
  function RestartBrowser(s: Session, closeFault: Option<string>, probeOk: bool, run: LaunchRun)
    : (r: LaunchOutcome)
    ensures s.browser.Some? && closeFault.Some? ==> r == LaunchOutcome(Err(closeFault.value), s)
    ensures s.browser.Some? && closeFault.None? ==> r == Fresh(Closed, run)
    ensures s.browser.None? ==> r == LaunchBrowser(s, probeOk, run)
    ensures s.browser.None? ==> r == Fresh(s, run)
    ensures Coherent(s) ==> Coherent(r.session)
  {
    var (closed, after) := CloseBrowser(s, closeFault);
    if closed.Err? then LaunchOutcome(Err(closed.error), after)
    else LaunchBrowser(after, probeOk, run)
  }

  /** `isBrowserAlive`: both handles held and the page answers. */
  function IsBrowserAlive(s: Session, probeOk: bool): (r: bool)
    ensures r <==> s.browser.Some? && s.page.Some? && probeOk
  {
    if s.browser.None? || s.page.None? then false else probeOk
  }

  // ---------------------------------------------------------------------------
  // properties

  /** A held page is handed out whatever the probe or a launch would say. */
  lemma GetPageNeverProbes(s: Session, p1: bool, r1: LaunchRun, p2: bool, r2: LaunchRun)
    requires s.page.Some?
    ensures GetPage(s, p1, r1) == GetPage(s, p2, r2)
    ensures !IsBrowserAlive(s, p1) ==> GetPage(s, p1, r1).0 == Ok(s.page.value)
  {
  }

  /** A launch that fails once the page exists leaves that page in the
      session, so the next `getPage` returns it without launching again. */
  lemma FailedNavigationSticks(s: Session, run: LaunchRun, probeOk: bool, next: LaunchRun)
    requires s.page.None?
    requires run.fault.Some? && run.fault.value.step in {SetUserAgent, Navigate, WaitForEditor}
    ensures var after := GetPage(s, probeOk, run).1;
            GetPage(after, probeOk, next) == (Ok(run.page), after)
  {
  }

  /** A launch that fails at `newPage` leaves a browser without a page. */
  lemma FailedNewPageLeavesBrowser(run: LaunchRun)
    requires run.fault.Some? && run.fault.value.step == OpenPage
    ensures LaunchBrowser(Closed, false, run).session == Session(Some(run.browser), None)
  {
  }

  /** Closing twice is closing once. */
  lemma CloseTwice(s: Session, f: Option<string>)
    ensures CloseBrowser(CloseBrowser(s, None).1, f) == (Ok(Unit), CloseBrowser(s, None).1)
  {
  }

  /** After a successful close, a restart is an unconditional fresh launch. */
  lemma RestartLaunchesFresh(s: Session, probeOk: bool, run: LaunchRun)
    ensures RestartBrowser(s, None, probeOk, run) == Fresh(if s.browser.Some? then Closed else s, run)
  {
  }

  /** A successful launch or `getPage` always ends with both handles held. */
  lemma SuccessHoldsBoth(s: Session, probeOk: bool, run: LaunchRun)
    ensures LaunchBrowser(s, probeOk, run).result.Ok? ==>
              IsBrowserAlive(LaunchBrowser(s, probeOk, run).session, true)
    ensures GetPage(s, probeOk, run).0.Ok? && Coherent(s) ==>
              IsBrowserAlive(GetPage(s, probeOk, run).1, true)
  {
  }
}

=== FILE: codegen.dfy ===
/** Keyword-driven pattern text: turning a description into starter code,
    applying a named modification to code, and stacking instruments
    (`generateCodeFromDescription`, `modifyCode` and `stackPatterns`). */
module CodeGen {
  import opened Text

  // ---------------------------------------------------------------------------
  // generateCodeFromDescription

  const FourOnTheFloor: string := "s(\"bd bd bd bd\")"
  const Backbeat: string := "s(\"~ sd ~ sd\")"
  const FastHats: string := "s(\"hh*8\")"
  const Hats: string := "s(\"hh*4\")"
  const MinorBass: string := "note(\"c2 eb2 g2 bb2\").s(\"sawtooth\").lpf(400)"
  const DarkBass: string := "note(\"c2 eb2 g2\").s(\"sawtooth\").lpf(300).room(0.3)"
  const Kick: string := "s(\"bd\")"
  const Snare: string := "s(\"sd\")"

  /** Every code string the generator can produce. */
  const Literals: set<string> :=
    {FourOnTheFloor, Backbeat, FastHats, Hats, MinorBass, DarkBass, Kick, Snare}

  /** The generator's decision chain, over the lower-cased description. */
  function GenerateFrom(desc: string): string {
    if Contains(desc, "kick") && Contains(desc, "4 on the floor") then FourOnTheFloor
    else if Contains(desc, "kick") && Contains(desc, "every beat") then FourOnTheFloor
    else if Contains(desc, "snare") && (Contains(desc, "2 and 4") || Contains(desc, "backbeat")) then Backbeat
    else if Contains(desc, "hi-hat") && Contains(desc, "fast") then FastHats
    else if Contains(desc, "hi-hat") then Hats
    else if Contains(desc, "bass") && Contains(desc, "c minor") then MinorBass
    else if Contains(desc, "bass") && Contains(desc, "dark") then DarkBass
    else if Contains(desc, "kick") then Kick
    else if Contains(desc, "snare") then Snare
    else Kick
  }

  /** `generateCodeFromDescription`: always one of the fixed literals. */
  function GenerateCodeFromDescription(description: string): (r: string)
    ensures r in Literals
  {
    GenerateFrom(ToLower(description))
  }

  /** A cue fires when the description contains every word of `all` and at
      least one word of `some` (an empty `some` is no constraint). */
  datatype Cue = Cue(all: seq<string>, some: seq<string>, code: string)

  predicate Fires(desc: string, c: Cue) {
    && (forall i :: 0 <= i < |c.all| ==> Contains(desc, c.all[i]))
    && (|c.some| == 0 || exists i :: 0 <= i < |c.some| && Contains(desc, c.some[i]))
  }

  /** The keyword rules as a table, in the order the generator tries them. */
  const Cues: seq<Cue> := [
    Cue(["kick", "4 on the floor"], [], FourOnTheFloor),
    Cue(["kick", "every beat"], [], FourOnTheFloor),
    Cue(["snare"], ["2 and 4", "backbeat"], Backbeat),
    Cue(["hi-hat", "fast"], [], FastHats),
    Cue(["hi-hat"], [], Hats),
    Cue(["bass", "c minor"], [], MinorBass),
    Cue(["bass", "dark"], [], DarkBass),
    Cue(["kick"], [], Kick),
    Cue(["snare"], [], Snare)
  ]

  /** The code of the first cue from position `k` on that fires, or `fallback`. */
  function FirstFiring(desc: string, cues: seq<Cue>, k: nat, fallback: string): string
    requires k <= |cues|
    decreases |cues| - k
  {
    if k == |cues| then fallback
    else if Fires(desc, cues[k]) then cues[k].code
    else FirstFiring(desc, cues, k + 1, fallback)
  }

  /** `FirstFiring` yields the code of the earliest firing cue from `k` on,
      and the fallback exactly when no cue from `k` on fires. */
  lemma {:induction false} FirstFiringSpec(desc: string, cues: seq<Cue>, k: nat, fallback: string, i: nat)
    requires k <= i <= |cues|
    requires forall j :: k <= j < i ==> !Fires(desc, cues[j])
    requires i == |cues| || Fires(desc, cues[i])
    ensures FirstFiring(desc, cues, k, fallback) == if i == |cues| then fallback else cues[i].code
    decreases i - k
  {
    if k < i {
      FirstFiringSpec(desc, cues, k + 1, fallback, i);
    }
  }

  lemma FiresAll2(desc: string, a: string, b: string)
    ensures Fires(desc, Cue([a, b], [], "")) <==> Contains(desc, a) && Contains(desc, b)
  {
    var c := Cue([a, b], [], "");
    if Fires(desc, c) {
      assert Contains(desc, c.all[0]) && Contains(desc, c.all[1]);
    }
    if Contains(desc, a) && Contains(desc, b) {
      assert forall i :: 0 <= i < 2 ==> Contains(desc, c.all[i]);
    }
  }

  lemma FiresAll1(desc: string, a: string)
    ensures Fires(desc, Cue([a], [], "")) <==> Contains(desc, a)
  {
    var c := Cue([a], [], "");
    if Fires(desc, c) {
      assert Contains(desc, c.all[0]);
    }
    if Contains(desc, a) {
      assert forall i :: 0 <= i < 1 ==> Contains(desc, c.all[i]);
    }
  }

  lemma FiresSome2(desc: string, a: string, x: string, b: string)
    ensures Fires(desc, Cue([a], [x, b], "")) <==> Contains(desc, a) && (Contains(desc, x) || Contains(desc, b))
  {
    var c := Cue([a], [x, b], "");
    if Fires(desc, c) {
      assert Contains(desc, c.all[0]);
      var i :| 0 <= i < 2 && Contains(desc, c.some[i]);
      assert c.some[i] == x || c.some[i] == b;
    }
    if Contains(desc, a) {
      assert forall i :: 0 <= i < 1 ==> Contains(desc, c.all[i]);
    }
    if Contains(desc, x) {
      assert Contains(desc, c.some[0]);
    }
    if Contains(desc, b) {
      assert Contains(desc, c.some[1]);
    }
  }

  /** What the kick cues test. */
  lemma KickCues(d: string)
    ensures Fires(d, Cues[0]) == (Contains(d, "kick") && Contains(d, "4 on the floor"))
    ensures Fires(d, Cues[1]) == (Contains(d, "kick") && Contains(d, "every beat"))
    ensures Fires(d, Cues[7]) == Contains(d, "kick")
  {
    FiresAll2(d, "kick", "4 on the floor");
    FiresAll2(d, "kick", "every beat");
    FiresAll1(d, "kick");
    assert Fires(d, Cues[0]) == Fires(d, Cue(["kick", "4 on the floor"], [], ""));
    assert Fires(d, Cues[1]) == Fires(d, Cue(["kick", "every beat"], [], ""));
    assert Fires(d, Cues[7]) == Fires(d, Cue(["kick"], [], ""));
  }

  /** What the snare cues test. */
  lemma SnareCues(d: string)
    ensures Fires(d, Cues[2]) == (Contains(d, "snare") && (Contains(d, "2 and 4") || Contains(d, "backbeat")))
    ensures Fires(d, Cues[8]) == Contains(d, "snare")
  {
    FiresSome2(d, "snare", "2 and 4", "backbeat");
    FiresAll1(d, "snare");
    assert Fires(d, Cues[2]) == Fires(d, Cue(["snare"], ["2 and 4", "backbeat"], ""));
    assert Fires(d, Cues[8]) == Fires(d, Cue(["snare"], [], ""));
  }

  /** What the hi-hat cues test. */
  lemma HatCues(d: string)
    ensures Fires(d, Cues[3]) == (Contains(d, "hi-hat") && Contains(d, "fast"))
    ensures Fires(d, Cues[4]) == Contains(d, "hi-hat")
  {
    FiresAll2(d, "hi-hat", "fast");
    FiresAll1(d, "hi-hat");
    assert Fires(d, Cues[3]) == Fires(d, Cue(["hi-hat", "fast"], [], ""));
    assert Fires(d, Cues[4]) == Fires(d, Cue(["hi-hat"], [], ""));
  }

  /** What the bass cues test. */
  lemma BassCues(d: string)
    ensures Fires(d, Cues[5]) == (Contains(d, "bass") && Contains(d, "c minor"))
    ensures Fires(d, Cues[6]) == (Contains(d, "bass") && Contains(d, "dark"))
  {
    FiresAll2(d, "bass", "c minor");
    FiresAll2(d, "bass", "dark");
    assert Fires(d, Cues[5]) == Fires(d, Cue(["bass", "c minor"], [], ""));
    assert Fires(d, Cues[6]) == Fires(d, Cue(["bass", "dark"], [], ""));
  }

  /** The generator is the first-firing rule of the cue table, with a plain
      kick as the fallback. */
  lemma GenerateIsFirstFiring(description: string)
    ensures GenerateCodeFromDescription(description) == FirstFiring(ToLower(description), Cues, 0, Kick)
  {
    GenerateFromIsFirstFiring(ToLower(description));
  }

  /** The bass, kick and snare tail of the decision chain. */
  lemma LaterCuesFiring(d: string)
    ensures FirstFiring(d, Cues, 5, Kick) ==
              if Contains(d, "bass") && Contains(d, "c minor") then MinorBass
              else if Contains(d, "bass") && Contains(d, "dark") then DarkBass
              else if Contains(d, "kick") then Kick
              else if Contains(d, "snare") then Snare
              else Kick
  {
    KickCues(d);
    SnareCues(d);
    BassCues(d);
    assert FirstFiring(d, Cues, 8, Kick) == if Fires(d, Cues[8]) then Snare else FirstFiring(d, Cues, 9, Kick);
    assert FirstFiring(d, Cues, 7, Kick) == if Fires(d, Cues[7]) then Kick else FirstFiring(d, Cues, 8, Kick);
    assert FirstFiring(d, Cues, 6, Kick) == if Fires(d, Cues[6]) then DarkBass else FirstFiring(d, Cues, 7, Kick);
    assert FirstFiring(d, Cues, 5, Kick) == if Fires(d, Cues[5]) then MinorBass else FirstFiring(d, Cues, 6, Kick);
  }

  lemma GenerateFromIsFirstFiring(d: string)
    ensures GenerateFrom(d) == FirstFiring(d, Cues, 0, Kick)
  {
    KickCues(d);
    SnareCues(d);
    HatCues(d);
    LaterCuesFiring(d);
    assert FirstFiring(d, Cues, 4, Kick) == if Fires(d, Cues[4]) then Hats else FirstFiring(d, Cues, 5, Kick);
    assert FirstFiring(d, Cues, 3, Kick) == if Fires(d, Cues[3]) then FastHats else FirstFiring(d, Cues, 4, Kick);
    assert FirstFiring(d, Cues, 2, Kick) == if Fires(d, Cues[2]) then Backbeat else FirstFiring(d, Cues, 3, Kick);
    assert FirstFiring(d, Cues, 1, Kick) == if Fires(d, Cues[1]) then FourOnTheFloor else FirstFiring(d, Cues, 2, Kick);
    assert FirstFiring(d, Cues, 0, Kick) == if Fires(d, Cues[0]) then FourOnTheFloor else FirstFiring(d, Cues, 1, Kick);
  }

  /** Without any instrument keyword the generator falls back to a plain kick. */
  lemma GenerateDefault(description: string)
    requires var d := ToLower(description);
             !Contains(d, "kick") && !Contains(d, "snare") && !Contains(d, "hi-hat") && !Contains(d, "bass")
    ensures GenerateCodeFromDescription(description) == Kick
  {
  }

  // ---------------------------------------------------------------------------
  // modifyCode

  /** One modification: it is triggered by any of `keywords`, is skipped
      when `marker` already occurs in the code, and otherwise appends
      `suffix` after dropping one trailing `)` and trimming. */
  datatype Rule = Rule(keywords: seq<string>, marker: string, suffix: string)

  /** A rule whose suffix is its marker followed by `args`. */
  function MethodRule(keywords: seq<string>, marker: string, args: string): (r: Rule)
    ensures StartsWith(r.suffix, r.marker)
  {
    StartsWithConcat(marker, args);
    Rule(keywords, marker, marker + args)
  }

  /** The first modification: reverb through `.room(...).size(...)`. */
  const Reverb: Rule := MethodRule(["reverb", "room"], ".room(", "0.5).size(0.8)")

  /** The modifications in the order `modifyCode` tries them. */
  const Rules: seq<Rule> := [
    Reverb,
    MethodRule(["delay", "echo"], ".delay(", "0.3).delaytime(0.25)"),
    MethodRule(["filter", "darker", "muffled"], ".lpf(", "800)"),
    MethodRule(["louder", "increase volume"], ".gain(", "1.2)"),
    MethodRule(["quieter", "decrease volume", "lower volume"], ".gain(", "0.7)"),
    MethodRule(["faster", "speed up"], ".fast(", "2)"),
    MethodRule(["slower", "slow down"], ".slow(", "2)")
  ]

  predicate Triggered(mod: string, rule: Rule) {
    exists i :: 0 <= i < |rule.keywords| && Contains(mod, rule.keywords[i])
  }

  /** `s.replace(/\)$/, '')`: one `)` at the very end is removed. */
  function DropTrailingParen(s: string): (r: string)
    ensures s == r || s == r + [')']
    ensures |r| < |s| <==> |s| > 0 && s[|s| - 1] == ')'
  {
    if |s| > 0 && s[|s| - 1] == ')' then s[..|s| - 1] else s
  }

  function ApplyRule(code: string, mod: string, rule: Rule): (r: string)
    ensures !Triggered(mod, rule) || Contains(code, rule.marker) ==> r == code
    ensures Triggered(mod, rule) && !Contains(code, rule.marker) ==> EndsWith(r, rule.suffix)
    ensures Triggered(mod, rule) && !Contains(code, rule.marker) ==>
              r == Trim(DropTrailingParen(code)) + rule.suffix
  {
    if Triggered(mod, rule) && !Contains(code, rule.marker) then
      var r := Trim(DropTrailingParen(code)) + rule.suffix;
      assert r[|r| - |rule.suffix|..] == rule.suffix;
      r
    else code
  }

  /** The rules applied one after the other. */
  function ApplyRules(code: string, mod: string, rules: seq<Rule>): string
    decreases |rules|
  {
    if |rules| == 0 then code else ApplyRules(ApplyRule(code, mod, rules[0]), mod, rules[1..])
  }

  /** `modifyCode`. */
  function ModifyCode(currentCode: string, modification: string): (r: string)
    ensures var mod := ToLower(modification);
            (forall i :: 0 <= i < |Rules| && Triggered(mod, Rules[i]) ==> Contains(currentCode, Rules[i].marker))
            ==> r == currentCode
    ensures forall i :: 0 <= i < |Rules| && Triggered(ToLower(modification), Rules[i]) ==>
              Contains(r, Rules[i].marker)
  {
    var mod := ToLower(modification);
    SatisfiedImpliesUnchanged(currentCode, mod, Rules);
    RulesWellFormed();
    ApplyRulesEstablish(currentCode, mod, Rules);
    ApplyRules(currentCode, mod, Rules)
  }

  /** Rules whose markers are all already present leave the code as it is;
      in particular so do rules none of which is triggered. */
  lemma {:induction false} SatisfiedRulesUnchanged(code: string, mod: string, rules: seq<Rule>)
    requires forall i :: 0 <= i < |rules| && Triggered(mod, rules[i]) ==> Contains(code, rules[i].marker)
    ensures ApplyRules(code, mod, rules) == code
    decreases |rules|
  {
    if |rules| > 0 {
      assert forall i :: 1 <= i < |rules| ==> rules[1..][i - 1] == rules[i];
      SatisfiedRulesUnchanged(code, mod, rules[1..]);
    }
  }

  lemma SatisfiedImpliesUnchanged(code: string, mod: string, rules: seq<Rule>)
    ensures (forall i :: 0 <= i < |rules| && Triggered(mod, rules[i]) ==> Contains(code, rules[i].marker))
            ==> ApplyRules(code, mod, rules) == code
  {
    if forall i :: 0 <= i < |rules| && Triggered(mod, rules[i]) ==> Contains(code, rules[i].marker) {
      SatisfiedRulesUnchanged(code, mod, rules);
    }
  }

  /** With no keyword in the modification, `modifyCode` changes nothing. */
  lemma ModifyCodeNoKeyword(currentCode: string, modification: string)
    requires forall i :: 0 <= i < |Rules| ==> !Triggered(ToLower(modification), Rules[i])
    ensures ModifyCode(currentCode, modification) == currentCode
  {
  }

  lemma {:induction false} ApplyRulesSplit(code: string, mod: string, a: seq<Rule>, b: seq<Rule>)
    ensures ApplyRules(code, mod, a + b) == ApplyRules(ApplyRules(code, mod, a), mod, b)
    decreases |a|
  {
    if |a| == 0 {
      assert a + b == b;
    } else {
      assert (a + b)[0] == a[0];
      assert (a + b)[1..] == a[1..] + b;
      ApplyRulesSplit(ApplyRule(code, mod, a[0]), mod, a[1..], b);
    }
  }

  /** A marker that survives the edits a rule makes to the code before
      appending: it is non-empty, starts and ends with non-whitespace and
      does not end with `)`. */
  predicate StableMarker(m: string) {
    |m| > 0 && !IsSpace(m[0]) && !IsSpace(m[|m| - 1]) && m[|m| - 1] != ')'
  }

  predicate WellFormedRule(rule: Rule) {
    StableMarker(rule.marker) && StartsWith(rule.suffix, rule.marker)
  }

  lemma RulesWellFormed()
    ensures forall i :: 0 <= i < |Rules| ==> WellFormedRule(Rules[i])
  {
    assert WellFormedRule(Rules[0]) && WellFormedRule(Rules[1]) && WellFormedRule(Rules[2]);
    assert WellFormedRule(Rules[3]) && WellFormedRule(Rules[4]);
    assert WellFormedRule(Rules[5]) && WellFormedRule(Rules[6]);
  }

  /** A stable marker already in the code is still there after a rule. */
  lemma ApplyRuleKeeps(code: string, mod: string, rule: Rule, m: string)
    requires StableMarker(m) && Contains(code, m)
    ensures Contains(ApplyRule(code, mod, rule), m)
  {
    if Triggered(mod, rule) && !Contains(code, rule.marker) {
      var d := DropTrailingParen(code);
      if d != code {
        ContainsDropLast(code, m);
      }
      ContainsTrim(d, m);
      ContainsAppend(Trim(d), rule.suffix, m);
    }
  }

  /** After a triggered well-formed rule the code contains its marker. */
  lemma ApplyRuleEstablishes(code: string, mod: string, rule: Rule)
    requires WellFormedRule(rule) && Triggered(mod, rule)
    ensures Contains(ApplyRule(code, mod, rule), rule.marker)
  {
    if !Contains(code, rule.marker) {
      ContainsPrefixOf(Trim(DropTrailingParen(code)), rule.suffix, rule.marker);
    }
  }

  lemma {:induction false} ApplyRulesKeeps(code: string, mod: string, rules: seq<Rule>, m: string)
    requires StableMarker(m) && Contains(code, m)
    ensures Contains(ApplyRules(code, mod, rules), m)
    decreases |rules|
  {
    if |rules| > 0 {
      ApplyRuleKeeps(code, mod, rules[0], m);
      ApplyRulesKeeps(ApplyRule(code, mod, rules[0]), mod, rules[1..], m);
    }
  }

  /** Every triggered rule's marker is in the result, whether it was there
      before or the rule appended it. */
  lemma {:induction false} ApplyRulesEstablish(code: string, mod: string, rules: seq<Rule>)
    requires forall i :: 0 <= i < |rules| ==> WellFormedRule(rules[i])
    ensures forall i :: 0 <= i < |rules| && Triggered(mod, rules[i]) ==>
              Contains(ApplyRules(code, mod, rules), rules[i].marker)
    decreases |rules|
  {
    if |rules| > 0 {
      var next := ApplyRule(code, mod, rules[0]);
      var r := ApplyRules(code, mod, rules);
      assert forall i :: 1 <= i < |rules| ==> rules[1..][i - 1] == rules[i];
      ApplyRulesEstablish(next, mod, rules[1..]);
      if Triggered(mod, rules[0]) {
        ApplyRuleEstablishes(code, mod, rules[0]);
        ApplyRulesKeeps(next, mod, rules[1..], rules[0].marker);
      }
    }
  }

  lemma ApplyRulesSingle(code: string, mod: string, rule: Rule)
    ensures ApplyRules(code, mod, [rule]) == ApplyRule(code, mod, rule)
  {
    assert [rule][1..] == [];
  }

  /** A triggered rule shadows a rule right after it with the same marker:
      the second finds the marker the first guaranteed and does nothing. */
  lemma ShadowedRule(code: string, mod: string, pre: seq<Rule>, first: Rule, second: Rule, post: seq<Rule>)
    requires WellFormedRule(first) && Triggered(mod, first) && second.marker == first.marker
    ensures ApplyRules(code, mod, pre + [first] + [second] + post) == ApplyRules(code, mod, pre + [first] + post)
  {
    var before := ApplyRules(code, mod, pre + [first]);
    ApplyRulesSplit(code, mod, pre, [first]);
    ApplyRulesSingle(ApplyRules(code, mod, pre), mod, first);
    ApplyRuleEstablishes(ApplyRules(code, mod, pre), mod, first);
    assert (pre + [first] + [second] + post) == (pre + [first]) + ([second] + post);
    ApplyRulesSplit(code, mod, pre + [first], [second] + post);
    assert ([second] + post)[1..] == post;
    ApplyRulesSplit(code, mod, pre + [first], post);
  }

  /** Asking for louder and quieter at once: the quieter step finds the
      `.gain(` the louder step left, so the result is what `modifyCode`
      would give without the quieter rule at all. */
  lemma LouderBeatsQuieter(currentCode: string, modification: string)
    requires Triggered(ToLower(modification), Rules[3]) && Triggered(ToLower(modification), Rules[4])
    ensures ModifyCode(currentCode, modification) == ApplyRules(currentCode, ToLower(modification), Rules[..4] + Rules[5..])
  {
    var louder, quieter := Rules[3], Rules[4];
    assert WellFormedRule(louder);
    assert Rules == Rules[..3] + [louder] + [quieter] + Rules[5..];
    assert Rules[..4] == Rules[..3] + [louder];
    ShadowedRule(currentCode, ToLower(modification), Rules[..3], louder, quieter, Rules[5..]);
  }

  /** A text lacking one of the letters of `m` does not contain `m`. */
  lemma MissingLetter(s: string, m: string, k: nat)
    requires k < |m| && m[k] !in s
    ensures !Contains(s, m)
  {
    forall i | 0 <= i
      ensures !OccursAt(s, m, i)
    {
      if i + |m| <= |s| {
        assert s[i + k] != m[k];
      }
    }
  }

  /** "add reverb" asks for none of the other modifications. */
  lemma OnlyReverbAsked()
    ensures forall i :: 1 <= i < |Rules| ==> !Triggered("add reverb", Rules[i])
  {
    MissingLetter("add reverb", "delay", 2);
    MissingLetter("add reverb", "echo", 1);
    assert !Triggered("add reverb", Rules[1]);
    MissingLetter("add reverb", "filter", 0);
    MissingLetter("add reverb", "darker", 3);
    MissingLetter("add reverb", "muffled", 0);
    assert !Triggered("add reverb", Rules[2]);
    MissingLetter("add reverb", "louder", 0);
    MissingLetter("add reverb", "increase volume", 0);
    assert !Triggered("add reverb", Rules[3]);
    MissingLetter("add reverb", "quieter", 0);
    MissingLetter("add reverb", "decrease volume", 2);
    MissingLetter("add reverb", "lower volume", 0);
    assert !Triggered("add reverb", Rules[4]);
    MissingLetter("add reverb", "faster", 0);
    MissingLetter("add reverb", "speed up", 0);
    assert !Triggered("add reverb", Rules[5]);
    MissingLetter("add reverb", "slower", 0);
    MissingLetter("add reverb", "slow down", 0);
    assert !Triggered("add reverb", Rules[6]);
  }

  /** "add reverb" asks for the reverb rule. */
  lemma ReverbAsked()
    ensures Triggered("add reverb", Reverb)
  {
    var mod := "add reverb";
    assert Reverb.keywords[0] == "reverb" && mod[4..10] == "reverb";
    assert OccursAt(mod, Reverb.keywords[0], 4);
  }

  /** Dropping the closing `)` of `s("bd")` leaves nothing to trim. */
  lemma KickHead()
    ensures Trim(DropTrailingParen(Kick)) == "s(\"bd\""
  {
    var head := "s(\"bd\"";
    assert DropTrailingParen(Kick) == Kick[..6] == head;
    TrimmedIsFixpoint(head);
  }

  /** A rule that fires appends its call to the prepared code. */
  lemma RuleFires(code: string, mod: string, rule: Rule, head: string)
    requires Triggered(mod, rule) && !Contains(code, rule.marker)
    requires Trim(DropTrailingParen(code)) == head
    ensures ApplyRule(code, mod, rule) == head + rule.suffix
  {
  }

  /** The reverb rule on the single call `s("bd")`. */
  lemma ReverbRuleOnKick()
    ensures ApplyRule(Kick, "add reverb", Reverb) == "s(\"bd\".room(0.5).size(0.8)"
  {
    ReverbAsked();
    ReverbNotInKick();
    KickHead();
    RuleFires(Kick, "add reverb", Reverb, "s(\"bd\"");
    ReverbText();
  }

  /** `s("bd")` has no `.room(` call yet. */
  lemma ReverbNotInKick()
    ensures !Contains(Kick, Reverb.marker)
  {
    assert Reverb.marker == ".room(";
    MissingLetter(Kick, Reverb.marker, 0);
  }

  lemma ReverbText()
    ensures "s(\"bd\"" + Reverb.suffix == "s(\"bd\".room(0.5).size(0.8)"
  {
    assert Reverb.suffix == ".room(0.5).size(0.8)";
  }

  /** Asking for reverb on a single call: the `)` that closed the call is
      removed, so the reverb lands inside it and that call stays open. */
  lemma ReverbOnKick()
    ensures ModifyCode(Kick, "add reverb") == "s(\"bd\".room(0.5).size(0.8)"
  {
    var mod := ToLower("add reverb");
    assert mod == "add reverb";
    var once := "s(\"bd\".room(0.5).size(0.8)";
    ReverbRuleOnKick();
    assert Rules[0] == Reverb;
    assert ApplyRules(Kick, mod, Rules) == ApplyRules(once, mod, Rules[1..]);
    OnlyReverbAsked();
    SatisfiedRulesUnchanged(once, mod, Rules[1..]);
  }

  // ---------------------------------------------------------------------------
  // stackPatterns

  const StackOpen: string := "stack("

  /** How a new stack starts: `stack(`, a line break and the indent. */
  const StackWrapOpen: string := "stack(\n  "

  /** The text that ends every non-trivial stack: the new instrument as the
      last entry, then the closing parenthesis on its own line. */
  function StackTail(newInstrument: string): string {
    ",\n  " + newInstrument + "\n)"
  }

  /** `stackPatterns`: an empty current pattern is replaced; an existing
      `stack(` loses its final character and gets the new instrument as one
      more entry; anything else is wrapped in a new stack together with it. */
  function StackPatterns(currentCode: string, newInstrument: string): (r: string)
    ensures currentCode == "" ==> r == newInstrument
    ensures currentCode != "" ==> EndsWith(r, StackTail(newInstrument))
    ensures currentCode != "" && !StartsWith(currentCode, StackOpen) ==>
              StartsWith(r, StackOpen) && OccursAt(r, currentCode, 9)
    ensures StartsWith(currentCode, StackOpen) ==>
              |r| == |currentCode| + |StackTail(newInstrument)| - 1 &&
              StartsWith(r, currentCode[..|currentCode| - 1])
  {
    var tail := StackTail(newInstrument);
    if currentCode == "" then newInstrument
    else if StartsWith(currentCode, StackOpen) then
      var head := currentCode[..|currentCode| - 1];
      var r := head + tail;
      assert r[..|head|] == head;
      assert r[|r| - |tail|..] == tail;
      r
    else
      var r := StackWrapOpen + currentCode + tail;
      assert r[..6] == StackOpen;
      assert forall k :: 0 <= k < |currentCode| ==> r[9 + k] == currentCode[k];
      assert r[|r| - |tail|..] == tail;
      r
  }

  lemma StackWrapped(c: string, a: string)
    requires c != "" && !StartsWith(c, StackOpen)
    ensures StackPatterns(c, a) == StackWrapOpen + c + StackTail(a)
  {
  }

  lemma StackExtended(c: string, a: string)
    requires StartsWith(c, StackOpen)
    ensures StackPatterns(c, a) == c[..|c| - 1] + StackTail(a)
  {
  }

  /** Stacking twice onto plain code gives one stack of all three, because
      the first call produces a `stack(` the second call extends. Only the
      final `)` is dropped, so the comma lands on a line of its own. */
  lemma StackTwice(c: string, a: string, b: string)
    requires c != "" && !StartsWith(c, StackOpen)
    ensures StackPatterns(StackPatterns(c, a), b) == "stack(\n  " + c + ",\n  " + a + "\n,\n  " + b + "\n)"
  {
    var once := StackPatterns(c, a);
    StackWrapped(c, a);
    var head := StackWrapOpen + c + ",\n  " + a + "\n";
    assert once == head + ")";
    assert once[..6] == StackOpen;
    assert once[..|once| - 1] == head;
    StackExtended(once, b);
    var p := StackWrapOpen + c + ",\n  " + a;
    assert "\n" + ",\n  " == "\n,\n  ";
    RegroupFive(p, "\n", ",\n  ", b, "\n)");
  }

  /** An existing stack followed by a method call: the final character
      dropped is the call's `)`, so the new instrument lands inside it. */
  lemma StackIntoTrailingCall()
    ensures StackPatterns("stack(a).slow(2)", "b") == "stack(a).slow(2,\n  b\n)"
  {
    assert StartsWith("stack(a).slow(2)", StackOpen);
  }
}

=== FILE: control.dfy ===
/** The playback tool (`tools/control.js`): each command calls the bridge
    and, only when the bridge call returns, records the effect in the
    pattern state. A bridge error is passed on unchanged. */
module Control {
  import opened Results
  import opened Numbers
  import opened Tempo
  import opened State
  import opened Bridge

  /** A command's reply, the pattern state and the page world after it. */
  datatype Outcome<T> = Outcome(result: Result<T>, state: PatternState, world: World)

  datatype PlaybackReply = PlaybackReply(playing: bool, message: string)

  datatype TempoReply = TempoReply(bpm: int, cps: real, message: string)

  datatype Current = Current(code: string, bpm: Num, playing: bool, lastModified: Option<string>)

  const StoppedMessage: string := "Playback stopped"
  const StartedMessage: string := "Playback started"

  /** `Tempo set to ${bpm} BPM`. */
  function TempoMessage(bpm: int): string {
    "Tempo set to " + Format(Int(bpm)) + " BPM"
  }

  /** `stop`: Ctrl+. on the page, then the state records that nothing plays. */
  function Stop(s: PatternState, w: World, c: Call): (r: Outcome<PlaybackReply>)
    ensures r.world == StopPlayback(w, c).1
    ensures r.result.Ok? <==> StopPlayback(w, c).0.Ok?
    ensures r.result.Ok? ==>
              r.result.value == PlaybackReply(false, StoppedMessage) && r.state == SetPlaying(s, false)
    ensures r.result.Err? ==> r.result.error == StopPlayback(w, c).0.error && r.state == s
  {
    var (done, after) := StopPlayback(w, c);
    if done.Err? then Outcome(Err(done.error), s, after)
    else Outcome(Ok(PlaybackReply(false, StoppedMessage)), SetPlaying(s, false), after)
  }

  /** `start`: Ctrl+Enter on the page, then the state records playing. */
  function Start(s: PatternState, w: World, c: Call): (r: Outcome<PlaybackReply>)
    ensures r.world == StartPlayback(w, c).1
    ensures r.result.Ok? <==> StartPlayback(w, c).0.Ok?
    ensures r.result.Ok? ==>
              r.result.value == PlaybackReply(true, StartedMessage) && r.state == SetPlaying(s, true)
    ensures r.result.Err? ==> r.result.error == StartPlayback(w, c).0.error && r.state == s
  {
    var (done, after) := StartPlayback(w, c);
    if done.Err? then Outcome(Err(done.error), s, after)
    else Outcome(Ok(PlaybackReply(true, StartedMessage)), SetPlaying(s, true), after)
  }

  /** `setTempo`: the page is asked for the new cycle rate, then the state
      takes the new tempo, stamped with `now`. */
  function SetTempo(s: PatternState, w: World, bpm: int, now: string, c: Call): (r: Outcome<TempoReply>)
    ensures r.world == Bridge.SetTempo(w, bpm as real, c).1
    ensures r.result.Ok? <==> Bridge.SetTempo(w, bpm as real, c).0.Ok?
    ensures r.result.Ok? ==>
              r.result.value.bpm == bpm
              && r.result.value.cps == BpmToCps(bpm as real)
              && r.result.value.message == TempoMessage(bpm)
              && r.state == SetBpm(s, Int(bpm), now)
    ensures r.result.Err? ==> r.result.error == Bridge.SetTempo(w, bpm as real, c).0.error && r.state == s
  {
    var (done, after) := Bridge.SetTempo(w, bpm as real, c);
    if done.Err? then Outcome(Err(done.error), s, after)
    else Outcome(Ok(TempoReply(bpm, done.value.cps, TempoMessage(bpm))), SetBpm(s, Int(bpm), now), after)
  }

  /** `getCurrent`: a snapshot of the pattern state; nothing changes. */
  function GetCurrent(s: PatternState, w: World): (r: Outcome<Current>)
    ensures r.result.Ok? && r.state == s && r.world == w
    ensures r.result.value.code == s.currentCode && r.result.value.bpm == s.currentBpm
    ensures r.result.value.playing == s.isPlaying && r.result.value.lastModified == s.lastModified
  {
    Outcome(Ok(Current(s.currentCode, s.currentBpm, s.isPlaying, s.lastModified)), s, w)
  }

  // ---------------------------------------------------------------------------
  // properties

  /** A failed command leaves the pattern state exactly as it was. */
  lemma FailureKeepsState(s: PatternState, w: World, bpm: int, now: string, c: Call)
    ensures Stop(s, w, c).result.Err? ==> Stop(s, w, c).state == s
    ensures Start(s, w, c).result.Err? ==> Start(s, w, c).state == s
    ensures SetTempo(s, w, bpm, now, c).result.Err? ==> SetTempo(s, w, bpm, now, c).state == s
  {
  }

  /** A stop whose settle wait throws: the page has received Ctrl+., but
      the command fails and the state still records playing. */
  lemma StopFailsAfterChord(s: PatternState, w: World, c: Call)
    requires w.session.page.Some? && FaultAt(c, Settle) && s.isPlaying
    ensures Stop(s, w, c).result.Err? && Stop(s, w, c).state.isPlaying
    ensures Stop(s, w, c).world.doc.chords == w.doc.chords + [CtrlPeriod]
  {
  }

  /** With a held page and no fault, the commands succeed; the state then
      says what the page was told. */
  lemma SmoothCommands(s: PatternState, w: World, bpm: int, now: string, c: Call)
    requires w.session.page.Some? && c.fault.None?
    ensures Stop(s, w, c).result.Ok? && !Stop(s, w, c).state.isPlaying
    ensures Start(s, w, c).result.Ok? && Start(s, w, c).state.isPlaying
    ensures SetTempo(s, w, bpm, now, c).state.currentBpm == Int(bpm)
    ensures SetTempo(s, w, bpm, now, c).world.doc.cpsRequests == w.doc.cpsRequests + [BpmToCps(bpm as real)]
  {
  }

  /** The commands keep the state's history invariant. */
  lemma CommandsKeepValid(s: PatternState, w: World, bpm: int, now: string, c: Call)
    requires Valid(s)
    ensures Valid(Stop(s, w, c).state) && Valid(Start(s, w, c).state)
    ensures Valid(SetTempo(s, w, bpm, now, c).state)
  {
  }

  /** A tempo of 120 BPM is half a cycle per second. */
  lemma SetTempo120(s: PatternState, w: World, now: string, c: Call)
    requires SetTempo(s, w, 120, now, c).result.Ok?
    ensures SetTempo(s, w, 120, now, c).result.value.cps == 0.5
  {
    CommonTempos();
  }
}

=== FILE: numbers.dfy ===
/** JavaScript numbers as the pattern tools use them: integers read with
    `parseInt` and written with template-literal formatting.

    A `Num` is either an integer or `NaN`, the value `parseInt` gives
    when no digit can be read. `-0` is identified with `0`: the two format
    alike and are both falsy. */
module Numbers {
  import opened Results
  import opened Text

  datatype Num = Int(value: int) | NaN

  /** JavaScript truthiness of a number: neither `0` nor `NaN`. */
  predicate Truthy(n: Num) {
    n.Int? && n.value != 0
  }

  /** `n || d` for a number `n` and a fallback integer `d`. */
  function OrDefault(n: Num, d: int): (r: int)
    ensures Truthy(n) ==> r == n.value
    ensures !Truthy(n) ==> r == d
  {
    if n.Int? && n.value != 0 then n.value else d
  }

  // ---------------------------------------------------------------------------
  // digits

  predicate IsDecimalDigit(c: char) {
    '0' <= c <= '9'
  }

  /** `c` is a digit of base `radix` (10 or 16), in either letter case. */
  predicate IsDigit(c: char, radix: nat) {
    IsDecimalDigit(c) || (radix == 16 && (('a' <= c <= 'f') || ('A' <= c <= 'F')))
  }

  function DigitValue(c: char): nat {
    if IsDecimalDigit(c) then c as int - '0' as int
    else if 'a' <= c <= 'f' then c as int - 'a' as int + 10
    else if 'A' <= c <= 'F' then c as int - 'A' as int + 10
    else 0
  }

  function DecimalChar(d: nat): (c: char)
    requires d < 10
    ensures IsDecimalDigit(c) && DigitValue(c) == d
  {
    ('0' as int + d) as char
  }

  /** The number of leading characters of `s` that are digits of `radix`. */
  function LeadingDigits(s: string, radix: nat): (n: nat)
    ensures n <= |s|
    ensures n < |s| ==> !IsDigit(s[n], radix)
    decreases |s|
  {
    if |s| > 0 && IsDigit(s[0], radix) then 1 + LeadingDigits(s[1..], radix) else 0
  }

  lemma {:induction false} LeadingDigitsAll(s: string, radix: nat)
    requires forall i :: 0 <= i < |s| ==> IsDigit(s[i], radix)
    ensures LeadingDigits(s, radix) == |s|
    decreases |s|
  {
    if |s| > 0 {
      assert forall i :: 0 <= i < |s| - 1 ==> s[1..][i] == s[i + 1];
      LeadingDigitsAll(s[1..], radix);
    }
  }

  /** The value of a digit string read most-significant digit first. */
  function DigitsValue(d: string, radix: nat): nat
    decreases |d|
  {
    if |d| == 0 then 0 else DigitsValue(d[..|d| - 1], radix) * radix + DigitValue(d[|d| - 1])
  }

  // ---------------------------------------------------------------------------
  // parseInt

  /** `parseInt(s)` with no radix argument: leading whitespace is skipped, one
      `+` or `-` sign is read, a `0x`/`0X` prefix selects base 16, and the
      longest run of digits that follows is the value; no digit gives `NaN`. */
  function ParseInt(s: string): (r: Num)
    ensures r.Int? ==> exists k :: 0 <= k < |s| && IsDecimalDigit(s[k])
  {
    var t := TrimStart(s);
    TrimStartSpec(s);
    var negative := |t| > 0 && t[0] == '-';
    var u := if |t| > 0 && (t[0] == '-' || t[0] == '+') then t[1..] else t;
    var hex := |u| >= 2 && u[0] == '0' && (u[1] == 'x' || u[1] == 'X');
    var radix := if hex then 16 else 10;
    var v := if hex then u[2..] else u;
    var n := LeadingDigits(v, radix);
    if n == 0 then NaN
    else
      assert hex ==> IsDecimalDigit(u[0]) && u[0] == s[|s| - |t| + (|t| - |u|)];
      assert !hex ==> IsDecimalDigit(v[0]) && v[0] == s[|s| - |t| + (|t| - |u|)];
      var magnitude: int := DigitsValue(v[..n], radix);
      Int(if negative then -magnitude else magnitude)
  }

  /** `parseInt` of an absent environment variable: `parseInt(undefined)`. */
  function ParseOptional(s: Option<string>): (r: Num)
    ensures s.None? ==> r == NaN
  {
    match s
    case Some(x) => ParseInt(x)
    case None => ParseInt("undefined")
  }

  // ---------------------------------------------------------------------------
  // formatting

  /** The decimal numeral of `n`, without leading zeros. */
  function NatToString(n: nat): (r: string)
    ensures |r| > 0
    ensures forall i :: 0 <= i < |r| ==> IsDecimalDigit(r[i])
    ensures r[0] == '0' ==> n == 0
    ensures DigitsValue(r, 10) == n
    decreases n
  {
    if n < 10 then [DecimalChar(n)]
    else
      var r := NatToString(n / 10) + [DecimalChar(n % 10)];
      assert r[..|r| - 1] == NatToString(n / 10);
      r
  }

  /** `${n}`: the decimal numeral with a `-` for negatives, or `NaN`. */
  function Format(n: Num): (r: string)
    ensures |r| > 0 && !IsSpace(r[0])
    ensures forall i :: 0 <= i < |r| ==> !IsSpace(r[i]) && r[i] != '\n'
  {
    match n
    case NaN => "NaN"
    case Int(v) => if v < 0 then "-" + NatToString(-v) else NatToString(v)
  }

  /** A run of decimal digits that does not start with `0x` or `0X`. */
  predicate PlainDigits(d: string) {
    && |d| > 0
    && (forall i :: 0 <= i < |d| ==> IsDecimalDigit(d[i]))
    && !(|d| >= 2 && d[0] == '0' && (d[1] == 'x' || d[1] == 'X'))
  }

  /** The digits `parseInt` reads from an unsigned decimal numeral. */
  lemma ParseUnsigned(d: string)
    requires PlainDigits(d)
    ensures ParseInt(d) == Int(DigitsValue(d, 10))
  {
    assert TrimStart(d) == d;
    LeadingDigitsAll(d, 10);
    assert d[..|d|] == d;
  }

  /** The digits `parseInt` reads after a `-`. */
  lemma ParseNegative(d: string)
    requires PlainDigits(d)
    ensures ParseInt("-" + d) == Int(-(DigitsValue(d, 10) as int))
  {
    var s := "-" + d;
    assert TrimStart(s) == s;
    assert s[1..] == d;
    LeadingDigitsAll(d, 10);
    assert d[..|d|] == d;
  }

  /** A numeral of `NatToString` is read as plain decimal digits. */
  lemma NumeralIsPlain(m: nat)
    ensures PlainDigits(NatToString(m))
  {
  }

  /** Reading a numeral of `NatToString` back, after an optional sign. */
  lemma ParseNumeral(sign: string, m: nat)
    requires sign == "" || sign == "-"
    ensures ParseInt(sign + NatToString(m)) == Int(if sign == "-" then -(m as int) else m)
  {
    var d := NatToString(m);
    NumeralIsPlain(m);
    if sign == "" {
      assert sign + d == d;
      ParseUnsigned(d);
    } else {
      ParseNegative(d);
    }
  }

  /** `parseInt("NaN")` finds no digit. */
  lemma ParseNaN()
    ensures ParseInt("NaN") == NaN
  {
    assert TrimStart("NaN") == "NaN";
  }

  /** Formatting a number and parsing it back gives the number again. */
  lemma ParseFormat(n: Num)
    ensures ParseInt(Format(n)) == n
  {
    match n
    case NaN =>
      ParseNaN();
    case Int(v) =>
      if v < 0 {
        ParseNumeral("-", -v);
      } else {
        ParseNumeral("", v);
        assert "" + NatToString(v) == NatToString(v);
      }
  }

  /** `parseInt` ignores whitespace on either side of a formatted number. */
  lemma ParseTrimmedFormat(n: Num)
    ensures ParseInt(Trim(Format(n))) == n
  {
    var f := Format(n);
    assert Trimmed(f);
    TrimmedIsFixpoint(f);
    ParseFormat(n);
  }
}

=== FILE: patternfile.dfy ===
/** The saved-pattern file format: six `# Key: value` header lines, a blank
    line, then the code (`createPatternFile`), read back line by line by
    `extractMetadata` and `extractCode`. */
module PatternFile {
  import opened Results
  import opened Text
  import opened Numbers

  /** What the header lines of a file describe. */
  datatype Metadata = Metadata(
    name: string,
    created: string,
    modified: string,
    bpm: Num,
    description: string,
    tags: seq<string>)

  /** The metadata of a file without header lines. */
  const Defaults: Metadata := Metadata("", "", "", Int(120), "", [])

  datatype Field = Name | Created | Modified | Bpm | Description | Tags

  /** The prefix that marks a header line for `f`. */
  function Key(f: Field): string {
    match f
    case Name => "# Pattern Name:"
    case Created => "# Created:"
    case Modified => "# Modified:"
    case Bpm => "# BPM:"
    case Description => "# Description:"
    case Tags => "# Tags:"
  }

  /** The field a line sets, trying the keys in the reader's order. */
  function HeaderField(line: string): (r: Option<Field>)
    ensures r.Some? ==> StartsWith(line, Key(r.value))
    ensures r.None? ==> forall f: Field :: !StartsWith(line, Key(f))
  {
    if StartsWith(line, Key(Name)) then Some(Name)
    else if StartsWith(line, Key(Created)) then Some(Created)
    else if StartsWith(line, Key(Modified)) then Some(Modified)
    else if StartsWith(line, Key(Bpm)) then Some(Bpm)
    else if StartsWith(line, Key(Description)) then Some(Description)
    else if StartsWith(line, Key(Tags)) then Some(Tags)
    else None
  }

  /** The text after the key, trimmed. */
  function HeaderValue(line: string, f: Field): string
    requires StartsWith(line, Key(f))
  {
    Trim(line[|Key(f)|..])
  }

  /** A field's value, whatever its type. */
  datatype Value = Text(text: string) | Number(number: Num) | List(items: seq<string>)

  function Get(m: Metadata, f: Field): Value {
    match f
    case Name => Text(m.name)
    case Created => Text(m.created)
    case Modified => Text(m.modified)
    case Bpm => Number(m.bpm)
    case Description => Text(m.description)
    case Tags => List(m.tags)
  }

  /** How a trimmed header value becomes a field value: the tempo with
      `parseInt`, the tags split at commas and trimmed one by one. */
  function Interpret(f: Field, raw: string): Value {
    match f
    case Bpm => Number(ParseInt(raw))
    case Tags => List(MapTrim(Split(raw, ',')))
    case _ => Text(raw)
  }

  /** `m` with field `f` set from the trimmed header value `raw`. */
  function Set(m: Metadata, f: Field, raw: string): (r: Metadata)
    ensures Get(r, f) == Interpret(f, raw)
    ensures forall g: Field :: g != f ==> Get(r, g) == Get(m, g)
  {
    match f
    case Name => m.(name := raw)
    case Created => m.(created := raw)
    case Modified => m.(modified := raw)
    case Bpm => m.(bpm := ParseInt(raw))
    case Description => m.(description := raw)
    case Tags => m.(tags := MapTrim(Split(raw, ',')))
  }

  /** The effect of one line on the metadata read so far. */
  function ApplyLine(m: Metadata, line: string): Metadata {
    match HeaderField(line)
    case None => m
    case Some(f) => Set(m, f, HeaderValue(line, f))
  }

  /** The metadata after reading `lines` in order, starting from `m`. */
  function ExtractFrom(m: Metadata, lines: seq<string>): Metadata
    decreases |lines|
  {
    if |lines| == 0 then m else ApplyLine(ExtractFrom(m, lines[..|lines| - 1]), lines[|lines| - 1])
  }

  /** No line of `lines` sets field `f`. */
  predicate Untouched(lines: seq<string>, f: Field) {
    forall i :: 0 <= i < |lines| ==> !Sets(lines[i], f)
  }

  /** Line `k` is the last line of `lines` that sets field `f`. */
  predicate LastSetter(lines: seq<string>, f: Field, k: nat) {
    k < |lines| && Sets(lines[k], f) && forall j :: k < j < |lines| ==> !Sets(lines[j], f)
  }

  /** `extractMetadata`: each field is read from the last line that sets it,
      and keeps its default when no line does. */
  function ExtractMetadata(content: string): (r: Metadata)
    ensures forall f :: Untouched(Split(content, '\n'), f) ==> Get(r, f) == Get(Defaults, f)
    ensures forall f, k: nat :: LastSetter(Split(content, '\n'), f, k) ==>
              Get(r, f) == Interpret(f, HeaderValue(Split(content, '\n')[k], f))
  {
    var lines := Split(content, '\n');
    assert forall f :: Untouched(lines, f) ==> Get(ExtractFrom(Defaults, lines), f) == Get(Defaults, f) by {
      forall f | Untouched(lines, f)
        ensures Get(ExtractFrom(Defaults, lines), f) == Get(Defaults, f)
      {
        FieldUntouched(Defaults, lines, f);
      }
    }
    assert forall f, k: nat :: LastSetter(lines, f, k) ==>
             Get(ExtractFrom(Defaults, lines), f) == Interpret(f, HeaderValue(lines[k], f)) by {
      forall f, k: nat | LastSetter(lines, f, k)
        ensures Get(ExtractFrom(Defaults, lines), f) == Interpret(f, HeaderValue(lines[k], f))
      {
        LastHeaderWins(Defaults, lines, f, k);
      }
    }
    ExtractFrom(Defaults, lines)
  }

  // ---------------------------------------------------------------------------
  // reading metadata

  /** Reading one more line applies it to what was read before. */
  lemma ExtractFromSnoc(m: Metadata, lines: seq<string>, x: string)
    ensures ExtractFrom(m, lines + [x]) == ApplyLine(ExtractFrom(m, lines), x)
  {
    var all := lines + [x];
    assert all[..|all| - 1] == lines;
  }

  lemma {:induction false} ExtractFromConcat(m: Metadata, a: seq<string>, b: seq<string>)
    ensures ExtractFrom(m, a + b) == ExtractFrom(ExtractFrom(m, a), b)
    decreases |b|
  {
    if |b| == 0 {
      assert a + b == a;
    } else {
      var init, x := b[..|b| - 1], b[|b| - 1];
      assert b == init + [x];
      assert a + b == (a + init) + [x];
      ExtractFromConcat(m, a, init);
      ExtractFromSnoc(m, a + init, x);
      ExtractFromSnoc(ExtractFrom(m, a), init, x);
    }
  }

  /** Lines that set field `f`. */
  predicate Sets(line: string, f: Field) {
    HeaderField(line) == Some(f)
  }

  /** A field no line sets keeps its value. */
  lemma {:induction false} FieldUntouched(m: Metadata, lines: seq<string>, f: Field)
    requires forall i :: 0 <= i < |lines| ==> !Sets(lines[i], f)
    ensures Get(ExtractFrom(m, lines), f) == Get(m, f)
    decreases |lines|
  {
    if |lines| > 0 {
      var init := lines[..|lines| - 1];
      assert forall i :: 0 <= i < |init| ==> init[i] == lines[i];
      FieldUntouched(m, init, f);
    }
  }

  /** Lines without any header leave the metadata as it is. */
  lemma {:induction false} NoHeaderUnchanged(m: Metadata, lines: seq<string>)
    requires forall i :: 0 <= i < |lines| ==> HeaderField(lines[i]).None?
    ensures ExtractFrom(m, lines) == m
    decreases |lines|
  {
    if |lines| > 0 {
      var init := lines[..|lines| - 1];
      assert forall i :: 0 <= i < |init| ==> init[i] == lines[i];
      NoHeaderUnchanged(m, init);
    }
  }

  /** With no header line at all, `extractMetadata` gives the defaults. */
  lemma NoHeaderDefaults(content: string)
    requires forall i :: 0 <= i < |Split(content, '\n')| ==> HeaderField(Split(content, '\n')[i]).None?
    ensures ExtractMetadata(content) == Defaults
  {
    NoHeaderUnchanged(Defaults, Split(content, '\n'));
  }

  /** The last line that sets a field decides its value. */
  lemma LastHeaderWins(m: Metadata, lines: seq<string>, f: Field, k: nat)
    requires k < |lines| && Sets(lines[k], f)
    requires forall j :: k < j < |lines| ==> !Sets(lines[j], f)
    ensures Get(ExtractFrom(m, lines), f) == Interpret(f, HeaderValue(lines[k], f))
  {
    var a, b := lines[..k + 1], lines[k + 1..];
    assert lines == a + b;
    ExtractFromConcat(m, a, b);
    assert a[..|a| - 1] == lines[..k];
    FieldUntouched(ExtractFrom(m, a), b, f);
  }

  // ---------------------------------------------------------------------------
  // extractCode

  /** A line `extractCode` keeps: not a `#` comment and not blank. */
  predicate IsCodeLine(line: string) {
    !StartsWith(line, "#") && Trim(line) != ""
  }

  /** `lines.filter(IsCodeLine)`. */
  function CodeLines(lines: seq<string>): (r: seq<string>)
    ensures |r| <= |lines|
    ensures forall i :: 0 <= i < |r| ==> IsCodeLine(r[i])
    decreases |lines|
  {
    if |lines| == 0 then []
    else
      var rest := CodeLines(lines[1..]);
      if IsCodeLine(lines[0]) then [lines[0]] + rest else rest
  }

  /** `extractCode`: the kept lines joined with newlines, trimmed. */
  function ExtractCode(content: string): (r: string)
    ensures Trimmed(r)
  {
    TrimIsTrimmed(Join(CodeLines(Split(content, '\n')), "\n"));
    Trim(Join(CodeLines(Split(content, '\n')), "\n"))
  }

  lemma {:induction false} CodeLinesConcat(a: seq<string>, b: seq<string>)
    ensures CodeLines(a + b) == CodeLines(a) + CodeLines(b)
    decreases |a|
  {
    if |a| == 0 {
      assert a + b == b;
    } else {
      assert (a + b)[1..] == a[1..] + b;
      CodeLinesConcat(a[1..], b);
    }
  }

  lemma {:induction false} CodeLinesAll(lines: seq<string>)
    requires forall i :: 0 <= i < |lines| ==> IsCodeLine(lines[i])
    ensures CodeLines(lines) == lines
    decreases |lines|
  {
    if |lines| > 0 {
      assert forall i :: 0 <= i < |lines| - 1 ==> lines[1..][i] == lines[i + 1];
      CodeLinesAll(lines[1..]);
    }
  }

  lemma {:induction false} CodeLinesNone(lines: seq<string>)
    requires forall i :: 0 <= i < |lines| ==> !IsCodeLine(lines[i])
    ensures CodeLines(lines) == []
    decreases |lines|
  {
    if |lines| > 0 {
      assert forall i :: 0 <= i < |lines| - 1 ==> lines[1..][i] == lines[i + 1];
      CodeLinesNone(lines[1..]);
    }
  }

  /** The first kept line is a kept line of the input. */
  lemma {:induction false} CodeLinesFirst(lines: seq<string>, k: nat)
    requires k < |lines| && IsCodeLine(lines[k])
    ensures |CodeLines(lines)| > 0
    decreases |lines|
  {
    if !IsCodeLine(lines[0]) {
      assert lines[1..][k - 1] == lines[k];
      CodeLinesFirst(lines[1..], k - 1);
    }
  }

  /** A joined text that is all whitespace has an all-whitespace first part. */
  lemma JoinAllSpaceFirst(parts: seq<string>, sep: string)
    requires |parts| > 0 && AllSpace(Join(parts, sep))
    ensures AllSpace(parts[0])
  {
    var j := Join(parts, sep);
    if |parts| > 1 {
      assert j == parts[0] + (sep + Join(parts[1..], sep));
    }
    assert j[..|parts[0]|] == parts[0];
    AllSpaceBefore(j, |parts[0]|);
  }

  /** Some line of `lines` is one `extractCode` keeps. */
  predicate HasCodeLine(lines: seq<string>) {
    exists i :: 0 <= i < |lines| && IsCodeLine(lines[i])
  }

  /** Keeping the lines of a list with a kept line leaves non-blank text. */
  lemma KeptTextNotBlank(lines: seq<string>)
    requires HasCodeLine(lines)
    ensures Trim(Join(CodeLines(lines), "\n")) != ""
  {
    var k :| 0 <= k < |lines| && IsCodeLine(lines[k]);
    CodeLinesFirst(lines, k);
    var kept := CodeLines(lines);
    TrimEmptyIffAllSpace(Join(kept, "\n"));
    TrimEmptyIffAllSpace(kept[0]);
    assert IsCodeLine(kept[0]);
    if AllSpace(Join(kept, "\n")) {
      JoinAllSpaceFirst(kept, "\n");
    }
  }

  /** `extractCode` finds nothing exactly when no line is a kept line;
      the loader reports such a file as empty. */
  lemma ExtractCodeEmptyIff(content: string)
    ensures ExtractCode(content) == "" <==> !HasCodeLine(Split(content, '\n'))
  {
    var lines := Split(content, '\n');
    if HasCodeLine(lines) {
      KeptTextNotBlank(lines);
    } else {
      CodeLinesNone(lines);
      assert Join(CodeLines(lines), "\n") == "";
    }
  }

  // ---------------------------------------------------------------------------
  // createPatternFile

  /** One header line: the key, a space, the value. */
  function HeaderLine(f: Field, value: string): string {
    Key(f) + " " + value
  }

  /** The value of the tags header: the tags joined with `", "`. */
  function TagsText(tags: seq<string>): string {
    Join(tags, ", ")
  }

  /** The six header lines of a new file, in the order they are written. */
  function Headers(name: string, bpm: Num, description: string, tags: seq<string>,
                   now: string): seq<string>
  {
    [HeaderLine(Name, name), HeaderLine(Created, now), HeaderLine(Modified, now),
     HeaderLine(Bpm, Format(bpm)), HeaderLine(Description, description),
     HeaderLine(Tags, TagsText(tags))]
  }

  /** Lines written one after another, each ended by a newline. */
  function Terminated(lines: seq<string>): string
    decreases |lines|
  {
    if |lines| == 0 then "" else lines[0] + "\n" + Terminated(lines[1..])
  }

  /** `createPatternFile`, with the creation time `now` passed in: the header
      lines, a blank line, then the code and a final newline. */
  function CreatePatternFile(name: string, code: string, bpm: Num, description: string,
                             tags: seq<string>, now: string): (r: string)
    ensures SingleLine(name) && SingleLine(now) && SingleLine(description)
            && (forall i :: 0 <= i < |tags| ==> SingleLine(tags[i])) ==>
              Split(r, '\n') == Headers(name, bpm, description, tags, now) + [""] + Split(code, '\n') + [""]
  {
    var hs := Headers(name, bpm, description, tags, now);
    var r := Terminated(hs + [""]) + code + "\n";
    assert SingleLine(name) && SingleLine(now) && SingleLine(description)
           && (forall i :: 0 <= i < |tags| ==> SingleLine(tags[i])) ==>
             Split(r, '\n') == hs + [""] + Split(code, '\n') + [""] by {
      if SingleLine(name) && SingleLine(now) && SingleLine(description)
         && (forall i :: 0 <= i < |tags| ==> SingleLine(tags[i])) {
        HeadersSingle(name, bpm, description, tags, now);
        SplitLayout(hs, code);
      }
    }
    r
  }

  // ---------------------------------------------------------------------------
  // reading a created file back

  predicate SingleLine(s: string) {
    '\n' !in s
  }

  lemma TerminatedCons(lines: seq<string>, rest: string)
    requires |lines| > 0
    ensures Terminated(lines) + rest == lines[0] + ['\n'] + (Terminated(lines[1..]) + rest)
  {
  }

  lemma ConsAppend(lines: seq<string>, more: seq<string>)
    requires |lines| > 0
    ensures lines + more == [lines[0]] + (lines[1..] + more)
  {
  }

  lemma {:induction false} SplitTerminated(lines: seq<string>, rest: string)
    requires forall i :: 0 <= i < |lines| ==> SingleLine(lines[i])
    ensures Split(Terminated(lines) + rest, '\n') == lines + Split(rest, '\n')
    decreases |lines|
  {
    if |lines| == 0 {
      assert Terminated(lines) + rest == rest;
    } else {
      var h, t := lines[0], lines[1..];
      var tail := Terminated(t) + rest;
      assert forall i :: 0 <= i < |t| ==> t[i] == lines[i + 1];
      SplitTerminated(t, rest);
      TerminatedCons(lines, rest);
      SplitLine(h, tail, '\n');
      ConsAppend(lines, Split(rest, '\n'));
    }
  }

  /** Every key starts with `#` and has a distinct third character. */
  lemma KeyShape(f: Field, g: Field)
    ensures |Key(f)| > 2 && Key(f)[0] == '#' && SingleLine(Key(f))
    ensures f != g ==> Key(f)[2] != Key(g)[2]
  {
  }

  /** A header line is read back as its own field with its value trimmed. */
  lemma HeaderLineRead(f: Field, v: string)
    ensures HeaderField(HeaderLine(f, v)) == Some(f)
    ensures HeaderValue(HeaderLine(f, v), f) == Trim(v)
  {
    var line := HeaderLine(f, v);
    KeyShape(f, f);
    assert line == Key(f) + (" " + v);
    StartsWithConcat(Key(f), " " + v);
    forall g | g != f
      ensures !StartsWith(line, Key(g))
    {
      KeyShape(f, g);
      KeyShape(g, f);
      NotStartsWithAt(line, Key(g), 2);
    }
    assert line[|Key(f)|..] == [' '] + v;
    TrimPrependSpace(' ', v);
  }

  lemma HeaderLineSingle(f: Field, v: string)
    requires SingleLine(v)
    ensures SingleLine(HeaderLine(f, v))
  {
    KeyShape(f, f);
  }

  /** A kept code line never sets a field. */
  lemma CodeLineNotHeader(line: string)
    requires IsCodeLine(line)
    ensures HeaderField(line).None?
  {
    forall f: Field
      ensures !StartsWith(line, Key(f))
    {
      KeyShape(f, f);
      if |line| > 0 {
        assert line[..1] == [line[0]];
        NotStartsWithAt(line, Key(f), 0);
      }
    }
  }

  /** A line that starts with `#` is never kept as code. */
  lemma HeaderNotCode(f: Field, v: string)
    ensures !IsCodeLine(HeaderLine(f, v))
  {
    KeyShape(f, f);
  }

  lemma HeadersSingle(name: string, bpm: Num, description: string, tags: seq<string>,
                      now: string)
    requires SingleLine(name) && SingleLine(now) && SingleLine(description)
    requires forall i :: 0 <= i < |tags| ==> SingleLine(tags[i])
    ensures forall i :: 0 <= i < 6 ==> SingleLine(Headers(name, bpm, description, tags, now)[i])
  {
    JoinAvoids(tags, ", ", '\n');
    HeaderLineSingle(Name, name);
    HeaderLineSingle(Created, now);
    HeaderLineSingle(Modified, now);
    HeaderLineSingle(Bpm, Format(bpm));
    HeaderLineSingle(Description, description);
    HeaderLineSingle(Tags, TagsText(tags));
  }

  /** A final newline adds one empty piece. */
  lemma SplitFinalNewline(code: string)
    ensures Split(code + "\n", '\n') == Split(code, '\n') + [""]
  {
    SplitConcat(code, "", '\n');
    assert code + ['\n'] + "" == code + "\n";
  }

  /** Splitting header lines, a blank line and a final-newline body. */
  lemma SplitLayout(hs: seq<string>, code: string)
    requires forall i :: 0 <= i < |hs| ==> SingleLine(hs[i])
    ensures Split(Terminated(hs + [""]) + code + "\n", '\n') == hs + [""] + Split(code, '\n') + [""]
  {
    var ls := hs + [""];
    assert forall i :: 0 <= i < |ls| ==> SingleLine(ls[i]);
    SplitTerminated(ls, code + "\n");
    assert Terminated(ls) + code + "\n" == Terminated(ls) + (code + "\n");
    SplitFinalNewline(code);
  }

  /** The lines of a created file: the headers, a blank line, the lines of the
      code and the empty piece after the final newline. */
  lemma FileLines(name: string, code: string, bpm: Num, description: string,
                  tags: seq<string>, now: string)
    requires SingleLine(name) && SingleLine(now) && SingleLine(description)
    requires forall i :: 0 <= i < |tags| ==> SingleLine(tags[i])
    ensures Split(CreatePatternFile(name, code, bpm, description, tags, now), '\n')
            == Headers(name, bpm, description, tags, now) + [""] + Split(code, '\n') + [""]
  {
    HeadersSingle(name, bpm, description, tags, now);
    SplitLayout(Headers(name, bpm, description, tags, now), code);
  }

  /** Header lines and blank lines around a body keep only the body's code. */
  lemma CodeLinesAround(hs: seq<string>, body: seq<string>)
    requires forall i :: 0 <= i < |hs| ==> !IsCodeLine(hs[i])
    ensures CodeLines(hs + [""] + body + [""]) == CodeLines(body)
  {
    CodeLinesNone(hs);
    assert Trim("") == "";
    CodeLinesNone([""]);
    CodeLinesConcat(hs + [""] + body, [""]);
    CodeLinesConcat(hs + [""], body);
    CodeLinesConcat(hs, [""]);
  }

  /** No header line of a created file is kept as code. */
  lemma HeadersNotCode(name: string, bpm: Num, description: string, tags: seq<string>, now: string)
    ensures var hs := Headers(name, bpm, description, tags, now);
            forall i :: 0 <= i < |hs| ==> !IsCodeLine(hs[i])
  {
    HeadersInOrder(name, bpm, description, tags, now);
    var vs := HeaderValues(name, bpm, description, tags, now);
    forall k | 0 <= k < |FieldOrder|
      ensures !IsCodeLine(HeaderLine(FieldOrder[k], vs[k]))
    {
      HeaderNotCode(FieldOrder[k], vs[k]);
    }
  }

  /** The code read back from a created file is the code read from the code
      alone: the header lines and the blank line add nothing. */
  lemma CreatedFileCode(name: string, code: string, bpm: Num, description: string,
                        tags: seq<string>, now: string)
    requires SingleLine(name) && SingleLine(now) && SingleLine(description)
    requires forall i :: 0 <= i < |tags| ==> SingleLine(tags[i])
    ensures ExtractCode(CreatePatternFile(name, code, bpm, description, tags, now)) == ExtractCode(code)
  {
    var hs := Headers(name, bpm, description, tags, now);
    FileLines(name, code, bpm, description, tags, now);
    HeadersNotCode(name, bpm, description, tags, now);
    CodeLinesAround(hs, Split(code, '\n'));
  }

  /** Code whose lines are all kept and which has no surrounding whitespace
      is read back unchanged. */
  lemma ExtractCodeOfCode(code: string)
    requires Trimmed(code)
    requires forall i :: 0 <= i < |Split(code, '\n')| ==> IsCodeLine(Split(code, '\n')[i])
    ensures ExtractCode(code) == code
  {
    CodeLinesAll(Split(code, '\n'));
    JoinSplit(code, '\n');
    TrimmedIsFixpoint(code);
  }

  /** Two metadata records that agree on every field are equal. */
  lemma SameFields(a: Metadata, b: Metadata)
    requires forall f: Field :: Get(a, f) == Get(b, f)
    ensures a == b
  {
    assert Get(a, Name) == Get(b, Name);
    assert Get(a, Created) == Get(b, Created);
    assert Get(a, Modified) == Get(b, Modified);
    assert Get(a, Bpm) == Get(b, Bpm);
    assert Get(a, Description) == Get(b, Description);
    assert Get(a, Tags) == Get(b, Tags);
  }

  /** The order in which a created file writes its header lines. */
  const FieldOrder: seq<Field> := [Name, Created, Modified, Bpm, Description, Tags]

  lemma FieldOrderDistinct(j: nat, k: nat)
    requires j < k < |FieldOrder|
    ensures FieldOrder[j] != FieldOrder[k]
  {
  }

  /** Header lines written in `FieldOrder`: line `k` sets field `k` only. */
  lemma OrderedHeadersSet(hs: seq<string>, vs: seq<string>)
    requires |hs| == |vs| == |FieldOrder|
    requires forall k :: 0 <= k < |hs| ==> hs[k] == HeaderLine(FieldOrder[k], vs[k])
    ensures forall k :: 0 <= k < |hs| ==>
              Sets(hs[k], FieldOrder[k]) && HeaderValue(hs[k], FieldOrder[k]) == Trim(vs[k])
    ensures forall j, k :: 0 <= k < j < |hs| ==> !Sets(hs[j], FieldOrder[k])
  {
    forall k | 0 <= k < |hs|
      ensures Sets(hs[k], FieldOrder[k]) && HeaderValue(hs[k], FieldOrder[k]) == Trim(vs[k])
    {
      HeaderLineRead(FieldOrder[k], vs[k]);
    }
    forall j, k | 0 <= k < j < |hs|
      ensures !Sets(hs[j], FieldOrder[k])
    {
      FieldOrderDistinct(k, j);
    }
  }

  /** Header lines written in `FieldOrder` each decide their own field. */
  lemma OrderedHeadersRead(m: Metadata, hs: seq<string>, vs: seq<string>)
    requires |hs| == |vs| == |FieldOrder|
    requires forall k :: 0 <= k < |hs| ==> hs[k] == HeaderLine(FieldOrder[k], vs[k])
    ensures forall k :: 0 <= k < |hs| ==>
              Get(ExtractFrom(m, hs), FieldOrder[k]) == Interpret(FieldOrder[k], Trim(vs[k]))
  {
    OrderedHeadersSet(hs, vs);
    forall k | 0 <= k < |hs|
      ensures Get(ExtractFrom(m, hs), FieldOrder[k]) == Interpret(FieldOrder[k], Trim(vs[k]))
    {
      LastHeaderWins(m, hs, FieldOrder[k], k);
    }
  }

  /** The values a created file writes, in `FieldOrder`. */
  function HeaderValues(name: string, bpm: Num, description: string, tags: seq<string>,
                        now: string): (vs: seq<string>)
    ensures |vs| == |FieldOrder|
  {
    [name, now, now, Format(bpm), description, TagsText(tags)]
  }

  /** The header lines of a created file are written in `FieldOrder`. */
  lemma HeadersInOrder(name: string, bpm: Num, description: string, tags: seq<string>, now: string)
    ensures var hs := Headers(name, bpm, description, tags, now);
            var vs := HeaderValues(name, bpm, description, tags, now);
            |hs| == |FieldOrder| && forall k :: 0 <= k < |hs| ==> hs[k] == HeaderLine(FieldOrder[k], vs[k])
  {
  }

  /** A record each of whose fields holds a trimmed value, interpreted. */
  lemma ReadInOrder(m: Metadata, vs: seq<string>)
    requires |vs| == |FieldOrder|
    requires forall k :: 0 <= k < |vs| ==> Get(m, FieldOrder[k]) == Interpret(FieldOrder[k], Trim(vs[k]))
    ensures m == Metadata(Trim(vs[0]), Trim(vs[1]), Trim(vs[2]), ParseInt(Trim(vs[3])),
                          Trim(vs[4]), MapTrim(Split(Trim(vs[5]), ',')))
  {
    assert Get(m, FieldOrder[0]) == Interpret(FieldOrder[0], Trim(vs[0]));
    assert Get(m, FieldOrder[1]) == Interpret(FieldOrder[1], Trim(vs[1]));
    assert Get(m, FieldOrder[2]) == Interpret(FieldOrder[2], Trim(vs[2]));
    assert Get(m, FieldOrder[3]) == Interpret(FieldOrder[3], Trim(vs[3]));
    assert Get(m, FieldOrder[4]) == Interpret(FieldOrder[4], Trim(vs[4]));
    assert Get(m, FieldOrder[5]) == Interpret(FieldOrder[5], Trim(vs[5]));
  }

  /** What the six header lines of a created file set. */
  lemma HeadersRead(name: string, bpm: Num, description: string, tags: seq<string>, now: string)
    ensures ExtractFrom(Defaults, Headers(name, bpm, description, tags, now))
            == Metadata(Trim(name), Trim(now), Trim(now), ParseInt(Trim(Format(bpm))),
                        Trim(description), MapTrim(Split(Trim(TagsText(tags)), ',')))
  {
    var hs := Headers(name, bpm, description, tags, now);
    var vs := HeaderValues(name, bpm, description, tags, now);
    HeadersInOrder(name, bpm, description, tags, now);
    OrderedHeadersRead(Defaults, hs, vs);
    ReadInOrder(ExtractFrom(Defaults, hs), vs);
  }

  /** Lines after the header block that set nothing leave the header's metadata. */
  lemma TrailingLinesUnread(hs: seq<string>, body: seq<string>)
    requires forall i :: 0 <= i < |body| ==> HeaderField(body[i]).None?
    ensures ExtractFrom(Defaults, hs + [""] + body + [""]) == ExtractFrom(Defaults, hs)
  {
    var rest := [""] + body + [""];
    assert hs + [""] + body + [""] == hs + rest;
    assert HeaderField("").None?;
    assert forall i :: 0 <= i < |rest| ==> HeaderField(rest[i]).None? by {
      assert forall i :: 0 < i < |rest| - 1 ==> rest[i] == body[i - 1];
    }
    ExtractFromConcat(Defaults, hs, rest);
    NoHeaderUnchanged(ExtractFrom(Defaults, hs), rest);
  }

  /** The metadata read back from a created file: the name, time and
      description trimmed, the tempo itself, and the tags as the reader
      splits the joined tag text. The code must not contain header lines. */
  lemma CreatedFileMetadata(name: string, code: string, bpm: Num, description: string,
                            tags: seq<string>, now: string)
    requires SingleLine(name) && SingleLine(now) && SingleLine(description)
    requires forall i :: 0 <= i < |tags| ==> SingleLine(tags[i])
    requires forall i :: 0 <= i < |Split(code, '\n')| ==> HeaderField(Split(code, '\n')[i]).None?
    ensures ExtractMetadata(CreatePatternFile(name, code, bpm, description, tags, now))
            == Metadata(Trim(name), Trim(now), Trim(now), bpm, Trim(description),
                        MapTrim(Split(Trim(TagsText(tags)), ',')))
  {
    var hs := Headers(name, bpm, description, tags, now);
    FileLines(name, code, bpm, description, tags, now);
    TrailingLinesUnread(hs, Split(code, '\n'));
    HeadersRead(name, bpm, description, tags, now);
    ParseTrimmedFormat(bpm);
  }

  /** Tags without commas are read back as written, trimmed; no tags at all
      are read back as one empty tag. */
  lemma {:induction false} TagsRoundTrip(tags: seq<string>)
    requires forall i :: 0 <= i < |tags| ==> ',' !in tags[i]
    ensures MapTrim(Split(Trim(TagsText(tags)), ',')) == (if |tags| == 0 then [""] else MapTrim(tags))
  {
    TrimBeforeSplit(TagsText(tags), ',');
    JoinedTagsPieces(tags);
  }

  lemma {:induction false} JoinedTagsPieces(tags: seq<string>)
    requires forall i :: 0 <= i < |tags| ==> ',' !in tags[i]
    ensures MapTrim(Split(Join(tags, ", "), ',')) == (if |tags| == 0 then [""] else MapTrim(tags))
    decreases |tags|
  {
    if |tags| == 0 {
      assert Split("", ',') == [""];
    } else if |tags| == 1 {
      SplitNoSep(tags[0], ',');
    } else {
      var rest := tags[1..];
      assert forall i :: 0 <= i < |rest| ==> rest[i] == tags[i + 1];
      JoinedTagsPieces(rest);
      var j := Join(rest, ", ");
      assert Join(tags, ", ") == tags[0] + [','] + ([' '] + j);
      SplitLine(tags[0], [' '] + j, ',');
      TrimPiecesIgnoreSpaceChar(' ', j, ',');
      MapTrimCons([tags[0]] + Split([' '] + j, ','));
      MapTrimCons(tags);
      assert ([tags[0]] + Split([' '] + j, ','))[1..] == Split([' '] + j, ',');
    }
  }
}

=== FILE: persistence.dfy ===
/** The pattern library (`tools/persistence.js`): patterns saved as
    `<sanitised name>.strudel` files in one directory, loaded back into the
    page and the state, listed and deleted.

    The directory is a map from file name to entry; a missing key is a file
    that does not exist (`ENOENT`), and an unreadable entry carries the
    error its read would throw. The directory listing, the creation time
    and the outcome of a write are parameters. */
module Persistence {
  import opened Results
  import opened Text
  import opened Numbers
  import opened PatternFile
  import opened State
  import opened Bridge

  datatype Entry = Contents(text: string) | Unreadable(message: string)

  type Files = map<string, Entry>

  const Extension: string := ".strudel"
  const NoActivePattern: string := "No active pattern to save"
  const EmptyPattern: string := "Pattern file is empty"

  /** `Pattern "<name>" not found`. */
  function NotFound(name: string): string {
    "Pattern \"" + name + "\" not found"
  }

  // ---------------------------------------------------------------------------
  // file names

  /** The characters the sanitiser keeps: ASCII letters and digits, `-`, `_`. */
  predicate Kept(c: char) {
    ('a' <= c <= 'z') || ('A' <= c <= 'Z') || ('0' <= c <= '9') || c == '-' || c == '_'
  }

  /** The characters of a sanitised name. */
  predicate FileNameChar(c: char) {
    ('a' <= c <= 'z') || ('0' <= c <= '9') || c == '-' || c == '_'
  }

  /** One character of `name.replace(/[^a-z0-9-_]/gi, '-').toLowerCase()`. */
  function SanitizeChar(c: char): (r: char)
    ensures FileNameChar(r)
    ensures Kept(c) ==> r == LowerChar(c)
    ensures !Kept(c) ==> r == '-'
  {
    if Kept(c) then LowerChar(c) else '-'
  }

  /** `name.replace(/[^a-z0-9-_]/gi, '-').toLowerCase()`: every character
      the pattern rejects becomes `-`, then ASCII letters are lower-cased. */
  function SanitizeName(name: string): (r: string)
    ensures |r| == |name|
    ensures forall i :: 0 <= i < |name| ==> r[i] == SanitizeChar(name[i])
    decreases |name|
  {
    if |name| == 0 then "" else [SanitizeChar(name[0])] + SanitizeName(name[1..])
  }

  /** The file a pattern name addresses; save, load and delete share it. */
  function FileName(name: string): string {
    SanitizeName(name) + Extension
  }

  /** A sanitised name uses only lower-case letters, digits, `-` and `_`. */
  lemma SanitizedAlphabet(name: string)
    ensures forall i :: 0 <= i < |SanitizeName(name)| ==> FileNameChar(SanitizeName(name)[i])
  {
  }

  /** Sanitising a sanitised name changes nothing. */
  lemma SanitizeIdempotent(name: string)
    ensures SanitizeName(SanitizeName(name)) == SanitizeName(name)
  {
    var once := SanitizeName(name);
    assert forall i :: 0 <= i < |once| ==> SanitizeChar(once[i]) == once[i];
  }

  /** Two characters the sanitiser cannot tell apart. */
  predicate SameSlot(a: char, b: char) {
    SanitizeChar(a) == SanitizeChar(b)
  }

  /** Names of equal length that differ only in letter case or in rejected
      characters address the same file, and only those do. */
  lemma SameFileIff(a: string, b: string)
    requires |a| == |b|
    ensures FileName(a) == FileName(b) <==> forall i :: 0 <= i < |a| ==> SameSlot(a[i], b[i])
  {
    if FileName(a) == FileName(b) {
      assert SanitizeName(a) == FileName(a)[..|a|] == FileName(b)[..|b|] == SanitizeName(b);
    }
    if forall i :: 0 <= i < |a| ==> SameSlot(a[i], b[i]) {
      assert SanitizeName(a) == SanitizeName(b);
    }
  }

  /** Letter case never matters. */
  lemma CaseInsensitive(name: string)
    ensures FileName(ToLower(name)) == FileName(name)
  {
    SameFileIff(ToLower(name), name);
  }

  /** When the first character of `m` does not occur in `base`, the first
      `m` in `base + m + tail` is the one right after `base`, and replacing it
      removes exactly that one. */
  lemma ReplaceFirstAfter(base: string, m: string, tail: string)
    requires |m| > 0 && forall i :: 0 <= i < |base| ==> base[i] != m[0]
    ensures FirstOccurrence(base + m + tail, m, 0) == Some(|base|)
    ensures ReplaceFirst(base + m + tail, m, "") == base + tail
  {
    var s := base + m + tail;
    assert OccursAt(s, m, |base|) by {
      assert forall k :: 0 <= k < |m| ==> s[|base| + k] == m[k];
    }
    forall j | 0 <= j < |base|
      ensures !OccursAt(s, m, j)
    {
      assert s[j + 0] == base[j];
    }
    FirstOccurrenceAt(s, m, |base|);
    assert s[..|base|] == base && s[|base| + |m|..] == tail;
  }

  /** A pattern's file name contains `.strudel` only at its end. */
  lemma ExtensionOnlyAtEnd(name: string)
    ensures FirstOccurrence(FileName(name), Extension, 0) == Some(|SanitizeName(name)|)
    ensures ReplaceFirst(FileName(name), Extension, "") == SanitizeName(name)
  {
    var base := SanitizeName(name);
    assert forall i :: 0 <= i < |base| ==> FileNameChar(base[i]);
    ReplaceFirstAfter(base, Extension, "");
    assert base + Extension + "" == FileName(name);
    assert base + "" == base;
  }

  // ---------------------------------------------------------------------------
  // savePattern

  datatype Saved = Saved(name: string, filename: string)

  /** `savePattern`: with code on screen, writes the pattern file for the
      current code and tempo; `writeFault` is the error the write throws,
      if it does. */
  function SavePattern(files: Files, s: PatternState, name: string, description: string,
                       tags: seq<string>, now: string, writeFault: Option<string>)
    : (r: (Result<Saved>, Files))
    ensures s.currentCode == "" ==> r == (Err(NoActivePattern), files)
    ensures r.0.Ok? <==> s.currentCode != "" && writeFault.None?
    ensures r.0.Ok? ==>
              r.0.value == Saved(name, FileName(name))
              && r.1 == files[FileName(name) := Contents(
                   CreatePatternFile(name, s.currentCode, s.currentBpm, description, tags, now))]
    ensures r.0.Err? ==> r.1 == files
  {
    if s.currentCode == "" then (Err(NoActivePattern), files)
    else
      var content := CreatePatternFile(name, s.currentCode, s.currentBpm, description, tags, now);
      match writeFault
      case Some(e) => (Err(e), files)
      case None => (Ok(Saved(name, FileName(name))), files[FileName(name) := Contents(content)])
  }

  // ---------------------------------------------------------------------------
  // loadPattern

  datatype Loaded = Loaded(
    name: string,
    code: string,
    bpm: Num,
    description: string,
    tags: seq<string>,
    playing: bool,
    message: string)

  datatype Loading = Loading(result: Result<Loaded>, state: PatternState, world: World)

  /** `metadata.name || name`. */
  function DisplayName(m: Metadata, name: string): (r: string)
    ensures r != "" <==> m.name != "" || name != ""
  {
    if m.name != "" then m.name else name
  }

  /** `loadPattern`: reads the file, extracts its code, plays it, and only
      then records code, tempo and playing in the state. */
  function LoadPattern(files: Files, s: PatternState, w: World, name: string, now: string, c: Call)
    : (r: Loading)
    ensures FileName(name) !in files ==> r == Loading(Err(NotFound(name)), s, w)
    ensures FileName(name) in files && files[FileName(name)].Unreadable? ==>
              r == Loading(Err(files[FileName(name)].message), s, w)
    ensures FileName(name) in files && files[FileName(name)].Contents? ==>
              var code := ExtractCode(files[FileName(name)].text);
              && (code == "" ==> r == Loading(Err(EmptyPattern), s, w))
              && (code != "" ==>
                    var (played, after) := ExecutePattern(w, code, c);
                    && r.world == after
                    && (r.result.Ok? <==> played.Ok?)
                    && (played.Err? ==> r == Loading(Err(played.error), s, after)))
    ensures r.result.Err? ==> r.state == s
    ensures r.result.Ok? ==>
              && FileName(name) in files && files[FileName(name)].Contents?
              && var content := files[FileName(name)].text;
                 var m := ExtractMetadata(content);
                 var code := ExtractCode(content);
                 && code != ""
                 && r.result.value.code == code
                 && r.result.value.bpm == m.bpm
                 && r.result.value.name == DisplayName(m, name)
                 && r.result.value.description == m.description
                 && r.result.value.tags == m.tags
                 && r.result.value.playing
                 && r.result.value.message == "Pattern \"" + DisplayName(m, name) + "\" loaded and playing"
                 && r.world == ExecutePattern(w, code, c).1
                 && r.state == SetPlaying(SetBpm(SetCode(s, code, now), m.bpm, now), true)
  {
    var file := FileName(name);
    if file !in files then Loading(Err(NotFound(name)), s, w)
    else match files[file]
      case Unreadable(e) => Loading(Err(e), s, w)
      case Contents(content) =>
        var m := ExtractMetadata(content);
        var code := ExtractCode(content);
        if code == "" then Loading(Err(EmptyPattern), s, w)
        else
          var (played, after) := ExecutePattern(w, code, c);
          if played.Err? then Loading(Err(played.error), s, after)
          else
            var shown := DisplayName(m, name);
            Loading(
              Ok(Loaded(shown, code, m.bpm, m.description, m.tags, true,
                        "Pattern \"" + shown + "\" loaded and playing")),
              SetPlaying(SetBpm(SetCode(s, code, now), m.bpm, now), true),
              after)
  }

  /** A file with no code line is refused as empty, before the page is touched. */
  lemma LoadEmptyFile(files: Files, s: PatternState, w: World, name: string, now: string, c: Call)
    requires FileName(name) in files && files[FileName(name)].Contents?
    requires !HasCodeLine(Split(files[FileName(name)].text, '\n'))
    ensures LoadPattern(files, s, w, name, now, c) == Loading(Err(EmptyPattern), s, w)
  {
    ExtractCodeEmptyIff(files[FileName(name)].text);
  }

  // ---------------------------------------------------------------------------
  // listPatterns

  datatype Listing = Listing(
    filename: string,
    name: string,
    created: string,
    modified: string,
    bpm: Num,
    description: string,
    tags: seq<string>)

  datatype Listed = Listed(count: nat, patterns: seq<Listing>, message: string)

  /** A directory entry the listing reports: a readable `.strudel` file. */
  predicate Listable(files: Files, filename: string) {
    EndsWith(filename, Extension) && filename in files && files[filename].Contents?
  }

  /** The entry for one listable file: its metadata, named after the file
      (`.strudel` removed) when the file gives no name. */
  function Describe(filename: string, content: string): (r: Listing)
    ensures r.filename == filename
  {
    var m := ExtractMetadata(content);
    Listing(filename, if m.name != "" then m.name else ReplaceFirst(filename, Extension, ""),
            m.created, m.modified, m.bpm, m.description, m.tags)
  }

  /** The listing loop over the directory entries in `names`. */
  function Describes(files: Files, names: seq<string>): (r: seq<Listing>)
    ensures |r| <= |names|
    ensures forall k :: 0 <= k < |r| ==>
              Listable(files, r[k].filename) && r[k] == Describe(r[k].filename, files[r[k].filename].text)
    decreases |names|
  {
    if |names| == 0 then []
    else
      var rest := Describes(files, names[1..]);
      if Listable(files, names[0]) then [Describe(names[0], files[names[0]].text)] + rest else rest
  }

  /** `listPatterns` over the directory listing `names`, in listing order
      (the sort by date is not modelled). `names` is what `readdir` returns:
      each key of `files` once; `ListsDirectory` states the listing for it. */
  function ListPatterns(files: Files, names: seq<string>): (r: Listed)
    ensures r.count == |r.patterns| <= |names|
    ensures forall k :: 0 <= k < |r.patterns| ==>
              Listable(files, r.patterns[k].filename)
              && r.patterns[k] == Describe(r.patterns[k].filename, files[r.patterns[k].filename].text)
    ensures r.message == "Found " + Format(Int(r.count)) + " saved patterns"
  {
    var patterns := Describes(files, names);
    Listed(|patterns|, patterns, "Found " + Format(Int(|patterns|)) + " saved patterns")
  }

  /** Some entry of `r` is for the file `f`. */
  predicate ListsFile(r: seq<Listing>, f: string) {
    exists k :: 0 <= k < |r| && r[k].filename == f
  }

  lemma ListsFileCons(x: Listing, rest: seq<Listing>, f: string)
    ensures ListsFile([x] + rest, f) <==> x.filename == f || ListsFile(rest, f)
  {
    var r := [x] + rest;
    if ListsFile(rest, f) {
      var k :| 0 <= k < |rest| && rest[k].filename == f;
      assert r[k + 1].filename == f;
    }
    if ListsFile(r, f) && x.filename != f {
      var k :| 0 <= k < |r| && r[k].filename == f;
      assert rest[k - 1].filename == f;
    }
    if x.filename == f {
      assert r[0].filename == f;
    }
  }

  lemma InCons(names: seq<string>, f: string)
    requires |names| > 0
    ensures f in names <==> f == names[0] || f in names[1..]
  {
    assert names == [names[0]] + names[1..];
  }

  /** Every listable entry of the directory is listed, and nothing else. */
  lemma {:induction false} ListedExactly(files: Files, names: seq<string>, f: string)
    ensures ListsFile(Describes(files, names), f) <==> f in names && Listable(files, f)
    decreases |names|
  {
    if |names| > 0 {
      var rest := Describes(files, names[1..]);
      ListedExactly(files, names[1..], f);
      InCons(names, f);
      if Listable(files, names[0]) {
        ListsFileCons(Describe(names[0], files[names[0]].text), rest, f);
      }
    }
  }

  /** For a listing of the directory's own entries, a file is listed iff it
      is a readable `.strudel` file, and no file twice when the listing has
      no repeats. */
  lemma ListsDirectory(files: Files, names: seq<string>, f: string)
    requires forall x :: x in names <==> x in files
    ensures ListsFile(ListPatterns(files, names).patterns, f) <==> Listable(files, f)
    ensures Distinct(names) ==> DistinctFiles(ListPatterns(files, names).patterns)
  {
    ListedExactly(files, names, f);
    if Distinct(names) {
      DescribedDistinct(files, names);
    }
  }

  predicate Distinct(names: seq<string>) {
    forall i, j :: 0 <= i < j < |names| ==> names[i] != names[j]
  }

  predicate DistinctFiles(r: seq<Listing>) {
    forall i, j :: 0 <= i < j < |r| ==> r[i].filename != r[j].filename
  }

  /** Every listed file comes from the listing. */
  lemma {:induction false} DescribedFrom(files: Files, names: seq<string>)
    ensures forall k :: 0 <= k < |Describes(files, names)| ==> Describes(files, names)[k].filename in names
    decreases |names|
  {
    if |names| > 0 {
      var rest := Describes(files, names[1..]);
      DescribedFrom(files, names[1..]);
      assert names == [names[0]] + names[1..];
      forall k | 0 <= k < |rest|
        ensures rest[k].filename in names
      {
        assert rest[k].filename in names[1..];
      }
    }
  }

  lemma DistinctTail(names: seq<string>)
    requires |names| > 0 && Distinct(names)
    ensures Distinct(names[1..]) && names[0] !in names[1..]
  {
    forall i, j | 0 <= i < j < |names[1..]|
      ensures names[1..][i] != names[1..][j]
    {
      assert names[1..][i] == names[i + 1] && names[1..][j] == names[j + 1];
    }
    forall k | 0 <= k < |names[1..]|
      ensures names[1..][k] != names[0]
    {
      assert names[1..][k] == names[k + 1];
    }
  }

  lemma DistinctFilesCons(x: Listing, rest: seq<Listing>, tail: seq<string>)
    requires DistinctFiles(rest) && x.filename !in tail
    requires forall k :: 0 <= k < |rest| ==> rest[k].filename in tail
    ensures DistinctFiles([x] + rest)
  {
    var r := [x] + rest;
    forall i, j | 0 <= i < j < |r|
      ensures r[i].filename != r[j].filename
    {
      assert r[j] == rest[j - 1];
      if i > 0 {
        assert r[i] == rest[i - 1];
      }
    }
  }

  /** A listing without repeats lists each file once. */
  lemma {:induction false} DescribedDistinct(files: Files, names: seq<string>)
    requires Distinct(names)
    ensures DistinctFiles(Describes(files, names))
    decreases |names|
  {
    if |names| > 0 {
      DistinctTail(names);
      DescribedDistinct(files, names[1..]);
      DescribedFrom(files, names[1..]);
      if Listable(files, names[0]) {
        DistinctFilesCons(Describe(names[0], files[names[0]].text), Describes(files, names[1..]), names[1..]);
      }
    }
  }

  /** A saved pattern without a name header is listed under its file name. */
  lemma ListedFallbackName(name: string, content: string)
    requires ExtractMetadata(content).name == ""
    ensures Describe(FileName(name), content).name == SanitizeName(name)
  {
    ExtensionOnlyAtEnd(name);
  }

  /** Only the first `.strudel` is removed: a file `a.strudel.strudel`
      without a name header is listed as `a.strudel`. */
  lemma ListedFallbackFirstOnly(content: string)
    requires ExtractMetadata(content).name == ""
    ensures Describe("a" + Extension + Extension, content).name == "a" + Extension
  {
    ReplaceFirstAfter("a", Extension, Extension);
  }

  // ---------------------------------------------------------------------------
  // deletePattern

  datatype Deleted = Deleted(name: string, message: string)

  /** `deletePattern`: removes the pattern's file. A missing file is
      reported as not found; any other failure of `unlink` (`unlinkFault`)
      is passed on as it is and leaves the file in place. */
  function DeletePattern(files: Files, name: string, unlinkFault: Option<string>): (r: (Result<Deleted>, Files))
    ensures FileName(name) !in files ==> r == (Err(NotFound(name)), files)
    ensures FileName(name) in files && unlinkFault.Some? ==> r == (Err(unlinkFault.value), files)
    ensures r.0.Ok? <==> FileName(name) in files && unlinkFault.None?
    ensures r.0.Ok? ==> r.0.value.name == name && r.1 == files - {FileName(name)}
    ensures r.0.Err? ==> r.1 == files
  {
    var file := FileName(name);
    if file !in files then (Err(NotFound(name)), files)
    else match unlinkFault
      case Some(e) => (Err(e), files)
      case None => (Ok(Deleted(name, "Pattern \"" + name + "\" deleted")), files - {file})
  }

  /** Deleting twice: the second attempt reports the pattern as not found,
      whatever `unlink` would have done. */
  lemma DeleteTwice(files: Files, name: string, fault: Option<string>)
    requires FileName(name) in files
    ensures DeletePattern(DeletePattern(files, name, None).1, name, fault).0 == Err(NotFound(name))
  {
  }

  /** After a delete, loading the pattern reports it as not found; after a
      delete that failed, loading sees the file as before. */
  lemma LoadAfterDelete(files: Files, s: PatternState, w: World, name: string, other: string,
                        fault: Option<string>, now: string, c: Call)
    requires FileName(other) == FileName(name)
    ensures DeletePattern(files, name, fault).0.Ok? ==>
              LoadPattern(DeletePattern(files, name, fault).1, s, w, other, now, c)
              == Loading(Err(NotFound(other)), s, w)
    ensures DeletePattern(files, name, fault).0.Err? ==>
              LoadPattern(DeletePattern(files, name, fault).1, s, w, other, now, c)
              == LoadPattern(files, s, w, other, now, c)
  {
  }

  // ---------------------------------------------------------------------------
  // save, then load

  /** Saving and loading by a name that addresses the same file plays the
      code read from the saved code, and the state ends with that code and
      the saved tempo. The metadata must fit on one line each, and the code
      must hold no header lines of its own. */
  lemma SaveThenLoad(files: Files, s: PatternState, w: World, name: string, other: string,
                     description: string, tags: seq<string>, now: string, later: string, c: Call)
    requires s.currentCode != ""
    requires SingleLine(name) && SingleLine(now) && SingleLine(description)
    requires forall i :: 0 <= i < |tags| ==> SingleLine(tags[i])
    requires forall i :: 0 <= i < |Split(s.currentCode, '\n')| ==> HeaderField(Split(s.currentCode, '\n')[i]).None?
    requires FileName(other) == FileName(name)
    requires ExtractCode(s.currentCode) != ""
    ensures var saved := SavePattern(files, s, name, description, tags, now, None).1;
            var r := LoadPattern(saved, s, w, other, later, c);
            && r.world == ExecutePattern(w, ExtractCode(s.currentCode), c).1
            && (ExecutePattern(w, ExtractCode(s.currentCode), c).0.Ok? ==>
                  && r.result.Ok?
                  && r.result.value.code == ExtractCode(s.currentCode)
                  && r.result.value.bpm == s.currentBpm
                  && r.result.value.name == (if Trim(name) != "" then Trim(name) else other)
                  && r.state.currentCode == ExtractCode(s.currentCode)
                  && r.state.currentBpm == s.currentBpm
                  && r.state.isPlaying)
  {
    CreatedFileCode(name, s.currentCode, s.currentBpm, description, tags, now);
    CreatedFileMetadata(name, s.currentCode, s.currentBpm, description, tags, now);
  }

  /** Code in the editor's own shape — no surrounding whitespace, no blank
      or `#` lines — comes back exactly. */
  lemma SaveThenLoadExact(files: Files, s: PatternState, w: World, name: string,
                          description: string, tags: seq<string>, now: string, later: string, c: Call)
    requires s.currentCode != "" && Trimmed(s.currentCode)
    requires forall i :: 0 <= i < |Split(s.currentCode, '\n')| ==> IsCodeLine(Split(s.currentCode, '\n')[i])
    requires SingleLine(name) && SingleLine(now) && SingleLine(description)
    requires forall i :: 0 <= i < |tags| ==> SingleLine(tags[i])
    ensures var saved := SavePattern(files, s, name, description, tags, now, None).1;
            var r := LoadPattern(saved, s, w, name, later, c);
            && r.world == ExecutePattern(w, s.currentCode, c).1
            && (ExecutePattern(w, s.currentCode, c).0.Ok? ==>
                  r.result.Ok? && r.result.value.code == s.currentCode
                  && r.state.currentCode == s.currentCode && r.state.currentBpm == s.currentBpm)
  {
    var lines := Split(s.currentCode, '\n');
    forall i | 0 <= i < |lines|
      ensures HeaderField(lines[i]).None?
    {
      CodeLineNotHeader(lines[i]);
    }
    ExtractCodeOfCode(s.currentCode);
    SaveThenLoad(files, s, w, name, name, description, tags, now, later, c);
  }
}

=== FILE: results.dfy ===
/** Failure-carrying values shared by every module of the model.

    A JavaScript `null` becomes `None`, and a thrown `Error` becomes
    `Err(message)` carrying the error's `message` text. */
module Results {

  datatype Option<+T> = None | Some(value: T) {
    function GetOr(default: T): T {
      match this
      case Some(v) => v
      case None => default
    }
  }

  /** The outcome of an operation that either returns a value or throws an
      `Error` whose message is `error`. */
  datatype Result<+T> = Ok(value: T) | Err(error: string) {
    function MapOk<U>(f: T -> U): Result<U> {
      match this
      case Ok(v) => Ok(f(v))
      case Err(e) => Err(e)
    }
  }

  /** The unit value returned by operations that only have an effect. */
  datatype Unit = Unit
}

=== FILE: state.dfy ===
/** The server's in-memory pattern state (`state.js`): the code on screen,
    the tempo, whether it plays, an undo history of earlier code and the time
    of the last change. Each operation is a function from the old record to
    the new one; the wall-clock time and the `DEFAULT_BPM` environment value
    are parameters. */
module State {
  import opened Results
  import opened Numbers

  /** The most entries the history keeps. */
  const HistoryLimit: nat := 50

  /** The tempo used when `DEFAULT_BPM` gives none. */
  const FallbackBpm: int := 120

  datatype PatternState = PatternState(
    currentCode: string,
    currentBpm: Num,
    isPlaying: bool,
    history: seq<string>,
    lastModified: Option<string>)

  /** What every reachable state satisfies: a bounded history without empty
      entries (empty code is never pushed). */
  predicate Valid(s: PatternState) {
    |s.history| <= HistoryLimit && forall i :: 0 <= i < |s.history| ==> s.history[i] != ""
  }

  /** `parseInt(process.env.DEFAULT_BPM) || 120`. */
  function DefaultBpm(env: Option<string>): (r: int)
    ensures r != 0
    ensures Truthy(ParseOptional(env)) ==> r == ParseOptional(env).value
    ensures !Truthy(ParseOptional(env)) ==> r == FallbackBpm
    ensures env.None? ==> r == FallbackBpm
  {
    OrDefault(ParseOptional(env), FallbackBpm)
  }

  /** The state at start-up and after `resetState`, whatever came before. */
  function Initial(env: Option<string>): (r: PatternState)
    ensures Valid(r)
    ensures r.currentCode == "" && !r.isPlaying && r.history == [] && r.lastModified.None?
    ensures Truthy(r.currentBpm)
    ensures r.currentBpm == Int(DefaultBpm(env))
  {
    PatternState("", Int(DefaultBpm(env)), false, [], None)
  }

  /** `setCode`: the previous code, when non-empty, is pushed on the history,
      dropping the oldest entry past the limit. */
  function SetCode(s: PatternState, code: string, now: string): (r: PatternState)
    ensures r.currentCode == code && r.lastModified == Some(now)
    ensures r.currentBpm == s.currentBpm && r.isPlaying == s.isPlaying
    ensures s.currentCode == "" ==> r.history == s.history
    ensures s.currentCode != "" ==> |r.history| > 0 && r.history[|r.history| - 1] == s.currentCode
    ensures Valid(s) ==> Valid(r)
  {
    var history :=
      if s.currentCode == "" then s.history
      else
        var pushed := s.history + [s.currentCode];
        if |pushed| > HistoryLimit then pushed[1..] else pushed;
    PatternState(code, s.currentBpm, s.isPlaying, history, Some(now))
  }

  /** `setBpm`: the tempo and the time of change, nothing else. */
  function SetBpm(s: PatternState, bpm: Num, now: string): (r: PatternState)
    ensures r.currentBpm == bpm && r.lastModified == Some(now)
    ensures r.(currentBpm := s.currentBpm, lastModified := s.lastModified) == s
    ensures Valid(s) ==> Valid(r)
  {
    s.(currentBpm := bpm, lastModified := Some(now))
  }

  /** `setPlaying`: the playing flag, nothing else. */
  function SetPlaying(s: PatternState, playing: bool): (r: PatternState)
    ensures r.isPlaying == playing
    ensures r.(isPlaying := s.isPlaying) == s
    ensures Valid(s) ==> Valid(r)
  {
    s.(isPlaying := playing)
  }

  /** `clearHistory`: the history only. */
  function ClearHistory(s: PatternState): (r: PatternState)
    ensures r.history == [] && Valid(r)
    ensures r.(history := s.history) == s
  {
    s.(history := [])
  }

  /** The result of `undo`: the popped code, if any, and the new state. */
  datatype UndoOutcome = UndoOutcome(previous: Option<string>, state: PatternState)

  /** `undo`: pops the newest history entry and returns it. The current code
      is left as it is; restoring it is the caller's business. */
  function Undo(s: PatternState): (r: UndoOutcome)
    ensures |s.history| == 0 <==> r.previous.None?
    ensures |s.history| == 0 ==> r.state == s
    ensures |s.history| > 0 ==>
              r.previous == Some(s.history[|s.history| - 1])
              && r.state.history + [r.previous.value] == s.history
    ensures r.state.(history := s.history) == s
    ensures Valid(s) ==> Valid(r.state)
  {
    if |s.history| == 0 then UndoOutcome(None, s)
    else UndoOutcome(Some(s.history[|s.history| - 1]), s.(history := s.history[..|s.history| - 1]))
  }

  // ---------------------------------------------------------------------------
  // history

  /** `setCode` keeps the newest entries: the history is the last
      `min(n + 1, 50)` of the old history followed by the old code. */
  lemma SetCodeHistory(s: PatternState, code: string, now: string)
    requires Valid(s) && s.currentCode != ""
    ensures var h := SetCode(s, code, now).history;
            var all := s.history + [s.currentCode];
            |h| == (if |all| > HistoryLimit then HistoryLimit else |all|)
            && h == all[|all| - |h|..]
  {
  }

  /** Undoing right after `setCode` hands back the code that was replaced. */
  lemma UndoAfterSetCode(s: PatternState, code: string, now: string)
    requires s.currentCode != ""
    ensures Undo(SetCode(s, code, now)).previous == Some(s.currentCode)
  {
  }

  /** Below the limit, undo right after `setCode` restores the history too. */
  lemma UndoAfterSetCodeRestoresHistory(s: PatternState, code: string, now: string)
    requires s.currentCode != "" && |s.history| < HistoryLimit
    ensures Undo(SetCode(s, code, now)).state.history == s.history
  {
    var r := SetCode(s, code, now);
    assert r.history == s.history + [s.currentCode];
    assert r.history[..|r.history| - 1] == s.history;
  }

  /** Setting code on a full history forgets its oldest entry. */
  lemma SetCodeForgetsOldest(s: PatternState, code: string, now: string)
    requires Valid(s) && s.currentCode != "" && |s.history| == HistoryLimit
    ensures SetCode(s, code, now).history == s.history[1..] + [s.currentCode]
  {
    assert (s.history + [s.currentCode])[1..] == s.history[1..] + [s.currentCode];
  }

  /** The state operations, for reasoning about sequences of them. */
  datatype Op =
    | SetCodeOp(code: string, now: string)
    | SetBpmOp(bpm: Num, now: string)
    | SetPlayingOp(playing: bool)
    | UndoOp
    | ClearHistoryOp
    | ResetOp(env: Option<string>)

  function Step(s: PatternState, op: Op): PatternState {
    match op
    case SetCodeOp(code, now) => SetCode(s, code, now)
    case SetBpmOp(bpm, now) => SetBpm(s, bpm, now)
    case SetPlayingOp(playing) => SetPlaying(s, playing)
    case UndoOp => Undo(s).state
    case ClearHistoryOp => ClearHistory(s)
    case ResetOp(env) => Initial(env)
  }

  function Run(s: PatternState, ops: seq<Op>): PatternState
    decreases |ops|
  {
    if |ops| == 0 then s else Run(Step(s, ops[0]), ops[1..])
  }

  lemma {:induction false} RunKeepsValid(s: PatternState, ops: seq<Op>)
    requires Valid(s)
    ensures Valid(Run(s, ops))
    decreases |ops|
  {
    if |ops| > 0 {
      RunKeepsValid(Step(s, ops[0]), ops[1..]);
    }
  }

  /** Every sequence of operations from the initial state keeps `Valid`. */
  lemma ReachableValid(env: Option<string>, ops: seq<Op>)
    ensures Valid(Run(Initial(env), ops))
  {
    RunKeepsValid(Initial(env), ops);
  }
}

=== FILE: strudel.dfy ===
/** The command bridge to the Strudel page (`strudel.js`). Every command
    first obtains the page through the session (launching a browser when
    none is held), then works on the page's document: writing the editor,
    sending key chords, reading the editor or the playing marker, asking for
    a new cycle rate.

    The page is an abstract document. Whether `page.evaluate` or the
    keyboard throws is a parameter of each call, as is everything a launch
    would do. */
module Bridge {
  import opened Results
  import opened Browser
  import opened Tempo
  import opened Text

  /** The key chords the bridge sends: Ctrl+Enter evaluates, Ctrl+. stops. */
  datatype Chord = CtrlEnter | CtrlPeriod

  /** The `.cm-editor` element; `view` is the CodeMirror document when the
      element exposes its view. */
  datatype Editor = Editor(view: Option<string>)

  /** What the bridge can see of, and does to, the page. */
  datatype Document = Document(
    editor: Option<Editor>,
    textarea: Option<string>,
    playingMarker: bool,
    chords: seq<Chord>,
    cpsRequests: seq<real>)

  /** The session and the document of the page it holds. */
  datatype World = World(session: Session, doc: Document)

  /** Where a page call throws: inside `page.evaluate`; in the keyboard
      calls of a chord or the wait before them, so that no chord is sent;
      or in the settle wait after the chord, once the page has it. */
  datatype Stage = InPage | Input | Settle

  datatype Fault = Fault(stage: Stage, message: string)

  /** Everything outside the bridge for one command: the liveness probe, the
      launch that `getPage` would perform, the document such a launch loads,
      and the page call that throws, if one does. */
  datatype Call = Call(probeOk: bool, launch: LaunchRun, loaded: Document, fault: Option<Fault>)

  const ExecutePrefix: string := "Failed to execute pattern: "
  const StopPrefix: string := "Failed to stop playback: "
  const StartPrefix: string := "Failed to start playback: "
  const TempoPrefix: string := "Failed to set tempo: "
  const EditorNotFound: string := "Editor not found"

  /** A call that succeeds with nothing thrown anywhere. */
  predicate Smooth(c: Call) {
    c.launch.fault.None? && c.fault.None?
  }

  /** The page call throws at `stage`. */
  predicate FaultAt(c: Call, stage: Stage) {
    c.fault.Some? && c.fault.value.stage == stage
  }

  /** `getPage` inside a command. A held page keeps its document; a launch
      loads a fresh one. */
  function Connect(w: World, c: Call): (r: (Result<PageHandle>, World))
    ensures w.session.page.Some? ==> r == (Ok(w.session.page.value), w)
    ensures r.1.session == GetPage(w.session, c.probeOk, c.launch).1
    ensures r.0.Err? ==> w.session.page.None? && c.launch.fault.Some?
  {
    var (page, session) := GetPage(w.session, c.probeOk, c.launch);
    (page, World(session, if w.session.page.Some? then w.doc else c.loaded))
  }

  // ---------------------------------------------------------------------------
  // executePattern

  /** The in-page write: the whole CodeMirror document when the view is
      reachable, else the textarea's value, else nothing. */
  function Write(d: Document, code: string): (r: Document)
    requires d.editor.Some?
    ensures d.editor.value.view.Some? ==> r.editor == Some(Editor(Some(code))) && r.textarea == d.textarea
    ensures d.editor.value.view.None? && d.textarea.Some? ==> r == d.(textarea := Some(code))
    ensures d.editor.value.view.None? && d.textarea.None? ==> r == d
    ensures r.chords == d.chords && r.cpsRequests == d.cpsRequests && r.playingMarker == d.playingMarker
  {
    if d.editor.value.view.Some? then d.(editor := Some(Editor(Some(code))))
    else if d.textarea.Some? then d.(textarea := Some(code))
    else d
  }

  /** The result object of a successful `executePattern`. */
  datatype Executed = Executed(code: string, playing: bool)

  /** `executePattern`: obtain the page, write the code, press Ctrl+Enter
      and report the pattern as playing. A missing editor, a failed launch
      or a throwing page call is reported with the command's prefix; what
      reached the page before the throw stays there. */
  function ExecutePattern(w: World, code: string, c: Call): (r: (Result<Executed>, World))
    ensures var (page, v) := Connect(w, c);
            && r.1.session == v.session
            && (r.0.Ok? <==> page.Ok? && c.fault.None? && v.doc.editor.Some?)
            && (page.Err? ==> r == (Err(ExecutePrefix + page.error), v))
            && (page.Ok? && FaultAt(c, InPage) ==> r == (Err(ExecutePrefix + c.fault.value.message), v))
            && (page.Ok? && !FaultAt(c, InPage) && v.doc.editor.None? ==>
                  r == (Err(ExecutePrefix + EditorNotFound), v))
            && (page.Ok? && v.doc.editor.Some? ==>
                  var written := Write(v.doc, code);
                  var pressed := written.(chords := written.chords + [CtrlEnter]);
                  && (c.fault.None? ==> r == (Ok(Executed(code, true)), v.(doc := pressed)))
                  && (FaultAt(c, Input) ==> r == (Err(ExecutePrefix + c.fault.value.message), v.(doc := written)))
                  && (FaultAt(c, Settle) ==> r == (Err(ExecutePrefix + c.fault.value.message), v.(doc := pressed))))
    ensures r.0.Err? ==> StartsWith(r.0.error, ExecutePrefix)
  {
    var (page, v) := Connect(w, c);
    if page.Err? then (Err(ExecutePrefix + page.error), v)
    else if FaultAt(c, InPage) then (Err(ExecutePrefix + c.fault.value.message), v)
    else if v.doc.editor.None? then (Err(ExecutePrefix + EditorNotFound), v)
    else
      var written := Write(v.doc, code);
      var pressed := written.(chords := written.chords + [CtrlEnter]);
      match c.fault
      case None => (Ok(Executed(code, true)), v.(doc := pressed))
      case Some(f) =>
        (Err(ExecutePrefix + f.message), v.(doc := if f.stage == Settle then pressed else written))
  }

  // ---------------------------------------------------------------------------
  // stopPlayback and startPlayback

  /** The result object of the playback commands. */
  datatype Playback = Playback(playing: bool)

  /** Press a chord on the page. These commands make no in-page call, so
      any fault but a settle fault comes before the chord and sends
      nothing; a settle fault comes after the page has the chord. */
  function Press(w: World, c: Call, chord: Chord, playing: bool, prefix: string): (r: (Result<Playback>, World))
    ensures var (page, v) := Connect(w, c);
            var pressed := v.(doc := v.doc.(chords := v.doc.chords + [chord]));
            && r.1.session == v.session
            && (r.0.Ok? <==> page.Ok? && c.fault.None?)
            && (r.0.Ok? ==> r == (Ok(Playback(playing)), pressed))
            && (page.Err? ==> r == (Err(prefix + page.error), v))
            && (page.Ok? && FaultAt(c, Settle) ==> r == (Err(prefix + c.fault.value.message), pressed))
            && (page.Ok? && c.fault.Some? && !FaultAt(c, Settle) ==> r == (Err(prefix + c.fault.value.message), v))
            && (r.0.Err? ==> StartsWith(r.0.error, prefix))
  {
    var (page, v) := Connect(w, c);
    if page.Err? then (Err(prefix + page.error), v)
    else
      var pressed := v.(doc := v.doc.(chords := v.doc.chords + [chord]));
      match c.fault
      case None => (Ok(Playback(playing)), pressed)
      case Some(f) => (Err(prefix + f.message), if f.stage == Settle then pressed else v)
  }

  /** Whether a chord command reaches the page: it is obtained, and nothing
      throws before the chord is complete. */
  predicate ChordSent(w: World, c: Call) {
    Connect(w, c).0.Ok? && (c.fault.None? || FaultAt(c, Settle))
  }

  /** `stopPlayback`: Ctrl+. on the page. */
  function StopPlayback(w: World, c: Call): (r: (Result<Playback>, World))
    ensures r.0.Ok? <==> Connect(w, c).0.Ok? && c.fault.None?
    ensures r.0.Ok? ==> r.0.value == Playback(false)
    ensures r.1.session == Connect(w, c).1.session
    ensures ChordSent(w, c) ==> r.1.doc == Connect(w, c).1.doc.(chords := Connect(w, c).1.doc.chords + [CtrlPeriod])
    ensures !ChordSent(w, c) ==> r.1 == Connect(w, c).1
    ensures r.0.Err? ==> StartsWith(r.0.error, StopPrefix)
  {
    Press(w, c, CtrlPeriod, false, StopPrefix)
  }

  /** `startPlayback`: Ctrl+Enter on the page. */
  function StartPlayback(w: World, c: Call): (r: (Result<Playback>, World))
    ensures r.0.Ok? <==> Connect(w, c).0.Ok? && c.fault.None?
    ensures r.0.Ok? ==> r.0.value == Playback(true)
    ensures r.1.session == Connect(w, c).1.session
    ensures ChordSent(w, c) ==> r.1.doc == Connect(w, c).1.doc.(chords := Connect(w, c).1.doc.chords + [CtrlEnter])
    ensures !ChordSent(w, c) ==> r.1 == Connect(w, c).1
    ensures r.0.Err? ==> StartsWith(r.0.error, StartPrefix)
  {
    Press(w, c, CtrlEnter, true, StartPrefix)
  }

  // ---------------------------------------------------------------------------
  // reading the page

  /** The in-page read: the CodeMirror document, else the textarea's value,
      else the empty string. */
  function ReadCode(d: Document): (r: string)
    ensures d.editor.None? ==> r == ""
    ensures d.editor.Some? && d.editor.value.view.Some? ==> r == d.editor.value.view.value
    ensures d.editor.Some? && d.editor.value.view.None? ==>
              r == (if d.textarea.Some? then d.textarea.value else "")
  {
    if d.editor.None? then ""
    else if d.editor.value.view.Some? then d.editor.value.view.value
    else if d.textarea.Some? then d.textarea.value
    else ""
  }

  /** `getCurrentCode`: never fails; any error reads as the empty string.
      Its only page call is the in-page read, so a keyboard or settle fault
      does not arise and changes nothing. */
  function GetCurrentCode(w: World, c: Call): (r: (string, World))
    ensures r.1 == Connect(w, c).1
    ensures Connect(w, c).0.Err? || FaultAt(c, InPage) ==> r.0 == ""
    ensures Connect(w, c).0.Ok? && !FaultAt(c, InPage) ==> r.0 == ReadCode(Connect(w, c).1.doc)
  {
    var (page, v) := Connect(w, c);
    if page.Err? || FaultAt(c, InPage) then ("", v)
    else (ReadCode(v.doc), v)
  }

  /** `isPlaying`: whether the page shows an element marked as playing;
      any error reads as not playing. */
  function IsPlaying(w: World, c: Call): (r: (bool, World))
    ensures r.1 == Connect(w, c).1
    ensures r.0 <==> Connect(w, c).0.Ok? && !FaultAt(c, InPage)
                     && Connect(w, c).1.doc.playingMarker
  {
    var (page, v) := Connect(w, c);
    if page.Err? || FaultAt(c, InPage) then (false, v)
    else (v.doc.playingMarker, v)
  }

  // ---------------------------------------------------------------------------
  // setTempo

  datatype TempoSet = TempoSet(bpm: real, cps: real)

  /** `setTempo`: ask the page for `setcps(bpm / 60 / 4)`. A failure of
      `setcps` itself is caught inside the page and does not surface. */
  function SetTempo(w: World, bpm: real, c: Call): (r: (Result<TempoSet>, World))
    ensures r.1.session == Connect(w, c).1.session
    ensures r.0.Ok? <==> Connect(w, c).0.Ok? && c.fault.None?
    ensures r.0.Ok? ==> r.0.value.bpm == bpm && r.0.value.cps * 60.0 * BeatsPerCycle == bpm
    ensures r.0.Ok? ==> r.1.doc.cpsRequests == Connect(w, c).1.doc.cpsRequests + [BpmToCps(bpm)]
    ensures var (page, v) := Connect(w, c);
            var asked := v.(doc := v.doc.(cpsRequests := v.doc.cpsRequests + [BpmToCps(bpm)]));
            && (page.Err? ==> r == (Err(TempoPrefix + page.error), v))
            && (page.Ok? && FaultAt(c, InPage) ==> r == (Err(TempoPrefix + c.fault.value.message), v))
            && (page.Ok? && c.fault.Some? && !FaultAt(c, InPage) ==>
                  r == (Err(TempoPrefix + c.fault.value.message), asked))
            && (r.0.Ok? ==> r.1 == asked)
    ensures r.0.Err? ==> StartsWith(r.0.error, TempoPrefix)
  {
    var (page, v) := Connect(w, c);
    if page.Err? then (Err(TempoPrefix + page.error), v)
    else if FaultAt(c, InPage) then (Err(TempoPrefix + c.fault.value.message), v)
    else
      var cps := BpmToCps(bpm);
      var asked := v.(doc := v.doc.(cpsRequests := v.doc.cpsRequests + [cps]));
      if c.fault.Some? then (Err(TempoPrefix + c.fault.value.message), asked)
      else (Ok(TempoSet(bpm, cps)), asked)
  }

  // ---------------------------------------------------------------------------
  // properties

  /** Reading back right after a successful write returns the code written,
      whether it went to CodeMirror or to the textarea. */
  lemma ExecuteThenRead(w: World, code: string, c: Call, c2: Call)
    requires ExecutePattern(w, code, c).0.Ok?
    requires c2.fault.None?
    requires var d := Connect(w, c).1.doc; d.editor.Some? && (d.editor.value.view.Some? || d.textarea.Some?)
    ensures GetCurrentCode(ExecutePattern(w, code, c).1, c2).0 == code
  {
  }

  /** With an editor but neither a view nor a textarea, `executePattern`
      writes nothing, yet reports success; reading gives the empty string. */
  lemma SuccessWithoutWrite(w: World, code: string, c: Call, c2: Call)
    requires w.session.page.Some? && c.fault.None? && c2.fault.None?
    requires w.doc.editor == Some(Editor(None)) && w.doc.textarea.None?
    ensures ExecutePattern(w, code, c).0 == Ok(Executed(code, true))
    ensures ExecutePattern(w, code, c).1.doc == w.doc.(chords := w.doc.chords + [CtrlEnter])
    ensures GetCurrentCode(ExecutePattern(w, code, c).1, c2).0 == ""
  {
  }

  /** The whole document is replaced: what the editor held before does not
      matter. */
  lemma ExecuteIgnoresPriorContent(w: World, before1: string, before2: string, code: string, c: Call)
    requires w.session.page.Some? && !FaultAt(c, InPage)
    ensures ExecutePattern(w.(doc := w.doc.(editor := Some(Editor(Some(before1))))), code, c)
            == ExecutePattern(w.(doc := w.doc.(editor := Some(Editor(Some(before2))))), code, c)
  {
  }

  /** A page without the editor element makes `executePattern` fail with
      "Editor not found" and leaves the page as it was. */
  lemma MissingEditor(w: World, code: string, c: Call)
    requires w.session.page.Some? && w.doc.editor.None? && c.fault.None?
    ensures ExecutePattern(w, code, c) == (Err(ExecutePrefix + EditorNotFound), w)
  {
  }

  /** No command touches the playing marker: with a page held, whatever
      `executePattern`, `startPlayback` or `stopPlayback` does, `isPlaying`
      answers afterwards as it did before. */
  lemma CommandsLeaveMarker(w: World, code: string, c: Call, c2: Call)
    requires w.session.page.Some?
    ensures IsPlaying(ExecutePattern(w, code, c).1, c2).0 == IsPlaying(w, c2).0
    ensures IsPlaying(StartPlayback(w, c).1, c2).0 == IsPlaying(w, c2).0
    ensures IsPlaying(StopPlayback(w, c).1, c2).0 == IsPlaying(w, c2).0
  {
  }

  /** So a start that succeeds reports playing while a page without the
      marker still reads as not playing. */
  lemma StartedButUnmarked(w: World, c: Call, c2: Call)
    requires w.session.page.Some? && c.fault.None? && !w.doc.playingMarker
    ensures StartPlayback(w, c).0 == Ok(Playback(true))
    ensures !IsPlaying(StartPlayback(w, c).1, c2).0
  {
    CommandsLeaveMarker(w, "", c, c2);
  }

  /** A throw from the wait after Ctrl+Enter: the page holds the code and
      has been told to play it, yet `executePattern` reports failure. */
  lemma ExecuteSettleFault(w: World, code: string, c: Call, c2: Call)
    requires w.session.page.Some? && FaultAt(c, Settle) && c2.fault.None?
    requires w.doc.editor.Some? && w.doc.editor.value.view.Some?
    ensures ExecutePattern(w, code, c).0 == Err(ExecutePrefix + c.fault.value.message)
    ensures ExecutePattern(w, code, c).1.doc.chords == w.doc.chords + [CtrlEnter]
    ensures GetCurrentCode(ExecutePattern(w, code, c).1, c2).0 == code
  {
  }

  /** The same for stop and start: the chord reaches the page and the
      command fails. */
  lemma PressSettleFault(w: World, c: Call)
    requires w.session.page.Some? && FaultAt(c, Settle)
    ensures StopPlayback(w, c).0.Err? && StopPlayback(w, c).1.doc.chords == w.doc.chords + [CtrlPeriod]
    ensures StartPlayback(w, c).0.Err? && StartPlayback(w, c).1.doc.chords == w.doc.chords + [CtrlEnter]
  {
  }

  /** A failed launch reaches the caller with both prefixes. */
  lemma LaunchFailureMessage(w: World, code: string, c: Call)
    requires w.session.page.None? && c.launch.fault.Some?
    ensures ExecutePattern(w, code, c).0
            == Err(ExecutePrefix + LaunchErrorPrefix + c.launch.fault.value.message)
  {
  }
}

=== FILE: tempo.dfy ===
/** Tempo conversion between beats per minute and Strudel's cycles per
    second, assuming four beats to the cycle (`bpmToCps` and `cpsToBpm`).
    Numbers are exact reals here; IEEE rounding is not modelled. */
module Tempo {

  /** Beats in one cycle (one bar of 4/4). */
  const BeatsPerCycle: real := 4.0

  /** `bpm / 60 / 4`. */
  function BpmToCps(bpm: real): (cps: real)
    ensures cps * 60.0 * BeatsPerCycle == bpm
    ensures bpm > 0.0 ==> 0.0 < cps < bpm
  {
    bpm / 60.0 / 4.0
  }

  /** `cps * 60 * 4`. */
  function CpsToBpm(cps: real): (bpm: real)
    ensures bpm / 60.0 / BeatsPerCycle == cps
  {
    cps * 60.0 * 4.0
  }

  lemma CpsToBpmInvertsBpmToCps(bpm: real)
    ensures CpsToBpm(BpmToCps(bpm)) == bpm
  {
  }

  lemma BpmToCpsInvertsCpsToBpm(cps: real)
    ensures BpmToCps(CpsToBpm(cps)) == cps
  {
  }

  /** A faster tempo is a faster cycle rate. */
  lemma BpmToCpsMonotone(a: real, b: real)
    ensures a < b <==> BpmToCps(a) < BpmToCps(b)
  {
  }

  lemma CommonTempos()
    ensures BpmToCps(120.0) == 0.5
    ensures BpmToCps(90.0) == 0.375
    ensures BpmToCps(60.0) == 0.25
  {
  }
}

=== FILE: text.dfy ===
/** The JavaScript string operations the pattern tools rely on, over
    `string` = `seq<char>` (one element per code point).

    `trim` strips the ECMA-262 WhiteSpace and LineTerminator code points;
    `toLowerCase` is restricted to ASCII; `split` and `join` follow the
    JavaScript definitions, including `"".split(c) == [""]`. */
module Text {
  import opened Results

  /** The code points `String.prototype.trim` and `parseInt` skip. */
  predicate IsSpace(c: char) {
    || c == ' ' || c == '\t' || c == '\n' || c == '\r' || c == '\U{000B}' || c == '\U{000C}'
    || c == '\U{00A0}' || c == '\U{1680}' || ('\U{2000}' <= c <= '\U{200A}')
    || c == '\U{2028}' || c == '\U{2029}' || c == '\U{202F}' || c == '\U{205F}'
    || c == '\U{3000}' || c == '\U{FEFF}'
  }

  predicate AllSpace(s: string) {
    forall i :: 0 <= i < |s| ==> IsSpace(s[i])
  }

  /** Neither end of `s` is whitespace. */
  predicate Trimmed(s: string) {
    |s| == 0 || (!IsSpace(s[0]) && !IsSpace(s[|s| - 1]))
  }

  // ---------------------------------------------------------------------------
  // trim

  /** `s` without its leading whitespace. */
  function TrimStart(s: string): (r: string)
    ensures |r| <= |s|
    decreases |s|
  {
    if |s| > 0 && IsSpace(s[0]) then TrimStart(s[1..]) else s
  }

  /** `s` without its trailing whitespace. */
  function TrimEnd(s: string): (r: string)
    ensures |r| <= |s|
    decreases |s|
  {
    if |s| > 0 && IsSpace(s[|s| - 1]) then TrimEnd(s[..|s| - 1]) else s
  }

  /** `TrimStart` removes a whitespace prefix and stops at the first non-space. */
  lemma {:induction false} TrimStartSpec(s: string)
    ensures var r := TrimStart(s);
            && r == s[|s| - |r|..]
            && AllSpace(s[..|s| - |r|])
            && (|r| == 0 || !IsSpace(r[0]))
    decreases |s|
  {
    if |s| > 0 && IsSpace(s[0]) {
      TrimStartSpec(s[1..]);
      var r := TrimStart(s);
      var k := |s| - |r|;
      assert s[1..][..k - 1] == s[1..k];
      assert forall j :: 1 <= j < k ==> s[..k][j] == s[1..k][j - 1];
    } else {
      assert s[..0] == [];
    }
  }

  /** `TrimEnd` removes a whitespace suffix and stops at the last non-space. */
  lemma {:induction false} TrimEndSpec(s: string)
    ensures var r := TrimEnd(s);
            && r == s[..|r|]
            && AllSpace(s[|r|..])
            && (|r| == 0 || !IsSpace(r[|r| - 1]))
    decreases |s|
  {
    if |s| > 0 && IsSpace(s[|s| - 1]) {
      var s' := s[..|s| - 1];
      TrimEndSpec(s');
      var r := TrimEnd(s);
      assert r == s'[..|r|] == s[..|r|];
      assert forall j :: 0 <= j < |s| - 1 - |r| ==> s[|r|..][j] == s'[|r|..][j];
    } else {
      assert s[|s|..] == [];
    }
  }

  /** `String.prototype.trim`. */
  function Trim(s: string): (r: string)
    ensures |r| <= |s|
  {
    TrimEnd(TrimStart(s))
  }

  lemma TrimIsTrimmed(s: string)
    ensures Trimmed(Trim(s))
  {
    var t := TrimStart(s);
    var r := TrimEnd(t);
    TrimStartSpec(s);
    TrimEndSpec(t);
    assert |r| > 0 ==> r[0] == t[0];
  }

  /** Trimming changes nothing exactly when there is nothing to trim. */
  lemma TrimmedIsFixpoint(s: string)
    ensures Trimmed(s) <==> Trim(s) == s
  {
    TrimIsTrimmed(s);
  }

  /** `Trim(s)` is the slice of `s` left after removing whitespace at both ends. */
  lemma TrimBounds(s: string) returns (a: nat, b: nat)
    ensures a <= b <= |s|
    ensures Trim(s) == s[a..b]
    ensures AllSpace(s[..a]) && AllSpace(s[b..])
  {
    var t := TrimStart(s);
    TrimStartSpec(s);
    TrimEndSpec(t);
    a := |s| - |t|;
    var e := TrimEnd(t);
    b := a + |e|;
    assert t == s[a..];
    assert e == t[..|e|] == s[a..b];
    assert t[|e|..] == s[b..];
  }

  /** Every position of `s` before `a` is whitespace. */
  lemma AllSpaceBefore(s: string, a: nat)
    requires a <= |s| && AllSpace(s[..a])
    ensures forall j :: 0 <= j < a ==> IsSpace(s[j])
  {
    forall j | 0 <= j < a ensures IsSpace(s[j]) {
      assert s[..a][j] == s[j];
    }
  }

  /** Every position of `s` from `b` on is whitespace. */
  lemma AllSpaceFrom(s: string, b: nat)
    requires b <= |s| && AllSpace(s[b..])
    ensures forall j :: b <= j < |s| ==> IsSpace(s[j])
  {
    forall j | b <= j < |s| ensures IsSpace(s[j]) {
      assert s[b..][j - b] == s[j];
    }
  }

  lemma {:induction false} AllSpaceTrimStart(s: string)
    requires AllSpace(s)
    ensures TrimStart(s) == ""
    decreases |s|
  {
    if |s| > 0 {
      assert forall j :: 0 <= j < |s| - 1 ==> s[1..][j] == s[j + 1];
      AllSpaceTrimStart(s[1..]);
    }
  }

  /** `s.trim() === ''` exactly when `s` is all whitespace. */
  lemma TrimEmptyIffAllSpace(s: string)
    ensures Trim(s) == "" <==> AllSpace(s)
  {
    var t := TrimStart(s);
    TrimStartSpec(s);
    TrimEndSpec(t);
    AllSpaceBefore(s, |s| - |t|);
    assert t[0..] == t;
    if AllSpace(s) {
      AllSpaceTrimStart(s);
    }
  }

  lemma TrimPrependSpace(w: char, z: string)
    requires IsSpace(w)
    ensures Trim([w] + z) == Trim(z)
  {
    assert ([w] + z)[1..] == z;
  }

  lemma {:induction false} TrimStartAppend(z: string, w: char)
    ensures TrimStart(z + [w]) ==
            if |TrimStart(z)| == 0 && IsSpace(w) then [] else TrimStart(z) + [w]
    decreases |z|
  {
    if |z| == 0 {
      assert z + [w] == [w];
      assert [w][1..] == [];
    } else if IsSpace(z[0]) {
      assert (z + [w])[1..] == z[1..] + [w];
      TrimStartAppend(z[1..], w);
    }
  }

  lemma TrimAppendSpace(z: string, w: char)
    requires IsSpace(w)
    ensures Trim(z + [w]) == Trim(z)
  {
    TrimStartAppend(z, w);
    var t := TrimStart(z);
    assert (t + [w])[..|t|] == t;
  }

  /** `' ' + s` trims back to `s` when `s` is already trimmed. */
  lemma TrimSpaceThenTrimmed(s: string)
    requires Trimmed(s)
    ensures Trim(" " + s) == s
  {
    TrimPrependSpace(' ', s);
    TrimmedIsFixpoint(s);
  }

  // ---------------------------------------------------------------------------
  // toLowerCase

  function LowerChar(c: char): char {
    if 'A' <= c <= 'Z' then (c as int + 32) as char else c
  }

  /** `String.prototype.toLowerCase`, on ASCII letters. */
  function ToLower(s: string): (r: string)
    ensures |r| == |s|
    ensures forall i :: 0 <= i < |s| ==> r[i] == LowerChar(s[i])
  {
    seq(|s|, i requires 0 <= i < |s| => LowerChar(s[i]))
  }

  // ---------------------------------------------------------------------------
  // startsWith, endsWith, includes

  predicate StartsWith(s: string, p: string) {
    |p| <= |s| && s[..|p|] == p
  }

  predicate EndsWith(s: string, p: string) {
    |p| <= |s| && s[|s| - |p|..] == p
  }

  /** A single differing position rules out a prefix. */
  lemma NotStartsWithAt(s: string, p: string, k: nat)
    requires k < |p| && k < |s| && s[k] != p[k]
    ensures !StartsWith(s, p)
  {
    assert |p| <= |s| ==> s[..|p|][k] == s[k];
  }

  lemma StartsWithConcat(p: string, x: string)
    ensures StartsWith(p + x, p)
  {
    assert (p + x)[..|p|] == p;
  }

  lemma RegroupFour(a: string, b: string, c: string, d: string)
    ensures a + b + c + d == a + (b + c + d)
  {
  }

  lemma RegroupFive(a: string, b: string, c: string, d: string, e: string)
    ensures (a + b) + (c + d + e) == a + (b + c) + d + e
  {
  }

  /** `m` occurs in `s` starting at position `i`. */
  predicate OccursAt(s: string, m: string, i: int) {
    0 <= i && i + |m| <= |s| && forall k :: 0 <= k < |m| ==> s[i + k] == m[k]
  }

  /** `String.prototype.includes`. */
  predicate Contains(s: string, m: string) {
    exists i :: 0 <= i <= |s| - |m| && OccursAt(s, m, i)
  }

  /** The first position at or after `i` where `m` occurs, if any. */
  function FirstOccurrence(s: string, m: string, i: nat): (r: Option<nat>)
    ensures r.Some? ==> i <= r.value && OccursAt(s, m, r.value)
    ensures r.Some? ==> forall j :: i <= j < r.value ==> !OccursAt(s, m, j)
    ensures r.None? ==> forall j :: i <= j ==> !OccursAt(s, m, j)
    decreases |s| - i
  {
    if i + |m| > |s| then None
    else if OccursAt(s, m, i) then Some(i)
    else FirstOccurrence(s, m, i + 1)
  }

  /** The first occurrence is the one with none before it. */
  lemma FirstOccurrenceAt(s: string, m: string, k: nat)
    requires OccursAt(s, m, k)
    requires forall j :: 0 <= j < k ==> !OccursAt(s, m, j)
    ensures FirstOccurrence(s, m, 0) == Some(k)
  {
  }

  /** `s.replace(m, rep)` with a string pattern: only the first occurrence is
      replaced, and a string without one is returned as it is. */
  function ReplaceFirst(s: string, m: string, rep: string): (r: string)
    ensures FirstOccurrence(s, m, 0).None? ==> r == s
    ensures FirstOccurrence(s, m, 0).Some? ==>
              var i := FirstOccurrence(s, m, 0).value;
              r == s[..i] + rep + s[i + |m|..]
  {
    match FirstOccurrence(s, m, 0)
    case None => s
    case Some(i) => s[..i] + rep + s[i + |m|..]
  }

  lemma ContainsAppend(s: string, t: string, m: string)
    requires Contains(s, m)
    ensures Contains(s + t, m)
  {
    var i :| 0 <= i <= |s| - |m| && OccursAt(s, m, i);
    assert forall k :: 0 <= k < |m| ==> (s + t)[i + k] == m[k];
    assert OccursAt(s + t, m, i);
  }

  lemma ContainsPrefixOf(s: string, t: string, m: string)
    requires StartsWith(t, m)
    ensures Contains(s + t, m)
  {
    assert forall k :: 0 <= k < |m| ==> (s + t)[|s| + k] == t[k] == m[k];
    assert OccursAt(s + t, m, |s|);
  }

  /** An occurrence of `m` survives dropping a last character that cannot end `m`. */
  lemma ContainsDropLast(s: string, m: string)
    requires Contains(s, m) && |m| > 0 && |s| > 0 && s[|s| - 1] != m[|m| - 1]
    ensures Contains(s[..|s| - 1], m)
  {
    var i :| 0 <= i <= |s| - |m| && OccursAt(s, m, i);
    assert s[i + |m| - 1] == m[|m| - 1];
    assert forall k :: 0 <= k < |m| ==> s[..|s| - 1][i + k] == m[k];
    assert OccursAt(s[..|s| - 1], m, i);
  }

  /** An occurrence of `m` survives trimming when `m` starts and ends with non-space. */
  lemma ContainsTrim(s: string, m: string)
    requires Contains(s, m) && |m| > 0 && !IsSpace(m[0]) && !IsSpace(m[|m| - 1])
    ensures Contains(Trim(s), m)
  {
    var i :| 0 <= i <= |s| - |m| && OccursAt(s, m, i);
    var a, b := TrimBounds(s);
    var j := i + |m| - 1;
    assert s[i] == m[0] && s[j] == m[|m| - 1];
    NonSpaceAfterLeading(s, a, i);
    NonSpaceBeforeTrailing(s, b, j);
    var t := s[a..b];
    assert forall k :: 0 <= k < |m| ==> t[i - a + k] == m[k];
    assert OccursAt(t, m, i - a);
  }

  lemma NonSpaceAfterLeading(s: string, a: nat, i: nat)
    requires a <= |s| && AllSpace(s[..a]) && i < |s| && !IsSpace(s[i])
    ensures a <= i
  {
    AllSpaceBefore(s, a);
  }

  lemma NonSpaceBeforeTrailing(s: string, b: nat, j: nat)
    requires b <= |s| && AllSpace(s[b..]) && j < |s| && !IsSpace(s[j])
    ensures j < b
  {
    AllSpaceFrom(s, b);
  }

  // ---------------------------------------------------------------------------
  // split and join

  /** `s.split(sep)` for a one-character separator. */
  function Split(s: string, sep: char): (r: seq<string>)
    ensures |r| > 0
    decreases |s|
  {
    if |s| == 0 then [""]
    else
      var rest := Split(s[1..], sep);
      if s[0] == sep then [""] + rest else [[s[0]] + rest[0]] + rest[1..]
  }

  /** `parts.join(sep)`. */
  function Join(parts: seq<string>, sep: string): string
    decreases |parts|
  {
    if |parts| == 0 then ""
    else if |parts| == 1 then parts[0]
    else parts[0] + sep + Join(parts[1..], sep)
  }

  /** A character in neither the parts nor the separator is not in their join. */
  lemma {:induction false} JoinAvoids(parts: seq<string>, sep: string, c: char)
    requires forall i :: 0 <= i < |parts| ==> c !in parts[i]
    requires c !in sep
    ensures c !in Join(parts, sep)
    decreases |parts|
  {
    if |parts| > 1 {
      assert forall i :: 0 <= i < |parts| - 1 ==> parts[1..][i] == parts[i + 1];
      JoinAvoids(parts[1..], sep, c);
    }
  }

  /** Joining the pieces of a split with its separator restores the string. */
  lemma {:induction false} JoinSplit(s: string, sep: char)
    ensures Join(Split(s, sep), [sep]) == s
    decreases |s|
  {
    if |s| > 0 {
      var rest := Split(s[1..], sep);
      JoinSplit(s[1..], sep);
      if s[0] == sep {
        assert Join([""] + rest, [sep]) == "" + [sep] + Join(rest, [sep]);
        assert s == [sep] + s[1..];
      } else {
        var parts := [[s[0]] + rest[0]] + rest[1..];
        if |rest| == 1 {
          assert Join(parts, [sep]) == [s[0]] + rest[0];
          assert Join(rest, [sep]) == rest[0];
        } else {
          assert parts[1..] == rest[1..];
          assert Join(parts, [sep]) == [s[0]] + rest[0] + [sep] + Join(rest[1..], [sep]);
          assert Join(rest, [sep]) == rest[0] + [sep] + Join(rest[1..], [sep]);
        }
        assert s == [s[0]] + s[1..];
      }
    }
  }

  lemma {:induction false} SplitNoSep(s: string, sep: char)
    requires sep !in s
    ensures Split(s, sep) == [s]
    decreases |s|
  {
    if |s| > 0 {
      assert forall k :: 0 <= k < |s| - 1 ==> s[1..][k] == s[k + 1];
      SplitNoSep(s[1..], sep);
      assert s == [s[0]] + s[1..];
    }
  }

  /** One step of `Split` on a string with a known first character. */
  lemma SplitCons(c: char, t: string, sep: char)
    ensures c == sep ==> Split([c] + t, sep) == [""] + Split(t, sep)
    ensures c != sep ==> Split([c] + t, sep) == [[c] + Split(t, sep)[0]] + Split(t, sep)[1..]
  {
    assert ([c] + t)[0] == c;
    assert ([c] + t)[1..] == t;
  }

  /** Splitting at a separator splits the two sides independently. */
  lemma {:induction false} SplitConcat(a: string, b: string, sep: char)
    ensures Split(a + [sep] + b, sep) == Split(a, sep) + Split(b, sep)
    decreases |a|
  {
    if |a| == 0 {
      assert a + [sep] + b == [sep] + b;
      SplitCons(sep, b, sep);
    } else {
      var c, t := a[0], a[1..];
      SplitConcat(t, b, sep);
      assert a + [sep] + b == [c] + (t + [sep] + b);
      assert a == [c] + t;
      SplitCons(c, t + [sep] + b, sep);
      SplitCons(c, t, sep);
      SplitConcatStep(c, Split(t, sep), Split(b, sep), sep);
    }
  }

  /** The list algebra behind one step of `SplitConcat`. */
  lemma SplitConcatStep(c: char, ra: seq<string>, rb: seq<string>, sep: char)
    requires |ra| > 0
    ensures c == sep ==> [""] + (ra + rb) == ([""] + ra) + rb
    ensures c != sep ==> [[c] + (ra + rb)[0]] + (ra + rb)[1..] == ([[c] + ra[0]] + ra[1..]) + rb
  {
    assert (ra + rb)[1..] == ra[1..] + rb;
  }

  /** A separator-free line followed by the separator is the first piece. */
  lemma SplitLine(h: string, rest: string, sep: char)
    requires sep !in h
    ensures Split(h + [sep] + rest, sep) == [h] + Split(rest, sep)
  {
    SplitConcat(h, rest, sep);
    SplitNoSep(h, sep);
  }

  /** Appending a non-separator extends the last piece. */
  lemma {:induction false} SplitAppendChar(s: string, x: char, sep: char)
    requires x != sep
    ensures var r := Split(s, sep);
            Split(s + [x], sep) == r[..|r| - 1] + [r[|r| - 1] + [x]]
    decreases |s|
  {
    if |s| == 0 {
      assert s + [x] == [x] + "";
      SplitCons(x, "", sep);
    } else {
      var c, t := s[0], s[1..];
      SplitAppendChar(t, x, sep);
      assert s + [x] == [c] + (t + [x]);
      assert s == [c] + t;
      SplitCons(c, t + [x], sep);
      SplitCons(c, t, sep);
      ExtendLastStep(c, Split(t, sep), x, sep);
    }
  }

  /** The list algebra behind one step of `SplitAppendChar`. */
  lemma ExtendLastStep(c: char, rest: seq<string>, x: char, sep: char)
    requires |rest| > 0
    ensures var n := |rest|;
            var rest' := rest[..n - 1] + [rest[n - 1] + [x]];
            var r := if c == sep then [""] + rest else [[c] + rest[0]] + rest[1..];
            (if c == sep then [""] + rest' else [[c] + rest'[0]] + rest'[1..])
            == r[..|r| - 1] + [r[|r| - 1] + [x]]
  {
    var n := |rest|;
    var rest' := rest[..n - 1] + [rest[n - 1] + [x]];
    if c != sep {
      if n == 1 {
        assert [c] + (rest[0] + [x]) == ([c] + rest[0]) + [x];
      } else {
        assert rest'[0] == rest[0];
        assert rest'[1..] == rest[1..n - 1] + [rest[n - 1] + [x]];
      }
    }
  }

  /** Each piece trimmed: `parts.map((t) => t.trim())`. */
  function MapTrim(parts: seq<string>): (r: seq<string>)
    ensures |r| == |parts|
    ensures forall i :: 0 <= i < |parts| ==> r[i] == Trim(parts[i])
  {
    seq(|parts|, i requires 0 <= i < |parts| => Trim(parts[i]))
  }

  lemma MapTrimPointwise(p: seq<string>, q: seq<string>)
    requires |p| == |q|
    requires forall k :: 0 <= k < |p| ==> Trim(p[k]) == Trim(q[k])
    ensures MapTrim(p) == MapTrim(q)
  {
    var mp, mq := MapTrim(p), MapTrim(q);
    assert forall k :: 0 <= k < |mp| ==> mp[k] == mq[k];
  }

  /** A non-separator character in front extends the first piece. */
  lemma SplitConsNonSep(x: char, z: string, sep: char)
    requires x != sep
    ensures Split([x] + z, sep) == [[x] + Split(z, sep)[0]] + Split(z, sep)[1..]
  {
    assert ([x] + z)[1..] == z;
  }

  lemma MapTrimCons(p: seq<string>)
    requires |p| > 0
    ensures MapTrim(p) == [Trim(p[0])] + MapTrim(p[1..])
  {
    var m, m' := MapTrim(p), MapTrim(p[1..]);
    assert forall k :: 0 < k < |p| ==> m[k] == m'[k - 1];
  }

  /** A leading whitespace character only changes the first piece, and not once trimmed. */
  lemma TrimPiecesIgnoreSpaceChar(w: char, z: string, sep: char)
    requires IsSpace(w) && !IsSpace(sep)
    ensures MapTrim(Split([w] + z, sep)) == MapTrim(Split(z, sep))
  {
    var rest := Split(z, sep);
    var pieces := Split([w] + z, sep);
    SplitConsNonSep(w, z, sep);
    assert pieces[0] == [w] + rest[0] && pieces[1..] == rest[1..];
    MapTrimCons(pieces);
    MapTrimCons(rest);
    TrimPrependSpace(w, rest[0]);
  }

  /** A trailing whitespace character only changes the last piece, and not once trimmed. */
  lemma TrimPiecesIgnoreTrailingSpaceChar(z: string, w: char, sep: char)
    requires IsSpace(w) && !IsSpace(sep)
    ensures MapTrim(Split(z + [w], sep)) == MapTrim(Split(z, sep))
  {
    assert w != sep;
    SplitAppendChar(z, w, sep);
    var r := Split(z, sep);
    var n := |r|;
    var pieces := Split(z + [w], sep);
    assert pieces == r[..n - 1] + [r[n - 1] + [w]];
    assert |pieces| == n;
    assert pieces[..n - 1] == r[..n - 1];
    assert pieces[n - 1] == r[n - 1] + [w];
    TrimAppendSpace(r[n - 1], w);
    forall k | 0 <= k < n ensures Trim(pieces[k]) == Trim(r[k]) {
      if k < n - 1 {
        assert pieces[k] == pieces[..n - 1][k];
      }
    }
    MapTrimPointwise(pieces, r);
  }

  lemma {:induction false} TrimStartPieces(s: string, sep: char)
    requires !IsSpace(sep)
    ensures MapTrim(Split(TrimStart(s), sep)) == MapTrim(Split(s, sep))
    decreases |s|
  {
    if |s| > 0 && IsSpace(s[0]) {
      assert s == [s[0]] + s[1..];
      TrimPiecesIgnoreSpaceChar(s[0], s[1..], sep);
      TrimStartPieces(s[1..], sep);
    }
  }

  lemma {:induction false} TrimEndPieces(s: string, sep: char)
    requires !IsSpace(sep)
    ensures MapTrim(Split(TrimEnd(s), sep)) == MapTrim(Split(s, sep))
    decreases |s|
  {
    if |s| > 0 && IsSpace(s[|s| - 1]) {
      assert s == s[..|s| - 1] + [s[|s| - 1]];
      TrimPiecesIgnoreTrailingSpaceChar(s[..|s| - 1], s[|s| - 1], sep);
      TrimEndPieces(s[..|s| - 1], sep);
    }
  }

  /** Trimming before splitting does not change the trimmed pieces. */
  lemma TrimBeforeSplit(s: string, sep: char)
    requires !IsSpace(sep)
    ensures MapTrim(Split(Trim(s), sep)) == MapTrim(Split(s, sep))
  {
    TrimStartPieces(s, sep);
    TrimEndPieces(TrimStart(s), sep);
  }
}

=== FILE: validate.dfy ===
/** The syntax check `validateCode` runs on pattern code: parentheses must
    never close more than they opened and must all be closed, and the
    single and double quote characters must each occur an even number of
    times. */
module Validate {
  import opened Text
  import opened CodeGen

  const Unbalanced: string := "Unbalanced parentheses"
  const Unclosed: string := "Unclosed parentheses"
  const UnclosedSingle: string := "Unclosed single quotes"
  const UnclosedDouble: string := "Unclosed double quotes"

  /** The effect of one character on the parenthesis count. */
  function Delta(c: char): int {
    if c == '(' then 1 else if c == ')' then -1 else 0
  }

  /** Opening minus closing parentheses in `s`. */
  function Depth(s: string): int
    decreases |s|
  {
    if |s| == 0 then 0 else Delta(s[0]) + Depth(s[1..])
  }

  /** Reading `s` from left to right with `base` parentheses already open,
      the count never drops below zero. */
  predicate StaysAbove(s: string, base: int)
    decreases |s|
  {
    base >= 0 && (|s| == 0 || StaysAbove(s[1..], base + Delta(s[0])))
  }

  /** No prefix of `s` closes more parentheses than it opened. */
  predicate NeverNegative(s: string) {
    StaysAbove(s, 0)
  }

  predicate Balanced(s: string) {
    NeverNegative(s) && Depth(s) == 0
  }

  /** The number of occurrences of `c` in `s`. */
  function Count(s: string, c: char): nat
    decreases |s|
  {
    if |s| == 0 then 0 else (if s[0] == c then 1 else 0) + Count(s[1..], c)
  }

  /** The left-to-right reading agrees with the prefix reading: no prefix
      of `s` takes the count below zero. */
  lemma {:induction false} StaysAbovePrefixes(s: string, base: int)
    ensures StaysAbove(s, base) <==> forall j :: 0 <= j <= |s| ==> base + Depth(s[..j]) >= 0
    decreases |s|
  {
    assert s[..0] == [];
    if |s| > 0 {
      var t := s[1..];
      var b := base + Delta(s[0]);
      StaysAbovePrefixes(t, b);
      forall j | 1 <= j <= |s| ensures Depth(s[..j]) == Delta(s[0]) + Depth(t[..j - 1]) {
        assert s[..j][1..] == t[..j - 1];
      }
      if forall j :: 0 <= j <= |s| ==> base + Depth(s[..j]) >= 0 {
        forall k | 0 <= k <= |t| ensures b + Depth(t[..k]) >= 0 {
          assert base + Depth(s[..k + 1]) >= 0;
        }
      }
    }
  }

  /** What the check reports: `valid` and the messages, in order. */
  datatype Validation = Validation(valid: bool, errors: seq<string>)

  /** The messages `validateCode` reports, stated over the whole input: the
      parenthesis scan stops at the first prefix that closes too much, so a
      code with such a prefix is never also reported as unclosed. */
  function ExpectedErrors(code: string): seq<string> {
    (if !NeverNegative(code) then [Unbalanced] else if Depth(code) > 0 then [Unclosed] else [])
    + (if Count(code, '\'') % 2 != 0 then [UnclosedSingle] else [])
    + (if Count(code, '"') % 2 != 0 then [UnclosedDouble] else [])
  }

  /** Code that passes the check. */
  predicate WellFormedCode(code: string) {
    Balanced(code) && Count(code, '\'') % 2 == 0 && Count(code, '"') % 2 == 0
  }

  /** `validateCode`: a left-to-right parenthesis scan that stops at the
      first closing parenthesis without a partner, then the quote counts. */
  method ValidateCode(code: string) returns (r: Validation)
    ensures r.errors == ExpectedErrors(code)
    ensures r.valid <==> |r.errors| == 0
    ensures r.valid <==> WellFormedCode(code)
    ensures |r.errors| <= 3
    ensures !(Unbalanced in r.errors && Unclosed in r.errors)
  {
    var errors: seq<string> := [];
    var parenCount := 0;
    var i := 0;
    while i < |code|
      invariant 0 <= i <= |code| && parenCount >= 0
      invariant Depth(code) == parenCount + Depth(code[i..])
      invariant NeverNegative(code) == StaysAbove(code[i..], parenCount)
      invariant errors == []
    {
      var c := code[i];
      assert code[i..][1..] == code[i + 1..];
      if c == '(' {
        parenCount := parenCount + 1;
      }
      if c == ')' {
        parenCount := parenCount - 1;
      }
      if parenCount < 0 {
        errors := errors + [Unbalanced];
        break;
      }
      i := i + 1;
    }
    assert errors == [] ==> code[i..] == [];
    if parenCount > 0 {
      errors := errors + [Unclosed];
    }
    var singleQuotes := Count(code, '\'');
    var doubleQuotes := Count(code, '"');
    if singleQuotes % 2 != 0 {
      errors := errors + [UnclosedSingle];
    }
    if doubleQuotes % 2 != 0 {
      errors := errors + [UnclosedDouble];
    }
    r := Validation(|errors| == 0, errors);
  }

  // ---------------------------------------------------------------------------
  // concatenation

  lemma {:induction false} DepthConcat(a: string, b: string)
    ensures Depth(a + b) == Depth(a) + Depth(b)
    decreases |a|
  {
    if |a| == 0 {
      assert a + b == b;
    } else {
      assert (a + b)[1..] == a[1..] + b;
      DepthConcat(a[1..], b);
    }
  }

  lemma {:induction false} CountConcat(a: string, b: string, c: char)
    ensures Count(a + b, c) == Count(a, c) + Count(b, c)
    decreases |a|
  {
    if |a| == 0 {
      assert a + b == b;
    } else {
      assert (a + b)[1..] == a[1..] + b;
      CountConcat(a[1..], b, c);
    }
  }

  /** Two pieces that each stay above the count they start from stay above
      it together. */
  lemma {:induction false} StaysAboveConcat(a: string, b: string, base: int)
    requires StaysAbove(a, base) && StaysAbove(b, base + Depth(a))
    ensures StaysAbove(a + b, base)
    decreases |a|
  {
    if |a| == 0 {
      assert a + b == b;
    } else {
      assert (a + b)[1..] == a[1..] + b;
      StaysAboveConcat(a[1..], b, base + Delta(a[0]));
    }
  }

  lemma {:induction false} StaysAbovePrefix(a: string, b: string, base: int)
    requires StaysAbove(a + b, base)
    ensures StaysAbove(a, base)
    decreases |a|
  {
    if |a| > 0 {
      assert (a + b)[1..] == a[1..] + b;
      StaysAbovePrefix(a[1..], b, base + Delta(a[0]));
    }
  }

  /** Starting higher never hurts. */
  lemma {:induction false} StaysAboveMonotone(s: string, base: int, higher: int)
    requires StaysAbove(s, base) && base <= higher
    ensures StaysAbove(s, higher)
    decreases |s|
  {
    if |s| > 0 {
      StaysAboveMonotone(s[1..], base + Delta(s[0]), higher + Delta(s[0]));
    }
  }

  /** Text without parentheses stays above any non-negative count and does not change it. */
  lemma {:induction false} PlainText(s: string, base: int)
    requires '(' !in s && ')' !in s && base >= 0
    ensures StaysAbove(s, base) && Depth(s) == 0
    decreases |s|
  {
    if |s| > 0 {
      assert forall k :: 0 <= k < |s| - 1 ==> s[1..][k] == s[k + 1];
      PlainText(s[1..], base);
    }
  }

  // ---------------------------------------------------------------------------
  // stacking and validity

  lemma OneChar(c: char, base: int)
    ensures Depth([c]) == Delta(c)
    ensures StaysAbove([c], base) <==> base >= 0 && base + Delta(c) >= 0
    ensures Count([c], '\'') == (if c == '\'' then 1 else 0)
    ensures Count([c], '"') == (if c == '"' then 1 else 0)
  {
    assert [c][1..] == [];
  }

  /** A parenthesis-free piece after an opening parenthesis. */
  lemma OpenThenPlain(pre: string, post: string)
    requires '(' !in pre && ')' !in pre && '(' !in post && ')' !in post
    ensures Depth(pre + "(" + post) == 1 && StaysAbove(pre + "(" + post, 0)
  {
    PlainText(pre, 0);
    PlainText(post, 1);
    OneChar('(', 0);
    StaysAboveConcat(pre, "(", 0);
    DepthConcat(pre, "(");
    StaysAboveConcat(pre + "(", post, 0);
    DepthConcat(pre + "(", post);
  }

  /** The opening line of a new stack opens one parenthesis. */
  lemma OpenPiece()
    ensures Depth(StackWrapOpen) == 1 && StaysAbove(StackWrapOpen, 0)
  {
    assert StackWrapOpen == "stack" + "(" + "\n  ";
    OpenThenPlain("stack", "\n  ");
  }

  lemma OpenPieceSingleQuotes()
    ensures Count(StackWrapOpen, '\'') == 0
  {
  }

  lemma OpenPieceDoubleQuotes()
    ensures Count(StackWrapOpen, '"') == 0
  {
  }

  /** The separator before a new entry has no parentheses or quotes. */
  lemma SeparatorPiece()
    ensures Depth(",\n  ") == 0 && StaysAbove(",\n  ", 1)
    ensures Count(",\n  ", '\'') == 0 && Count(",\n  ", '"') == 0
  {
  }

  /** The closing line closes one parenthesis. */
  lemma ClosePiece()
    ensures Depth("\n)") == -1 && StaysAbove("\n)", 1)
    ensures Count("\n)", '\'') == 0 && Count("\n)", '"') == 0
  {
  }

  /** Wrapping a balanced piece of code between `x` and `y` whose counts
      add up to zero keeps it balanced. */
  lemma WrapBalanced(x: string, body: string, y: string)
    requires Depth(x) >= 0 && StaysAbove(x, 0) && Balanced(body)
    requires StaysAbove(y, Depth(x)) && Depth(x) + Depth(y) == 0
    ensures Balanced(x + body + y)
  {
    var xb := x + body;
    StaysAboveMonotone(body, 0, Depth(x));
    StaysAboveConcat(x, body, 0);
    DepthConcat(x, body);
    StaysAboveConcat(xb, y, 0);
    DepthConcat(xb, y);
  }

  /** Wrapping well-formed code between `x` and `y` whose counts add up to
      zero and whose quotes pair up keeps it well-formed. */
  lemma WrapWellFormed(x: string, body: string, y: string)
    requires Depth(x) >= 0 && StaysAbove(x, 0) && WellFormedCode(body)
    requires StaysAbove(y, Depth(x)) && Depth(x) + Depth(y) == 0
    requires Count(x, '\'') % 2 == Count(y, '\'') % 2 && Count(x, '"') % 2 == Count(y, '"') % 2
    ensures WellFormedCode(x + body + y)
  {
    WrapBalanced(x, body, y);
    WrapParity(x, body, y, '\'');
    WrapParity(x, body, y, '"');
  }

  lemma WrapParity(x: string, body: string, y: string, q: char)
    requires Count(x, q) % 2 == Count(y, q) % 2 && Count(body, q) % 2 == 0
    ensures Count(x + body + y, q) % 2 == 0
  {
    CountConcat(x, body, q);
    CountConcat(x + body, y, q);
    EvenSum(Count(x, q), Count(body, q), Count(y, q));
  }

  lemma EvenSum(a: nat, b: nat, c: nat)
    requires a % 2 == c % 2 && b % 2 == 0
    ensures (a + b + c) % 2 == 0
  {
  }

  /** Balanced code between an opening piece and a separator leaves one
      parenthesis open. */
  lemma OpenedPrefix(open: string, c: string, sep: string)
    requires Balanced(c)
    requires Depth(open) == 1 && StaysAbove(open, 0) && Depth(sep) == 0 && StaysAbove(sep, 1)
    ensures Depth(open + c + sep) == 1 && StaysAbove(open + c + sep, 0)
  {
    var oc := open + c;
    StaysAboveMonotone(c, 0, 1);
    StaysAboveConcat(open, c, 0);
    DepthConcat(open, c);
    StaysAboveConcat(oc, sep, 0);
    DepthConcat(oc, sep);
  }

  lemma PrefixParity(open: string, c: string, sep: string, q: char)
    requires Count(open, q) == 0 && Count(sep, q) == 0 && Count(c, q) % 2 == 0
    ensures Count(open + c + sep, q) % 2 == 0
  {
    CountConcat(open, c, q);
    CountConcat(open + c, sep, q);
  }

  /** Wrapping plain code and a new instrument between an opening piece,
      a separator and a closing piece. */
  lemma NewStackPiecesWellFormed(open: string, c: string, sep: string, n: string, close: string)
    requires WellFormedCode(c) && WellFormedCode(n)
    requires Depth(open) == 1 && StaysAbove(open, 0) && Depth(sep) == 0 && StaysAbove(sep, 1)
    requires Depth(close) == -1 && StaysAbove(close, 1)
    requires Count(open, '\'') == 0 && Count(open, '"') == 0
    requires Count(sep, '\'') == 0 && Count(sep, '"') == 0
    requires Count(close, '\'') == 0 && Count(close, '"') == 0
    ensures WellFormedCode(open + c + (sep + n + close))
  {
    OpenedPrefix(open, c, sep);
    PrefixParity(open, c, sep, '\'');
    PrefixParity(open, c, sep, '"');
    WrapWellFormed(open + c + sep, n, close);
    RegroupFour(open + c, sep, n, close);
  }

  /** Wrapping plain code and a new instrument in a new stack. */
  lemma NewStackWellFormed(currentCode: string, n: string)
    requires WellFormedCode(currentCode) && WellFormedCode(n)
    ensures WellFormedCode(StackWrapOpen + currentCode + StackTail(n))
  {
    OpenPiece();
    OpenPieceSingleQuotes();
    OpenPieceDoubleQuotes();
    SeparatorPiece();
    ClosePiece();
    NewStackPiecesWellFormed(StackWrapOpen, currentCode, ",\n  ", n, "\n)");
  }

  /** Well-formed code ending in `)`, without that `)`, leaves one
      parenthesis open and its quotes paired. */
  lemma DropClosing(h: string)
    requires WellFormedCode(h + ")")
    ensures Depth(h) == 1 && StaysAbove(h, 0)
    ensures Count(h, '\'') % 2 == 0 && Count(h, '"') % 2 == 0
  {
    OneChar(')', 0);
    DepthConcat(h, ")");
    CountConcat(h, ")", '\'');
    CountConcat(h, ")", '"');
    StaysAbovePrefix(h, ")", 0);
  }

  /** Adding to an existing stack that ends with its closing parenthesis. */
  lemma ExtendStackWellFormed(currentCode: string, n: string)
    requires WellFormedCode(currentCode) && WellFormedCode(n)
    requires |currentCode| > 0 && currentCode[|currentCode| - 1] == ')'
    ensures WellFormedCode(currentCode[..|currentCode| - 1] + StackTail(n))
  {
    var h := currentCode[..|currentCode| - 1];
    assert currentCode == h + ")";
    DropClosing(h);
    SeparatorPiece();
    ClosePiece();
    var x := h + ",\n  ";
    StaysAboveConcat(h, ",\n  ", 0);
    DepthConcat(h, ",\n  ");
    CountConcat(h, ",\n  ", '\'');
    CountConcat(h, ",\n  ", '"');
    WrapWellFormed(x, n, "\n)");
    assert x + n + "\n)" == h + StackTail(n);
  }

  /** A well-formed piece never ends below its starting count. */
  lemma {:induction false} StaysAboveEnd(s: string, base: int)
    requires StaysAbove(s, base)
    ensures base + Depth(s) >= 0
    decreases |s|
  {
    if |s| > 0 {
      StaysAboveEnd(s[1..], base + Delta(s[0]));
    }
  }

  /** Extending a stack whose last character is not its `)`: the result
      closes more parentheses than it opens. */
  lemma ExtendStackUnbalanced(currentCode: string, n: string)
    requires Balanced(currentCode) && Depth(n) == 0
    requires |currentCode| > 0 && currentCode[|currentCode| - 1] != ')'
    ensures !NeverNegative(currentCode[..|currentCode| - 1] + StackTail(n))
  {
    var last := currentCode[|currentCode| - 1];
    var h := currentCode[..|currentCode| - 1];
    assert currentCode == h + [last];
    OneChar(last, 0);
    DepthConcat(h, [last]);
    TailDepth(n);
    var r := h + StackTail(n);
    DepthConcat(h, StackTail(n));
    if NeverNegative(r) {
      StaysAboveEnd(r, 0);
    }
  }

  /** The text a stack gains closes one parenthesis more than it opens. */
  lemma TailDepth(n: string)
    requires Depth(n) == 0
    ensures Depth(StackTail(n)) == -1
  {
    SeparatorPiece();
    ClosePiece();
    DepthConcat(",\n  ", n);
    DepthConcat(",\n  " + n, "\n)");
  }

  /** Stacking two well-formed patterns gives well-formed code, provided an
      existing stack ends with its closing parenthesis. */
  lemma StackKeepsWellFormed(currentCode: string, newInstrument: string)
    requires WellFormedCode(currentCode) && WellFormedCode(newInstrument)
    requires StartsWith(currentCode, StackOpen) ==> currentCode[|currentCode| - 1] == ')'
    ensures WellFormedCode(StackPatterns(currentCode, newInstrument))
  {
    if currentCode == "" {
    } else if StartsWith(currentCode, StackOpen) {
      ExtendStackWellFormed(currentCode, newInstrument);
      StackExtended(currentCode, newInstrument);
    } else {
      NewStackWellFormed(currentCode, newInstrument);
      StackWrapped(currentCode, newInstrument);
    }
  }

  /** The proviso is needed: stacking onto a well-formed `stack(...)` whose
      last character is not its `)` (such as `stack(a).slow(2)x`) drops that
      character instead and closes one parenthesis too many. */
  lemma StackNeedsClosingParen(currentCode: string, newInstrument: string)
    requires WellFormedCode(currentCode) && WellFormedCode(newInstrument)
    requires StartsWith(currentCode, StackOpen) && currentCode[|currentCode| - 1] != ')'
    ensures !NeverNegative(StackPatterns(currentCode, newInstrument))
  {
    ExtendStackUnbalanced(currentCode, newInstrument);
    StackExtended(currentCode, newInstrument);
  }
  // ---------------------------------------------------------------------------
  // modifying and validity

  /** Reading `a` first leaves `b` to be read from the count `a` ends at. */
  lemma {:induction false} StaysAboveRest(a: string, b: string, base: int)
    requires StaysAbove(a + b, base)
    ensures StaysAbove(b, base + Depth(a))
    decreases |a|
  {
    if |a| > 0 {
      assert (a + b)[1..] == a[1..] + b;
      StaysAboveRest(a[1..], b, base + Delta(a[0]));
    } else {
      assert a + b == b;
    }
  }

  /** Whitespace holds no parentheses. */
  lemma AllSpacePlain(s: string, base: int)
    requires AllSpace(s) && base >= 0
    ensures StaysAbove(s, base) && Depth(s) == 0
  {
    assert !IsSpace('(') && !IsSpace(')');
    PlainText(s, base);
  }

  /** `trim` changes neither the count nor, from zero, the prefix readings. */
  lemma TrimParens(s: string)
    ensures Depth(Trim(s)) == Depth(s)
    ensures NeverNegative(s) ==> NeverNegative(Trim(s))
  {
    var a, b := TrimBounds(s);
    assert s == s[..a] + s[a..b] + s[b..];
    AllSpacePlain(s[..a], 0);
    AllSpacePlain(s[b..], 0);
    DepthConcat(s[..a] + s[a..b], s[b..]);
    DepthConcat(s[..a], s[a..b]);
    if NeverNegative(s) {
      StaysAbovePrefix(s[..a] + s[a..b], s[b..], 0);
      StaysAboveRest(s[..a], s[a..b], 0);
    }
  }

  /** Removing a final `)` opens the count by one and keeps the prefix readings. */
  lemma DropParenParens(s: string)
    ensures var d := DropTrailingParen(s);
            Depth(d) == Depth(s) + (if |d| < |s| then 1 else 0)
            && (NeverNegative(s) ==> NeverNegative(d))
  {
    var d := DropTrailingParen(s);
    if |d| < |s| {
      assert s == d + [')'];
      DepthConcat(d, [')']);
      OneChar(')', 0);
      if NeverNegative(s) {
        StaysAbovePrefix(d, [')'], 0);
      }
    }
  }

  /** What a rule appends: a balanced piece of method calls ending in `)`. */
  predicate CallSuffix(suffix: string) {
    |suffix| > 0 && suffix[|suffix| - 1] == ')' && Balanced(suffix)
  }

  /** One call `name(args)` with no parentheses inside. */
  lemma CallPiece(name: string, args: string)
    requires '(' !in name && ')' !in name && '(' !in args && ')' !in args
    ensures CallSuffix(name + "(" + args + ")")
  {
    var open := name + "(" + args;
    OpenThenPlain(name, args);
    OneChar(')', 1);
    DepthConcat(open, ")");
    StaysAboveConcat(open, ")", 0);
    assert (open + ")")[|open|] == ')';
  }

  /** Two balanced call pieces in a row. */
  lemma CallSuffixConcat(a: string, b: string)
    requires CallSuffix(a) && CallSuffix(b)
    ensures CallSuffix(a + b)
  {
    DepthConcat(a, b);
    StaysAboveConcat(a, b, 0);
    assert (a + b)[|a + b| - 1] == b[|b| - 1];
  }

  lemma ReverbSuffix()
    ensures CallSuffix(Rules[0].suffix)
  {
    assert Rules[0].suffix == ".room" + "(" + "0.5" + ")" + (".size" + "(" + "0.8" + ")");
    CallPiece(".room", "0.5");
    CallPiece(".size", "0.8");
    CallSuffixConcat(".room" + "(" + "0.5" + ")", ".size" + "(" + "0.8" + ")");
  }

  lemma DelaySuffix()
    ensures CallSuffix(Rules[1].suffix)
  {
    assert Rules[1].suffix == ".delay" + "(" + "0.3" + ")" + (".delaytime" + "(" + "0.25" + ")");
    CallPiece(".delay", "0.3");
    CallPiece(".delaytime", "0.25");
    CallSuffixConcat(".delay" + "(" + "0.3" + ")", ".delaytime" + "(" + "0.25" + ")");
  }

  lemma FilterGainSuffixes()
    ensures CallSuffix(Rules[2].suffix) && CallSuffix(Rules[3].suffix) && CallSuffix(Rules[4].suffix)
  {
    assert Rules[2].suffix == ".lpf" + "(" + "800" + ")";
    assert Rules[3].suffix == ".gain" + "(" + "1.2" + ")";
    assert Rules[4].suffix == ".gain" + "(" + "0.7" + ")";
    CallPiece(".lpf", "800");
    CallPiece(".gain", "1.2");
    CallPiece(".gain", "0.7");
  }

  lemma SpeedSuffixes()
    ensures CallSuffix(Rules[5].suffix) && CallSuffix(Rules[6].suffix)
  {
    assert Rules[5].suffix == ".fast" + "(" + "2" + ")";
    assert Rules[6].suffix == ".slow" + "(" + "2" + ")";
    CallPiece(".fast", "2");
    CallPiece(".slow", "2");
  }

  /** Every rule of `modifyCode` appends balanced calls ending in `)`. */
  lemma RuleSuffixes()
    ensures forall i :: 0 <= i < |Rules| ==> CallSuffix(Rules[i].suffix)
  {
    ReverbSuffix();
    DelaySuffix();
    FilterGainSuffixes();
    SpeedSuffixes();
  }

  /** A rule that fires on code ending in `)` removes that `)` and appends a
      balanced piece: one more parenthesis stays open, and the result again
      ends in `)`. */
  lemma ApplyRuleOpens(code: string, mod: string, rule: Rule)
    requires CallSuffix(rule.suffix)
    requires |code| > 0 && code[|code| - 1] == ')'
    requires NeverNegative(code)
    ensures var r := ApplyRule(code, mod, rule);
            && |r| > 0 && r[|r| - 1] == ')' && NeverNegative(r)
            && Depth(r) == (if r == code then Depth(code) else Depth(code) + 1)
  {
    var r := ApplyRule(code, mod, rule);
    if Triggered(mod, rule) && !Contains(code, rule.marker) {
      var d := DropTrailingParen(code);
      var t := Trim(d);
      DropParenParens(code);
      TrimParens(d);
      assert r == t + rule.suffix;
      DepthConcat(t, rule.suffix);
      StaysAboveEnd(t, 0);
      StaysAboveMonotone(rule.suffix, 0, Depth(t));
      StaysAboveConcat(t, rule.suffix, 0);
      assert r[|r| - 1] == rule.suffix[|rule.suffix| - 1];
      assert Depth(r) != Depth(code);
    }
  }

  /** Each rule that fires on code ending in `)` leaves one more parenthesis open. */
  lemma {:induction false} ApplyRulesOpen(code: string, mod: string, rules: seq<Rule>)
    requires forall i :: 0 <= i < |rules| ==> CallSuffix(rules[i].suffix)
    requires |code| > 0 && code[|code| - 1] == ')'
    requires NeverNegative(code)
    ensures var r := ApplyRules(code, mod, rules);
            && |r| > 0 && r[|r| - 1] == ')' && NeverNegative(r)
            && Depth(r) >= Depth(code)
            && (r != code ==> Depth(r) > Depth(code))
    decreases |rules|
  {
    if |rules| > 0 {
      var next := ApplyRule(code, mod, rules[0]);
      assert ApplyRules(code, mod, rules) == ApplyRules(next, mod, rules[1..]);
      ApplyRuleOpens(code, mod, rules[0]);
      assert forall i :: 0 <= i < |rules| - 1 ==> rules[1..][i] == rules[i + 1];
      ApplyRulesOpen(next, mod, rules[1..]);
    }
  }

  /** `modifyCode` on balanced code ending in `)`: whenever it changes the
      code, the new calls land inside the last call and stay open, so
      `validateCode` reports the result as unclosed. */
  lemma ModifyLeavesUnclosed(currentCode: string, modification: string)
    requires Balanced(currentCode) && |currentCode| > 0 && currentCode[|currentCode| - 1] == ')'
    requires ModifyCode(currentCode, modification) != currentCode
    ensures var r := ModifyCode(currentCode, modification);
            NeverNegative(r) && Depth(r) > 0
            && |ExpectedErrors(r)| > 0 && ExpectedErrors(r)[0] == Unclosed
  {
    RuleSuffixes();
    ApplyRulesOpen(currentCode, ToLower(modification), Rules);
  }

  /** The kick pattern `s("bd")` is a single balanced call. */
  lemma KickIsCall()
    ensures CallSuffix(Kick)
  {
    assert Kick == "s" + "(" + "\"bd\"" + ")";
    CallPiece("s", "\"bd\"");
  }

  /** Adding reverb to `s("bd")` gives code `validateCode` reports as unclosed. */
  lemma ReverbOnKickUnclosed()
    ensures Unclosed in ExpectedErrors(ModifyCode(Kick, "add reverb"))
  {
    KickIsCall();
    ReverbOnKick();
    var r := "s(\"bd\".room(0.5).size(0.8)";
    assert |r| != |Kick|;
    ModifyLeavesUnclosed(Kick, "add reverb");
  }
}
